=== FILE: README.md ===
# GRC platform core in Dafny

This project models the business logic under a multi-tenant governance,
risk and compliance (GRC) platform. The platform keeps a catalogue of
compliance standards, each version a tree of controls
(domain > sub-domain > control > sub-control). Tenants keep a tree of
business units and a library of assessment questions mapped to controls.

An assessment resolves which controls are in scope and snapshots ("materialises") the mapped
questions for those controls. Users answer them; each response goes through
draft → submitted → approved/rejected and is scored on a maturity scale.
Gaps become findings with auto-generated numbers, and reports move through
pending → generating → completed/failed. Access is role-based:
- users hold roles, globally or for one organisation or business unit;
- roles hold permissions;
- object and scope checks guard the API.

Every database table is a value (`map`, `seq` or `set`) or a `class`
whose fields the operations reassign. A tree table is a `Forest`: a map from
row id to row with an optional parent link, together with the table's
default ordering. Operations that walk or fill state step by step are
methods with loop invariants, proved against specification functions. The
tree properties (depth, root-to-node path, pre-order descendants, cycle
detection) are proved once, generically, in `Hierarchy`. Time is an integer
count of seconds (days for date-only columns), passed in as `now`/`today`.
Row keys are natural numbers, freshly allocated keys are parameters, and
decimals are `real`.

The model follows the code, except where the code fails outright or
contradicts its own documentation. There the main operations model the
intended behaviour. Each such case is listed under "## Findings" with an
as-written companion that shows the failure. Behaviours the model keeps as
written, each stated by a member in the table below:
- `filter_by_user_scope` uses business-unit scope ids only when the field
  name contains `business_unit` (iam/permissions.py:318-322;
  `IamPermissions.FilterByUserScope`).
- A generated finding number repeats after a deletion, and the unique
  constraint then rejects the save (findings/models.py:84-90;
  `FindingsModels.NumberRepeatsAfterDeletion`).

## Model

| member | source | states |
|---|---|---|
| Hierarchy.DepthStep | standards/models.py:260-267 | a root has depth 0 and a child is one deeper than its parent |
| Hierarchy.LineageDistinct | standards/models.py:236-240 | on an acyclic table the upward walk from a node meets no node twice |
| Hierarchy.DescendantsAreBelow | standards/models.py:252-258 | a row is in the pre-order descendant list of `x` exactly when `x` is one of its ancestors |
| Hierarchy.NotOwnDescendant | standards/models.py:252-258 | a node is never among its own descendants |
| Hierarchy.RevisitsIffBelowSelf | standards/models.py:211-219 | the walk from a proposed parent `p` comes back to a visited row exactly when `p` is the row itself or one of its descendants |
| Hierarchy.RootPath | standards/models.py:234-241 | the root-to-node path has depth+1 entries, ends at the node and stays in the table |
| Hierarchy.CycleWalkNeverEnds | standards/models.py:260-267 | on a row that parent links lead back to, the upward walk never reaches a row without a parent, so a `while parent:` loop never stops |
| Hierarchy.TwoRowCycle | standards/models.py:165-172 | the nullable self-referencing `parent` key admits two rows naming each other as parent: the table satisfies referential integrity but is not acyclic |
| StandardsModels.LatestVersion | standards/models.py:62-64 | None exactly when the standard has no unlocked version; otherwise an unlocked version at least as recent as every other unlocked one |
| StandardsModels.ControlCount | standards/models.py:108-110 | the number of nodes of the version whose type is `control` |
| StandardsModels.HierarchyRoot | standards/models.py:112-114 | exactly the parentless nodes of the version, each once, in the table's code order |
| StandardsModels.IsLeafIff | standards/models.py:269-271 | a node is a leaf iff no row names it as parent, iff its descendant list is empty |
| StandardsModels.SiblingCountCounts | standards/models.py:273-277 | the sibling count is the number of nodes at the node's level (same parent, or parentless in the same version), itself included, so at least 1 |
| StandardsModels.TypeRule | standards/models.py:221-232 | fails exactly when the node has a parent, its type is checked and the parent's type is not among the allowed ones, with "<type> cannot have parent of type <ptype>"; root nodes and domains are never checked |
| StandardsModels.Clean | standards/models.py:209-232 | a parent chain that revisits a node fails with "Circular parent reference detected"; otherwise the result is the type rule; on a consistent table the circular error comes exactly when the proposed parent is the node or one of its descendants |
| StandardsModels.PathCodesStep | standards/models.py:234-241 | the path has depth+1 segments, the node's own code last, and is the parent's path plus that code |
| StandardsModels.GetHierarchyPath | standards/models.py:234-241 | the loop's result is the root-to-node codes joined by " > " |
| StandardsModels.GetFullPathTitle | standards/models.py:243-250 | the loop's result is the root-to-node "code title" segments joined by " > " |
| StandardsModels.GetDepth | standards/models.py:260-267 | the loop counts exactly the node's depth |
| StandardsModels.GetDescendants | standards/models.py:252-258 | the accumulated list equals the pre-order descendant list |
| TenancyModels.Label | tenancy/models.py:206-209 | a root unit shows its bare name, a child "parent > name" (one level only) |
| TenancyModels.TenantIsActive | tenancy/models.py:44-45 | true exactly for a tenant whose stored status is "active"; suspended, trial and archived tenants are not active |
| TenancyModels.LabelIsPathTail | tenancy/models.py:206-209 | the label is the last two segments of the hierarchy path, the whole path one level deep |
| TenancyModels.Clean | tenancy/models.py:211-220 | fails with "Circular parent reference detected" exactly when the walk from the parent revisits a unit; on a consistent tree, exactly when the parent is the unit or one of its descendants |
| TenancyModels.GetHierarchyPath | tenancy/models.py:222-229 | the loop's result is the root-to-unit names joined by " > " |
| TenancyModels.GetDescendants | tenancy/models.py:231-237 | the accumulated list equals the pre-order descendant list (children in name order) |
| AssessmentsModels.NewAssessment | assessments/models.py:40 | a new assessment is DRAFT with the given columns |
| AssessmentsModels.ProgressPercentage | assessments/models.py:61-69 | 0 with no questions; in [0, 100]; 100 iff every question is answered, 0 iff none is |
| AssessmentsModels.PercentBounds | assessments/models.py:66-69 | a share as a percentage lies in [0, 100] and reaches the ends only at none and all |
| AssessmentsModels.IsOverdueCases | assessments/models.py:71-76 | never overdue without a due date or when COMPLETED; otherwise overdue iff today is past the due date, ARCHIVED included |
| AssessmentsModels.OverdueUntilCompleted | assessments/models.py:71-76 | an overdue assessment stays overdue as days pass, and completing it clears the flag |
| AssessmentsModels.AddScope | assessments/models.py:79-96 | inserts iff (assessment, control) is new, include_children defaulting to true; a duplicate is a conflict; keys stay unique |
| AssessmentsModels.AddAssignment | assessments/models.py:171-198 | inserts a PENDING assignment iff (question, assignee) is new; keys stay unique |
| QuestionBankModels.LikertOptionsShape | question_bank/models.py:145-163 | five options valued "1".."5", each weighing its own numeric value, in display order 0..4 |
| QuestionBankModels.YesNoOptionsShape | question_bank/models.py:166-181 | exactly "yes" (5.0, order 0) then "no" (1.0, order 1) |
| QuestionBankModels.OptionsOfMembers | question_bank/models.py:70-91 | the options of a question are exactly the option rows pointing to it |
| QuestionBankModels.QuestionBankDb.constructor | question_bank/models.py:10-120 | empty tables satisfy the (tenant, code) and mapping uniqueness invariant |
| QuestionBankModels.QuestionBankDb.CreateOptions | question_bank/models.py:155-163 | appends one row per table entry, display order = index, and keeps the invariant |
| QuestionBankModels.QuestionBankDb.CreateDefaultLikertOptions | question_bank/models.py:145-163 | appends exactly the Likert rows for the question |
| QuestionBankModels.QuestionBankDb.CreateYesNoOptions | question_bank/models.py:166-181 | appends exactly the yes/no rows for the question |
| QuestionBankModels.AssessmentUsageCount | question_bank/models.py:64-67 | 0 exactly when no materialised question comes from this bank question |
| QuestionBankModels.UsageCountStubMissesUse | question_bank/models.py:64-67 | the stub says 0 for a question one assessment uses, where the count is 1 |
| QuestionBankSerializers.NewQuestion | question_bank/serializers.py:58-65 | the row is owned by the user's tenant; omitted fields take the column defaults (LIKERT_1_5, single_choice, "", {}, []) and is_active is true |
| QuestionBankSerializers.DefaultOptionsCases | question_bank/serializers.py:59-74 | auto-creation defaults to on; Likert gets the five options, yes/no the pair, text/numeric or opting out gets none |
| QuestionBankSerializers.GenerateOptions | question_bank/serializers.py:67-74 | with auto-creation on, a Likert question gets the Likert set and a yes/no question the yes/no set, appended; other scales, or auto-creation off, add nothing |
| QuestionBankSerializers.Create | question_bank/serializers.py:58-76 | a code the tenant already uses is a conflict and writes nothing; otherwise the question and exactly its default options are added, other questions' options unchanged |
| QuestionBankViews.CopyOf | question_bank/views.py:65-76 | code + "_copy", every other content column equal to the original's |
| QuestionBankViews.RetargetCopiesColumns | question_bank/views.py:79-87 | each copied option agrees with its original on value, text, weight, description and order |
| QuestionBankViews.CopyOptions | question_bank/views.py:79-87 | appends one copy of each original option, in order, pointing at the duplicate; the questions and mappings are unchanged |
| QuestionBankViews.Duplicate | question_bank/views.py:56-90 | not found outside the user's tenant; conflict on a taken code; otherwise the copy and one option per original option are added and the original's options are unchanged |
| QuestionBankViews.NewMapping | question_bank/views.py:140-144 | the inserted mapping has the requested key and default columns |
| QuestionBankViews.BulkCreate | question_bank/views.py:128-153 | afterwards every requested pair is mapped; `created` is appended and holds exactly the previously missing pairs, at most controls×questions |
| QuestionBankViews.MapQuestions | question_bank/views.py:140-147 | afterwards the control is mapped to every question id; the rows added are appended, each a new default mapping of a pair that had none, at most one per question id |
| QuestionBankViews.MappedGrows | question_bank/views.py:141-145 | inserting rows never removes a mapping, so pairs mapped earlier stay mapped |
| QuestionBankViews.AppendKeepsUnique | question_bank/models.py:113 | adding a mapping with a new key keeps (tenant, control, question) unique |
| QuestionBankViews.CreatedCountsMissing | question_bank/views.py:139-152 | the created count equals the number of pairs that had no mapping |
| QuestionBankViews.NothingMissingIffAllMapped | question_bank/views.py:141-147 | nothing is missing iff every pair is mapped, so a repeated call creates nothing |
| Materialization.ScopedControlsRule | assessments/materialization.py:79-99 | without scope rows, exactly the active nodes of the version; with them, exactly the active nodes named by a row or below a row with include_children; each once |
| Materialization.InactiveScopedNodeDropped | assessments/materialization.py:96-99 | an explicitly scoped but non-active node is not in scope |
| Materialization.CyclicCatalogResolvable | assessments/materialization.py:79-94 | scope resolution demands an acyclic table only when a scope row has include_children: with no scope rows, or only rows without it, a table whose parent links form a cycle is still resolved |
| Materialization.CollectScopedIds | assessments/materialization.py:86-94 | the loop collects every scoped node and, with include_children, its descendants |
| Materialization.GetScopedControls | assessments/materialization.py:68-99 | the returned controls are the resolved scope, in table order |
| Materialization.Snapshot | assessments/materialization.py:42-57 | the row copies code, text, type, scale, guidance and pptdf code; erl_refs and evidence tags fall back to []; display order and is_mandatory come from the mapping |
| Materialization.SnapshotsCount | assessments/materialization.py:27-58 | one row per (control, active mapping); `questions_created` is the number of rows |
| Materialization.CoveredBounds | assessments/materialization.py:35-36 | controls with questions ≤ controls in scope and ≤ questions created, and zero together with it |
| Materialization.SnapshotsProvenance | assessments/materialization.py:38-57 | every written row belongs to the assessment and is the snapshot of an active mapping of a scoped control |
| Materialization.WriteAllSnapshots | assessments/materialization.py:28-58 | the loop appends all snapshots and counts exactly the mapping total and the covered controls |
| Materialization.Materialize | assessments/materialization.py:11-65 | existing rows are kept and the snapshots appended; the statistics are the mapping total, the scope size, the covered count and 'success' |
| Materialization.RowsOfAll | assessments/materialization.py:114-120 | selecting an assessment's rows from rows that all belong to it gives them back |
| Materialization.Rematerialize | assessments/materialization.py:102-123 | reports the old row count as deleted; afterwards the assessment's rows are exactly the new snapshots and other rows are untouched |
| Materialization.DefaultScopeRowBreaksResolution | assessments/materialization.py:88-94 | as written, one default scope row makes resolution fail where the intended rule scopes the node |
| Materialization.MaterializeAsWrittenFails | assessments/materialization.py:28-33 | as written, any assessment with a control in scope fails on the mapping query |
| IamModels.AppUser.constructor | iam/models.py:14-58 | a new user has no failures, no lock and no login |
| IamModels.LockExpires | iam/models.py:72-76 | an account without a lock time is never locked; with one, it is locked exactly before that time, and once the lock has run out it stays run out |
| IamModels.AppUser.RecordLogin | iam/models.py:78-83 | stamps the login, resets the count, clears the lock, so the account is unlocked at every time |
| IamModels.AppUser.RecordFailedLogin | iam/models.py:85-90 | count + 1; at or over the threshold the lock is now + lockout minutes (and the account is locked now), below it the lock is unchanged |
| IamModels.UserRoleClean | iam/models.py:315-324 | passes iff (global ⇔ no scope id), with the two exact messages |
| IamModels.HasPermission | iam/models.py:98-103 | true iff some role assignment of the user links to a role holding the code |
| IamModels.HasPermissionIgnoresScope | iam/models.py:98-103 | changing an assignment's scope never changes the answer |
| IamModels.HasAnyPermissionIffSome | iam/models.py:105-110 | true iff `has_permission` holds for some listed code; false for an empty list |
| IamModels.HasPermissionAsWrittenRaises | iam/models.py:98-103 | as written, the query raises FieldError even for a user who holds the permission |
| IamModels.HasAnyPermissionAsWrittenRaises | iam/models.py:105-110 | as written, `has_any_permission` raises FieldError even for a user who holds one of the codes, which the intended join finds |
| IamModels.RbacDb.constructor | iam/models.py:172-239 | empty permission and link tables |
| IamModels.RbacDb.AssignPermission | iam/models.py:155-161 | adds the (tenant, role, permission) link, a no-op when present |
| IamModels.RbacDb.RemovePermission | iam/models.py:163-169 | removes exactly that link |
| IamModels.SeededRows | iam/models.py:338-403 | seeding keeps every existing row unchanged, adds every default code and nothing else |
| IamModels.CreatedCodesExact | iam/models.py:392-403 | the returned codes are exactly the default codes that were absent, each once |
| IamModels.SecondSeedCreatesNothing | iam/models.py:338-403 | a second run creates nothing and changes nothing |
| IamModels.RbacDb.SeedDefaultPermissions | iam/models.py:338-403 | the loop leaves the seeded table and returns the created codes |
| IamPermissions.CheckPermission | iam/permissions.py:217-227 | false for anonymous or missing users, else the permission check |
| IamPermissions.HasPermissionCheck | iam/permissions.py:36-54 | unauthenticated: refused; nothing required: allowed; otherwise the permission check |
| IamPermissions.HasAnyPermissionCheck | iam/permissions.py:57-75 | unauthenticated: refused; empty list: allowed; otherwise some listed code is granted |
| IamPermissions.IsOwnerOrAdmin | iam/permissions.py:78-93 | Admin role holders pass; others pass iff owner_user_id (or, when falsy, created_by_id) is the user |
| IamPermissions.IsTenantMember | iam/permissions.py:96-110 | passes iff the object's tenant is the user's |
| IamPermissions.HasScopeAccess | iam/permissions.py:259-281 | false for missing or unauthenticated users; true for a global role holder; otherwise true iff some role of the user has exactly that scope type and id |
| IamPermissions.ScopeAccessCases | iam/permissions.py:273-281 | a global role grants every scope; otherwise access iff a role has exactly that (type, id) |
| IamPermissions.ScopeAccessNotTransitive | iam/permissions.py:277-281 | a business-unit role gives no access to an organisation |
| IamPermissions.FilterByUserScope | iam/permissions.py:284-324 | unauthenticated: empty; global role: unchanged; otherwise the rows kept by organisation ids, plus unit ids only for a business_unit field, in their original order; empty when no scope applies |
| IamPermissions.FilterByUserScopeIdempotent | iam/permissions.py:284-324 | filtering the filtered list again gives the same list |
| ResponsesModels.ScoreForCases | responses/models.py:65-75 | Likert: a truthy answer is the score, else the old score stays; yes/no: 5.0 iff answer 1, else 1.0; other scales unchanged |
| ResponsesModels.ScoreInRange | responses/models.py:65-75 | with answers in 0..5 and an old score in [1, 5], the score stays in [1, 5] |
| ResponsesModels.ScoreForIdempotent | responses/models.py:65-75 | scoring the same answer a second time leaves the score as the first scoring set it |
| ResponsesModels.Response.constructor | responses/models.py:13-50 | a new response is a draft without score or stamps |
| ResponsesModels.Response.CalculateMaturityScore | responses/models.py:65-75 | the score becomes the scale's score of the answer, nothing else changes |
| ResponsesModels.Response.Submit | responses/models.py:77-84 | non-draft: ValidationError and no change; draft: SUBMITTED, stamped, scored |
| ResponsesModels.Response.Approve | responses/models.py:86-91 | from any status: APPROVED with approver and time |
| ResponsesModels.Response.Reject | responses/models.py:93-97 | from any status: REJECTED with the comments |
| ResponsesModels.AddResponse | responses/models.py:52-54 | one response per (assessment, question): a second is a conflict; keys stay unique |
| ResponsesModels.EvidenceExpiryMonotone | responses/models.py:207-210 | evidence without expiry never expires; once expired it stays expired |
| FindingsModels.FindingIsOverdueCases | findings/models.py:78-82 | never with no due date or when resolved, closed or risk-accepted; otherwise iff today is past the due date |
| FindingsModels.FindingOverdueUntilSettled | findings/models.py:78-82 | an overdue finding stays overdue as days pass until it is resolved, closed or risk-accepted, which clears the flag |
| FindingsModels.RiskAcceptanceExpiryCases | findings/models.py:237-242 | an inactive acceptance is expired; an active one iff past its expiry date, and stays so |
| FindingsModels.Prefix6 | findings/models.py:89 | the first six characters, or the whole string when shorter |
| FindingsModels.FindingNumberShape | findings/models.py:86-89 | "FND-", prefix, "-", then at least four digits reading back as count + 1; 15 characters below 9999 findings |
| FindingsModels.FindingNumberInjective | findings/models.py:86-89 | two counts never give the same number for one tenant |
| FindingsModels.TenantCount | findings/models.py:88 | the number of rows of the table that belong to the tenant |
| FindingsModels.NumberRepeatsAfterDeletion | findings/models.py:86-89 | after one of two findings is deleted the next generated number is already taken |
| FindingsModels.FindingTable.constructor | findings/models.py:11-72 | an empty table |
| FindingsModels.FindingTable.Save | findings/models.py:84-90 | a blank number is generated, a given one kept; a taken number is a conflict with no write, else the row is appended |
| ReportingModels.Report.constructor | reporting/models.py:245-249 | a new report is pending with no file and no error |
| ReportingModels.Report.MarkAsGenerating | reporting/models.py:288-291 | from any status: generating, nothing else changes |
| ReportingModels.Report.MarkAsCompleted | reporting/models.py:293-299 | from any status: completed with path, size and time |
| ReportingModels.Report.MarkAsFailed | reporting/models.py:301-305 | from any status: failed with the message, file columns kept |
| ReportingModels.DashboardWidget.constructor | reporting/models.py:160-161 | a new widget has no cached data |
| ReportingViews.DashboardTable.constructor | reporting/models.py:11-80 | an empty dashboard table |
| ReportingViews.DashboardTable.SetDefault | reporting/views.py:54-68 | not found outside the tenant; otherwise the chosen dashboard is the tenant's only default and other tenants' rows are untouched |
| ReportingViews.Refresh | reporting/views.py:84-99 | not found for a widget of another tenant, which is left alone; otherwise clears cached data and cache time |
| ReportingViews.ReportPath | reporting/views.py:132 | "/reports/" + id + "." + format |
| ReportingViews.DownloadOf | reporting/views.py:149-165 | not found for a report of another tenant; ready iff completed, with path, size, format and name; otherwise "Report not ready" with the current status |
| ReportingViews.Generate | reporting/views.py:120-147 | not found for a report of another tenant, which is left unchanged; otherwise the report ends completed with "/reports/<id>.<format>", 1024000 bytes and a time, keeps its id, tenant, format and name, and can then be downloaded |
| StandardsViews.StandardVisibleAsWrittenOwnTenant | standards/views.py:37-43 | as written, both alternatives of the visibility filter come down to the standard belonging to the user's tenant |
| StandardsViews.SharedStandardHiddenAsWritten | standards/views.py:37-43 | as written, a global standard owned by another tenant is hidden, where the intended rule shows it |
| StandardsViews.StandardVisibleRule | standards/models.py:10-31 | global standards are visible to every tenant, tenant standards exactly to their own tenant; every standard the written filter shows stays visible |
| StandardsViews.FindVersion | standards/views.py:83-89 | finds the version with the id, or None when there is none |
| StandardsViews.Latest | standards/views.py:56-69 | not found for an invisible standard or one with no unlocked version; otherwise the latest unlocked version |
| StandardsViews.StatisticsOf | standards/views.py:121-145 | total, per-type and per-status counts and the four criticality buckets, each family summing to the total |
| StandardsViews.CriticalityPartition | standards/views.py:125-133 | the buckets ≥8, [5,8), [3,5), <3 partition the version's nodes |
| StandardsViews.TypesPartition | standards/views.py:137-140 | the type groups partition the version's nodes |
| StandardsViews.StatusesPartition | standards/views.py:142-145 | the status groups partition the version's nodes |
| StandardsViews.Statistics | standards/views.py:113-147 | not found exactly for an invisible version, else the version's statistics (total = its node count) |
| StandardsViews.LowerIdempotent | standards/views.py:230 | lower-casing twice is lower-casing once |
| StandardsViews.TagCaseFolded | standards/views.py:256 | "Cloud" and "CLOUD" name the same tag |
| StandardsViews.TagTable.constructor | standards/models.py:280-306 | an empty tag table |
| StandardsViews.TagTable.AddTag | standards/views.py:212-236 | not found, "tag is required", or the lower-cased tag added; "Tag already exists" when present |
| StandardsViews.TagTable.RemoveTag | standards/views.py:238-263 | not found, "tag is required", or the lower-cased tag removed; not found when nothing was deleted |
| StandardsViews.Matches | standards/views.py:281-297 | exactly the visible nodes matching the query and filters, in table order |
| StandardsViews.Hits | standards/views.py:302-313 | one entry per node, in order |
| StandardsViews.HitsAt | standards/views.py:302-313 | entry i is the entry for node i: its id, code, title, type, standard, version label and hierarchy path |
| StandardsViews.BuildHits | standards/views.py:302-313 | the loop appending one entry per node builds exactly the specified entries |
| StandardsViews.Take50 | standards/views.py:299 | the first min(50, n) ids |
| StandardsViews.Search | standards/views.py:265-319 | error iff q is empty; count = number of results ≤ 50; results are the first 50 matches |
| StandardsViews.SearchResultsMatch | standards/views.py:281-313 | every result matches, and with at most 50 matches every match is returned |

## Left out

- Time is an integer count of seconds or days passed in as `now`/`today`. Time zones and the wall clock are not modelled.
- UUID keys are natural numbers, and fresh keys are parameters. `str(uuid)` is modelled as the key's decimal digits. The tenant's hex string in finding numbers is a parameter.
- Decimal columns are `real`. `round(…, 2)` in `get_progress_percentage` is not modelled.
- ResponsesModels.ScoreFor: `selected_option` is modelled as an integer or absent. A non-integer JSON payload value is not modelled.
- StandardsModels.LatestVersion: NULL release dates sort last, as on the local SQLite database. Other backends may order NULLs differently.
- Transactions and concurrency: every operation is one atomic step. The count-then-format race in finding numbering is not modelled.
- The materialiser's mapping query has no tenant filter, and the model keeps that.
- Foreign-key integrity errors, cascades other than the assessment's own question rows, and the `full_clean` call chain are not modelled.
- FindingsModels.FindingTable.Save: only insertion is modelled. Re-saving an existing finding, which updates it, is not.
- findings/views.py always supplies an `F-<year>-NNNN` number. The generated `FND-` number therefore only applies to a blank number, and the view's own numbering is not modelled.
- ReportingViews.Refresh: the freshly computed metrics (`get_metrics_data`) and the dashboard `data` action are not modelled.
- ReportingViews.Generate: the exception branch that marks the report failed cannot be reached by the modelled steps, so it is not modelled.
- iam/views.py, iam/serializers.py, authentication, passwords and JWT are not part of this model.
- The `require_permission`/`require_role`/`require_tenant_admin` decorators, `PermissionRequiredMixin`, `get_user_permissions`, `get_user_roles` and `UserRole.get_scope_object` are not modelled. They wrap or repeat the checks that are modelled.
- JSON bag columns (metadata, erl_refs, answer payload) are opaque values apart from Python truthiness.
- QuestionBankViews.CopyOptions: `duplicate` copies `original.options.all()`, which is ordered by (display_order, option_value) (question_bank/models.py:86). The model copies the rows in the order they were inserted. Each copy keeps its display_order and option_value, so listing the copies in that ordering gives the same sequence as listing the originals.
- HTTP status codes, serialisation, pagination and the other view actions are not modelled.
- The standards tree views (`tree`, `children`, `ancestors`, `descendants`, `controls`, `versions`) and control mappings `by_standard` are not modelled.
- StandardsViews.TagTable.AddTag: the tag is lower-cased by `Common.Lower`, which folds ASCII letters only. Python's `str.lower()` (standards/views.py:230) folds every cased character and can change the length ("İ" becomes two code points). So the model stores "Ärger" unchanged and treats "ÄRGER" and "ärger" as two tags where the source has one.
- StandardsViews.TagTable.RemoveTag: the same ASCII-only `Common.Lower` applies to the tag looked up for deletion (standards/views.py:256), so a non-ASCII tag differing only in case is not found where the source deletes it.
- Common.Lower and Common.Upper: Unicode case mapping is not modelled. `Upper` is only applied to hexadecimal digits, where ASCII folding is exact.
- StandardsViews.Matches: `icontains` is `Common.IContains`, an ASCII case-insensitive substring test. That matches SQLite's `LIKE`; PostgreSQL's `UPPER()`-based `icontains` also folds non-ASCII letters, which the model does not.
- StandardsViews.Search: the empty-query error is specified on every catalog, but a non-empty query only on an acyclic catalog, because each hit carries its hierarchy path. The source answers whenever the walks up from its at most 50 hits end, so a cycle among rows no search returns leaves its answer unaffected. The model does not cover that case.
- StandardsViews.SearchResultsMatch: stated for acyclic catalogs only, for the same reason as Search.
- Materialization.GetScopedControls, Materialization.CollectScopedIds, Materialization.Materialize and Materialization.Rematerialize require an acyclic control table only when some scope row of the assessment has include_children (`Materialization.Resolvable`), since only then does the source call `get_descendants` (assessments/materialization.py:92-94). A cycle elsewhere in the table, out of reach below every such scoped node, does not stop the source, but the model does not cover that case.
- StandardsModels.GetHierarchyPath, StandardsModels.GetFullPathTitle, StandardsModels.GetDepth, StandardsModels.GetDescendants, TenancyModels.GetHierarchyPath and TenancyModels.GetDescendants require an acyclic table. On a cyclic parent chain the source's `while parent:` loops (standards/models.py:234-267, tenancy/models.py:222-229) never stop, and `get_descendants` (standards/models.py:252-258, tenancy/models.py:231-237) recurses without bound. Hierarchy.CycleWalkNeverEnds shows that the walk up such a chain never ends, and Hierarchy.TwoRowCycle that the tables admit one. Only `clean()` rejects a cycle, and `Model.save()` and the serializers do not call it. Non-termination itself is not modelled: the walks are only specified on acyclic tables.

## Findings

| source | as written | input that shows it | evidently intended | confidence | as-written member | corrected member |
|---|---|---|---|---|---|---|
| question_bank/models.py:64-67 | `get_assessment_usage_count` always returns 0 | a bank question materialised into one assessment | the number of assessments using the question | not executed | QuestionBankModels.AssessmentUsageCountAsWritten | QuestionBankModels.AssessmentUsageCount |
| assessments/materialization.py:92-94 | `.values_list` is called on the plain list `get_descendants` returns, which raises | an assessment with one scope row left at the default include_children=true | add the ids of the scoped node's descendants | not executed | Materialization.ScopedControlsAsWritten | Materialization.GetScopedControls |
| assessments/materialization.py:30-33 | the mapping query filters on `is_active`, a field `ControlQuestionMap` does not have, so it raises FieldError | any assessment with at least one control in scope | select the control's active mappings | not executed | Materialization.MaterializeAsWritten | Materialization.Materialize |
| iam/models.py:98-103 | `has_permission`'s lookup `rolepermission__role__userrole__user` names reverse relations whose query names are `role_permissions` and `user_roles`, so it raises FieldError | a user with a global role whose role holds the permission | true iff some role of the user holds the code | not executed | IamModels.HasPermissionAsWrittenRaises | IamModels.HasPermission |
| iam/models.py:105-110 | `has_any_permission` repeats the same unresolvable lookup, so it raises FieldError too | a user with a global role whose role holds one of the listed codes | true iff some role of the user holds one of the codes | not executed | IamModels.HasAnyPermissionAsWrittenRaises | IamModels.HasAnyPermissionIffSome |
| standards/views.py:37-43 | both alternatives of the visibility filter require `tenant=user.tenant`, so the global branch adds nothing; the version and node querysets (standards/views.py:83-89, 161-169) repeat it | a global standard owned by tenant A, requested by a user of tenant B | global standards are shared with every tenant, as the `scope` field says (standards/models.py:21-26) | not executed | StandardsViews.SharedStandardHiddenAsWritten | StandardsViews.StandardVisibleRule |

=== FILE: assessments_models.dfy ===
/**
 * Assessments: the assessment row with its progress and overdue checks,
 * the control scope rows, the materialised question snapshots and the
 * per-user assignments of those questions.
 */
module AssessmentsModels {
  import opened Common
  import opened QuestionBankModels

  datatype AssessmentStatus = AssessmentDraft | InProgress | UnderReview | Completed | AssessmentArchived

  datatype Assessment = Assessment(
    tenant: Id,
    code: string,
    standardVersion: Id,
    status: AssessmentStatus,
    dueDate: Option<int>)

  /** A new assessment row: the status column defaults to DRAFT. */
  function NewAssessment(tenant: Id, code: string, standardVersion: Id, dueDate: Option<int>): (a: Assessment)
    ensures a.status == AssessmentDraft
    ensures a.tenant == tenant && a.code == code && a.standardVersion == standardVersion && a.dueDate == dueDate
  {
    Assessment(tenant, code, standardVersion, AssessmentDraft, dueDate)
  }

  /** A legacy response status that counts as answered. */
  predicate IsAnswered(status: Option<string>)
  {
    status == Some("SUBMITTED") || status == Some("APPROVED")
  }

  /**
   * `get_progress_percentage()` given, for each of the assessment's
   * questions, the status of its legacy response (None when it has none):
   * the share of answered questions as a percentage, 0 when there are no
   * questions.
   */
  function ProgressPercentage(responseStatuses: seq<Option<string>>): (p: real)
    ensures responseStatuses == [] ==> p == 0.0
    ensures 0.0 <= p <= 100.0
    ensures p == 100.0 <==> responseStatuses != [] && forall i :: 0 <= i < |responseStatuses| ==> IsAnswered(responseStatuses[i])
    ensures p == 0.0 <==> forall i :: 0 <= i < |responseStatuses| ==> !IsAnswered(responseStatuses[i])
  {
    var total := |responseStatuses|;
    if total == 0 then 0.0
    else
      var completed := Count(responseStatuses, IsAnswered);
      FilterKeepsAll(responseStatuses, IsAnswered);
      FilterKeepsNone(responseStatuses, IsAnswered);
      PercentBounds(completed, total);
      (completed as real / total as real) * 100.0
  }

  /** A share of `part` out of `total`, as a percentage, lies in [0, 100] and hits the ends only at 0 and all. */
  lemma PercentBounds(part: nat, total: nat)
    requires 0 < total && part <= total
    ensures 0.0 <= (part as real / total as real) * 100.0 <= 100.0
    ensures (part as real / total as real) * 100.0 == 100.0 <==> part == total
    ensures (part as real / total as real) * 100.0 == 0.0 <==> part == 0
  {
    var q := part as real / total as real;
    assert q * total as real == part as real;
    assert 0.0 <= q;
    assert q <= 1.0;
    if q == 1.0 {
      assert 1.0 * total as real == part as real;
    }
    if part == total {
      assert q * total as real == 1.0 * total as real;
    }
  }

  /**
   * The `is_overdue` property: never without a due date or once
   * COMPLETED; otherwise exactly when today is past the due date, whatever
   * the other statuses (an ARCHIVED assessment can be overdue).
   */
  predicate IsOverdue(a: Assessment, today: int)
  {
    if a.dueDate.None? || a.status == Completed then false
    else today > a.dueDate.value
  }

  lemma IsOverdueCases(a: Assessment, today: int)
    ensures a.dueDate.None? ==> !IsOverdue(a, today)
    ensures a.status == Completed ==> !IsOverdue(a, today)
    ensures a.dueDate.Some? && a.status != Completed ==> (IsOverdue(a, today) <==> today > a.dueDate.value)
    ensures a.dueDate == Some(today - 1) && a.status == AssessmentArchived ==> IsOverdue(a, today)
  {
  }

  /** An overdue assessment stays overdue as days pass until it is completed, which clears it. */
  lemma OverdueUntilCompleted(a: Assessment, today: int, later: int)
    requires today <= later
    ensures IsOverdue(a, today) ==> IsOverdue(a, later)
    ensures !IsOverdue(a.(status := Completed), today)
  {
  }

  /** A row of assessment_scope: one scoped control of one assessment. */
  datatype AssessmentScope = AssessmentScope(tenant: Id, assessment: Id, control: Id, includeChildren: bool)

  /** The unique key (assessment, control_node) of a scope row. */
  function ScopeKey(s: AssessmentScope): (Id, Id)
  {
    (s.assessment, s.control)
  }

  /** Inserting a scope row; include_children defaults to true. */
  function AddScope(scopes: seq<AssessmentScope>, tenant: Id, assessment: Id, control: Id, includeChildren: Option<bool>)
    : (r: Result<seq<AssessmentScope>, Error>)
    ensures r.Ok? <==> forall s :: s in scopes ==> !(s.assessment == assessment && s.control == control)
    ensures r.Err? ==> r.error.Conflict?
    ensures r.Ok? ==> r.value == scopes + [AssessmentScope(tenant, assessment, control, includeChildren != Some(false))]
    ensures r.Ok? && UniqueBy(scopes, ScopeKey) ==> UniqueBy(r.value, ScopeKey)
  {
    var row := AssessmentScope(tenant, assessment, control, if includeChildren.Some? then includeChildren.value else true);
    InsertUnique(scopes, row, ScopeKey)
  }

  /** A row of assessment_question: a snapshot of a bank question for one control of one assessment. */
  datatype AssessmentQuestion = AssessmentQuestion(
    tenant: Id,
    assessment: Id,
    sourceQuestion: Option<Id>,
    control: Id,
    code: string,
    text: string,
    questionType: QuestionType,
    scaleType: ScaleType,
    guidance: string,
    pptdfCode: string,
    erlRefs: Json,
    evidenceTags: Json,
    displayOrder: int,
    isMandatory: bool)

  datatype AssignmentStatus = Pending | AssignmentInProgress | AssignmentCompleted

  /** A row of assignment: one assessment question given to one user. */
  datatype Assignment = Assignment(tenant: Id, question: Id, assignee: Id, status: AssignmentStatus, dueDate: Option<int>)

  /** The unique key (assessment_question, assigned_to) of an assignment. */
  function AssignmentKey(x: Assignment): (Id, Id)
  {
    (x.question, x.assignee)
  }

  /** Inserting an assignment: it starts PENDING, and a user holds one assignment per question. */
  function AddAssignment(assignments: seq<Assignment>, tenant: Id, question: Id, assignee: Id, dueDate: Option<int>)
    : (r: Result<seq<Assignment>, Error>)
    ensures r.Ok? <==> forall x :: x in assignments ==> !(x.question == question && x.assignee == assignee)
    ensures r.Err? ==> r.error.Conflict?
    ensures r.Ok? ==> r.value == assignments + [Assignment(tenant, question, assignee, Pending, dueDate)]
    ensures r.Ok? && UniqueBy(assignments, AssignmentKey) ==> UniqueBy(r.value, AssignmentKey)
  {
    InsertUnique(assignments, Assignment(tenant, question, assignee, Pending, dueDate), AssignmentKey)
  }
}

=== FILE: common.dfy ===
/**
 * Values shared by every part of the model: optional values, results with
 * the platform's error kinds, JSON blobs with Python truthiness, and the
 * string and sequence helpers the queries and views use.
 */
module Common {

  /** A primary key. */
  type Id = nat

  datatype Option<+T> = None | Some(value: T)

  datatype Result<+T, +E> = Ok(value: T) | Err(error: E)

  datatype Outcome<+E> = Pass | Fail(error: E)

  /** The error kinds the models raise and the views answer with. */
  datatype Error =
    | ValidationError(message: string)   // django ValidationError from clean()
    | BadRequest(message: string)        // HTTP 400
    | NotFound(message: string)          // HTTP 404 / DoesNotExist
    | Conflict(message: string)          // IntegrityError on a unique constraint

  /** A JSON document as stored in a JSONField. */
  datatype Json =
    | JNull
    | JBool(b: bool)
    | JNumber(n: int)
    | JString(s: string)
    | JArray(items: seq<Json>)
    | JObject(fields: map<string, Json>)

  /** Python truthiness of a decoded JSON value. */
  predicate Truthy(j: Json)
  {
    match j
    case JNull => false
    case JBool(b) => b
    case JNumber(n) => n != 0
    case JString(s) => s != ""
    case JArray(items) => items != []
    case JObject(fields) => fields != map[]
  }

  /** Python's `value or []` on a JSON value. */
  function OrEmptyList(j: Json): (r: Json)
    ensures Truthy(j) ==> r == j
    ensures !Truthy(j) ==> r == JArray([])
    ensures r.JArray? || Truthy(r)
  {
    if Truthy(j) then j else JArray([])
  }

  /** Python's `sep.join(parts)`. */
  function Join(parts: seq<string>, sep: string): (r: string)
    ensures |parts| == 1 ==> r == parts[0]
    ensures parts == [] ==> r == ""
  {
    if |parts| == 0 then ""
    else if |parts| == 1 then parts[0]
    else parts[0] + sep + Join(parts[1..], sep)
  }

  function LowerChar(c: char): char
  {
    if 'A' <= c <= 'Z' then (c as int + 32) as char else c
  }

  function UpperChar(c: char): char
  {
    if 'a' <= c <= 'z' then (c as int - 32) as char else c
  }

  /** `str.lower()` restricted to ASCII letters. */
  function Lower(s: string): (r: string)
    ensures |r| == |s|
    ensures forall i :: 0 <= i < |s| ==> r[i] == LowerChar(s[i])
  {
    seq(|s|, i requires 0 <= i < |s| => LowerChar(s[i]))
  }

  /** `str.upper()` restricted to ASCII letters. */
  function Upper(s: string): (r: string)
    ensures |r| == |s|
    ensures forall i :: 0 <= i < |s| ==> r[i] == UpperChar(s[i])
  {
    seq(|s|, i requires 0 <= i < |s| => UpperChar(s[i]))
  }

  /** Python's `needle in hay` on strings. */
  predicate IsSubstring(needle: string, hay: string)
  {
    exists i :: 0 <= i <= |hay| - |needle| && OccursAt(needle, hay, i)
  }

  predicate OccursAt(needle: string, hay: string, i: int)
    requires 0 <= i <= |hay| - |needle|
  {
    hay[i..i + |needle|] == needle
  }

  /** A case-insensitive `icontains` lookup (ASCII case folding). */
  predicate IContains(hay: string, needle: string)
  {
    IsSubstring(Lower(needle), Lower(hay))
  }

  predicate Distinct<T(==)>(s: seq<T>)
  {
    forall i, j :: 0 <= i < j < |s| ==> s[i] != s[j]
  }

  /** The rows of `s` satisfying `p`, in their original order (a filtered query). */
  function Filter<T(==,!new)>(s: seq<T>, p: T -> bool): (r: seq<T>)
    ensures |r| <= |s|
    ensures forall x :: x in r <==> x in s && p(x)
  {
    if s == [] then []
    else Filter(s[..|s| - 1], p) + (if p(s[|s| - 1]) then [s[|s| - 1]] else [])
  }

  /** `queryset.count()` of a filtered query. */
  function Count<T(==,!new)>(s: seq<T>, p: T -> bool): nat
  {
    |Filter(s, p)|
  }

  /** Appending piece by piece is appending the pieces joined. */
  lemma AppendAssoc<T>(a: seq<T>, b: seq<T>, c: seq<T>)
    ensures a + b + c == a + (b + c)
  {
  }

  lemma AppendAssoc4<T>(a: seq<T>, b: seq<T>, c: seq<T>, d: seq<T>)
    ensures a + b + c + d == a + (b + c + d)
  {
  }

  lemma {:induction false} FilterDistinct<T(!new)>(s: seq<T>, p: T -> bool)
    requires Distinct(s)
    ensures Distinct(Filter(s, p))
  {
    if s != [] {
      var init := s[..|s| - 1];
      assert Distinct(init);
      FilterDistinct(init, p);
      assert s[|s| - 1] !in init;
    }
  }

  /** A sequence without repeats has as many elements as its set. */
  lemma {:induction false} DistinctCardinality<T(!new)>(s: seq<T>)
    requires Distinct(s)
    ensures |set x | x in s| == |s|
  {
    if s != [] {
      var init, last := s[..|s| - 1], s[|s| - 1];
      assert Distinct(init);
      DistinctCardinality(init);
      assert last !in init;
      assert (set x | x in s) == (set x | x in init) + {last};
    }
  }

  /** A sequence without repeats is as long as any set with the same members. */
  lemma DistinctCountsSet<T(!new)>(s: seq<T>, S: set<T>)
    requires Distinct(s)
    requires forall x :: x in s <==> x in S
    ensures |s| == |S|
  {
    DistinctCardinality(s);
    assert (set x | x in s) == S;
  }

  /** Counting a filtered table of distinct keys counts the set of keys it selects. */
  lemma CountIsCardinality<T(!new)>(s: seq<T>, p: T -> bool)
    requires Distinct(s)
    ensures Count(s, p) == |set x | x in s && p(x)|
  {
    var r := Filter(s, p);
    FilterDistinct(s, p);
    DistinctCardinality(r);
    assert (set x | x in r) == (set x | x in s && p(x));
  }

  /** Prefixes of a filter: filtering one more row appends it when it matches. */
  lemma FilterSnoc<T(!new)>(s: seq<T>, x: T, p: T -> bool)
    ensures Filter(s + [x], p) == Filter(s, p) + (if p(x) then [x] else [])
  {
    assert (s + [x])[..|s + [x]| - 1] == s;
  }

  /** A filter keeps every row exactly when every row satisfies the predicate. */
  lemma {:induction false} FilterKeepsAll<T(!new)>(s: seq<T>, p: T -> bool)
    ensures |Filter(s, p)| == |s| <==> forall i :: 0 <= i < |s| ==> p(s[i])
  {
    if s != [] {
      var init, last := s[..|s| - 1], s[|s| - 1];
      FilterKeepsAll(init, p);
      assert Filter(s, p) == Filter(init, p) + (if p(last) then [last] else []);
      assert forall i :: 0 <= i < |init| ==> init[i] == s[i];
      if forall i :: 0 <= i < |s| ==> p(s[i]) {
        assert forall i :: 0 <= i < |init| ==> p(init[i]);
        assert p(last);
      } else if p(last) {
        var i :| 0 <= i < |s| && !p(s[i]);
        assert i < |init| && !p(init[i]);
      }
    }
  }

  /** `r` is `s` with some rows left out and the others kept in their order. */
  predicate IsSubsequence<T(==)>(r: seq<T>, s: seq<T>)
    decreases |s|
  {
    if r == [] then true
    else if s == [] then false
    else if r[|r| - 1] == s[|s| - 1] then IsSubsequence(r[..|r| - 1], s[..|s| - 1])
    else IsSubsequence(r, s[..|s| - 1])
  }

  /** Every sequence is a subsequence of itself. */
  lemma {:induction false} SubsequenceRefl<T>(s: seq<T>)
    ensures IsSubsequence(s, s)
    decreases |s|
  {
    if s != [] {
      SubsequenceRefl(s[..|s| - 1]);
    }
  }

  /** A filter keeps the rows it selects in their original order. */
  lemma {:induction false} FilterIsSubsequence<T(!new)>(s: seq<T>, p: T -> bool)
    ensures IsSubsequence(Filter(s, p), s)
    decreases |s|
  {
    if s != [] {
      var init, last := s[..|s| - 1], s[|s| - 1];
      FilterIsSubsequence(init, p);
      var r := Filter(s, p);
      assert r == Filter(init, p) + (if p(last) then [last] else []);
      if p(last) {
        assert r[..|r| - 1] == Filter(init, p);
      } else {
        assert r == Filter(init, p);
        if r != [] {
          assert r[|r| - 1] in r;
          assert r[|r| - 1] != last;
        }
      }
    }
  }

  /** A filter keeps nothing exactly when no row satisfies the predicate. */
  lemma {:induction false} FilterKeepsNone<T(!new)>(s: seq<T>, p: T -> bool)
    ensures |Filter(s, p)| == 0 <==> forall i :: 0 <= i < |s| ==> !p(s[i])
  {
    if exists i :: 0 <= i < |s| && p(s[i]) {
      var i :| 0 <= i < |s| && p(s[i]);
      assert s[i] in Filter(s, p);
    }
    if |Filter(s, p)| > 0 {
      var x := Filter(s, p)[0];
      assert x in Filter(s, p);
      var i :| 0 <= i < |s| && s[i] == x;
    }
  }

  /** No two rows of `table` share a key. */
  predicate UniqueBy<T, K(==)>(table: seq<T>, key: T -> K)
  {
    forall i, j :: 0 <= i < j < |table| ==> key(table[i]) != key(table[j])
  }

  /** An INSERT into a table with a unique constraint on `key`. */
  function InsertUnique<T(==,!new), K(==)>(table: seq<T>, row: T, key: T -> K): (r: Result<seq<T>, Error>)
    ensures r.Ok? <==> forall x :: x in table ==> key(x) != key(row)
    ensures r.Ok? ==> r.value == table + [row]
    ensures r.Err? ==> r.error.Conflict?
    ensures r.Ok? && UniqueBy(table, key) ==> UniqueBy(r.value, key)
  {
    if exists x :: x in table && key(x) == key(row) then
      Err(Conflict("duplicate key value violates unique constraint"))
    else
      Ok(table + [row])
  }

  /** Decimal digits of a natural number, as `str(n)` prints them. */
  function NatToString(n: nat): (r: string)
    ensures |r| >= 1
    ensures IsDigits(r)
    decreases n
  {
    if n < 10 then [DigitChar(n)] else NatToString(n / 10) + [DigitChar(n % 10)]
  }

  function DigitChar(d: nat): (c: char)
    requires d < 10
    ensures '0' <= c <= '9'
  {
    ('0' as int + d) as char
  }

  predicate IsDigits(s: string)
  {
    forall i :: 0 <= i < |s| ==> '0' <= s[i] <= '9'
  }

  function Zeros(z: nat): (r: string)
    ensures |r| == z && IsDigits(r)
  {
    seq(z, _ => '0')
  }

  /** The value of a string of decimal digits. */
  function DigitsValue(s: string): nat
    requires IsDigits(s)
  {
    if s == [] then 0 else 10 * DigitsValue(s[..|s| - 1]) + (s[|s| - 1] as int - '0' as int)
  }

  /** `str(n)` reads back as `n`. */
  lemma {:induction false} NatToStringValue(n: nat)
    ensures DigitsValue(NatToString(n)) == n
    decreases n
  {
    if n >= 10 {
      NatToStringValue(n / 10);
      var s := NatToString(n);
      assert s[..|s| - 1] == NatToString(n / 10);
    }
  }

  /** `str(n)` has at most four digits below 10000. */
  lemma {:induction false} NatToStringShort(n: nat)
    ensures n < 10 ==> |NatToString(n)| == 1
    ensures n < 100 ==> |NatToString(n)| <= 2
    ensures n < 1000 ==> |NatToString(n)| <= 3
    ensures n < 10000 ==> |NatToString(n)| <= 4
    decreases n
  {
    if n >= 10 {
      NatToStringShort(n / 10);
    }
  }

  /** Python's `'{:0>w}'` / `'{:0wd}'` padding of a digit string. */
  function ZeroPad(s: string, width: nat): (r: string)
    ensures |r| == if |s| >= width then |s| else width
    ensures |s| >= width ==> r == s
    ensures |s| < width ==> r == Zeros(width - |s|) + s
  {
    if |s| >= width then s else Zeros(width - |s|) + s
  }

  /** A zero-padded `str(n)` is a digit string that still reads back as `n`. */
  lemma ZeroPadValue(n: nat, width: nat)
    ensures IsDigits(ZeroPad(NatToString(n), width))
    ensures DigitsValue(ZeroPad(NatToString(n), width)) == n
  {
    var digits := NatToString(n);
    NatToStringValue(n);
    if |digits| < width {
      LeadingZerosValue(width - |digits|, digits);
    }
  }

  /** Leading zeros do not change the value of a digit string. */
  lemma {:induction false} LeadingZerosValue(z: nat, s: string)
    requires IsDigits(s)
    ensures IsDigits(Zeros(z) + s)
    ensures DigitsValue(Zeros(z) + s) == DigitsValue(s)
    decreases |s|
  {
    var t := Zeros(z) + s;
    if s == [] {
      assert t == Zeros(z);
      ZerosValue(z);
    } else {
      var s' := s[..|s| - 1];
      LeadingZerosValue(z, s');
      assert t[..|t| - 1] == Zeros(z) + s';
    }
  }

  lemma {:induction false} ZerosValue(z: nat)
    ensures DigitsValue(Zeros(z)) == 0
  {
    if z > 0 {
      assert Zeros(z)[..z - 1] == Zeros(z - 1);
      ZerosValue(z - 1);
    }
  }
}

=== FILE: findings_models.dfy ===
/**
 * Findings: compliance gaps with an auto-generated finding number, their
 * overdue check, and the expiry of a risk acceptance.
 */
module FindingsModels {
  import opened Common

  datatype FindingStatus = Open | FindingInProgress | Resolved | Closed | RiskAccepted

  /** A row of the finding table, reduced to the columns these rules read. */
  datatype Finding = Finding(tenant: Id, number: string, title: string, status: FindingStatus, dueDate: Option<int>)

  /** `is_overdue`: never without a due date or once resolved, closed or risk-accepted; otherwise past the due date. */
  predicate FindingIsOverdue(f: Finding, today: int)
  {
    if f.dueDate.None? || f.status in {Resolved, Closed, RiskAccepted} then false
    else today > f.dueDate.value
  }

  lemma FindingIsOverdueCases(f: Finding, today: int)
    ensures f.dueDate.None? ==> !FindingIsOverdue(f, today)
    ensures f.status == Resolved || f.status == Closed || f.status == RiskAccepted ==> !FindingIsOverdue(f, today)
    ensures f.dueDate.Some? && (f.status == Open || f.status == FindingInProgress) ==>
              (FindingIsOverdue(f, today) <==> today > f.dueDate.value)
  {
  }

  /** An overdue finding stays overdue as days pass until it is resolved, closed or risk-accepted. */
  lemma FindingOverdueUntilSettled(f: Finding, today: int, later: int, settled: FindingStatus)
    requires today <= later
    requires settled == Resolved || settled == Closed || settled == RiskAccepted
    ensures FindingIsOverdue(f, today) ==> FindingIsOverdue(f, later)
    ensures !FindingIsOverdue(f.(status := settled), today)
  {
  }

  /** `RiskAcceptance.is_expired`: an inactive acceptance counts as expired; an active one expires after its expiry date. */
  predicate RiskAcceptanceIsExpired(isActive: bool, expiryDate: int, today: int)
  {
    !isActive || today > expiryDate
  }

  /** Deactivating an acceptance expires it at once; an active one stays valid up to and including its expiry date. */
  lemma RiskAcceptanceExpiryCases(expiryDate: int, today: int, later: int)
    requires today <= later
    ensures RiskAcceptanceIsExpired(false, expiryDate, today)
    ensures RiskAcceptanceIsExpired(true, expiryDate, today) <==> today > expiryDate
    ensures RiskAcceptanceIsExpired(true, expiryDate, today) ==> RiskAcceptanceIsExpired(true, expiryDate, later)
  {
  }

  /** Python's `h[:6]`. */
  function Prefix6(h: string): (p: string)
    ensures |h| >= 6 ==> p == h[..6]
    ensures |p| == if |h| >= 6 then 6 else |h|
  {
    if |h| >= 6 then h[..6] else h
  }

  /**
   * The number `save()` generates: "FND-", the first six hex digits of the
   * tenant id upper-cased, "-", and the tenant's finding count plus one
   * padded to at least four digits.
   */
  function FindingNumber(tenantHex: string, count: nat): string
  {
    "FND-" + Upper(Prefix6(tenantHex)) + "-" + ZeroPad(NatToString(count + 1), 4)
  }

  /** The tail of a generated number reads back as count + 1, and the whole is 15 characters below 9999 findings. */
  lemma FindingNumberShape(tenantHex: string, count: nat)
    ensures var n := FindingNumber(tenantHex, count);
            var head := 4 + |Prefix6(tenantHex)| + 1;
            |n| >= head && n[..4] == "FND-" && n[head - 1] == '-' &&
            IsDigits(n[head..]) && DigitsValue(n[head..]) == count + 1 && |n[head..]| >= 4
    ensures |tenantHex| >= 6 && count < 9999 ==> |FindingNumber(tenantHex, count)| == 15
  {
    FindingNumberSplit(tenantHex, count);
    ZeroPadValue(count + 1, 4);
    NatToStringShort(count + 1);
  }

  /** A generated number is its fixed head followed by the padded count. */
  lemma FindingNumberSplit(tenantHex: string, count: nat)
    ensures var n := FindingNumber(tenantHex, count);
            var head := 4 + |Prefix6(tenantHex)| + 1;
            |n| >= head && n[..4] == "FND-" && n[head - 1] == '-' && n[head..] == ZeroPad(NatToString(count + 1), 4)
  {
  }

  /** Two different counts never give the same number for one tenant. */
  lemma FindingNumberInjective(tenantHex: string, c1: nat, c2: nat)
    ensures FindingNumber(tenantHex, c1) == FindingNumber(tenantHex, c2) ==> c1 == c2
  {
    FindingNumberShape(tenantHex, c1);
    FindingNumberShape(tenantHex, c2);
  }

  /** The positions of the table holding findings of `tenant`. */
  ghost function TenantRows(rows: seq<Finding>, tenant: Id): set<nat>
  {
    set i: nat | i < |rows| && rows[i].tenant == tenant
  }

  /** One more row adds its position when it belongs to the tenant. */
  lemma TenantRowsSnoc(rows: seq<Finding>, tenant: Id)
    requires rows != []
    ensures var last := |rows| - 1;
            last !in TenantRows(rows[..last], tenant) &&
            TenantRows(rows, tenant) == TenantRows(rows[..last], tenant) + if rows[last].tenant == tenant then {last} else {}
  {
    var last := |rows| - 1;
    forall i: nat
      ensures i in TenantRows(rows, tenant) <==>
              i in TenantRows(rows[..last], tenant) || (i == last && rows[last].tenant == tenant)
    {
      if i < last {
        assert rows[..last][i] == rows[i];
      }
    }
  }

  /** `Finding.objects.filter(tenant=...).count()`: the number of rows of the table that belong to `tenant`. */
  function TenantCount(rows: seq<Finding>, tenant: Id): (n: nat)
    ensures n == |TenantRows(rows, tenant)| && n <= |rows|
  {
    if rows == [] then 0
    else
      TenantRowsSnoc(rows, tenant);
      TenantCount(rows[..|rows| - 1], tenant) + if rows[|rows| - 1].tenant == tenant then 1 else 0
  }

  predicate NumberTaken(rows: seq<Finding>, number: string)
  {
    exists g :: g in rows && g.number == number
  }

  /**
   * Numbers come from a count, not from the largest number used: once a
   * finding is deleted the next generated number repeats the one already
   * held by the tenant's latest finding, and the unique constraint
   * rejects the save.
   */
  lemma NumberRepeatsAfterDeletion(tenant: Id, tenantHex: string, second: Finding)
    requires second.tenant == tenant && second.number == FindingNumber(tenantHex, 1)
    ensures NumberTaken([second], FindingNumber(tenantHex, TenantCount([second], tenant)))
  {
    assert [second][..0] == [];
    assert second in [second];
  }

  /** The finding table. */
  class FindingTable {
    var rows: seq<Finding>

    constructor()
      ensures rows == []
    {
      rows := [];
    }

    /**
     * `Finding.save()` inserting `f`: a blank number is generated from the
     * tenant's current count; the number is unique across all tenants, so a
     * number already in use is a conflict and nothing is written.
     */
    method Save(f: Finding, tenantHex: string) returns (r: Result<string, Error>)
      modifies this
      ensures var number := if f.number == "" then FindingNumber(tenantHex, TenantCount(old(rows), f.tenant)) else f.number;
              (r.Err? <==> NumberTaken(old(rows), number)) &&
              (r.Err? ==> r.error.Conflict? && rows == old(rows)) &&
              (r.Ok? ==> r == Ok(number) && rows == old(rows) + [f.(number := number)])
    {
      var number := f.number;
      if number == "" {
        var count := TenantCount(rows, f.tenant);
        var digits := NatToString(count + 1);
        number := "FND-" + Upper(Prefix6(tenantHex)) + "-" + ZeroPad(digits, 4);
      }
      if exists g :: g in rows && g.number == number {
        return Err(Conflict("duplicate key value violates unique constraint"));
      }
      rows := rows + [f.(number := number)];
      r := Ok(number);
    }
  }
}

=== FILE: hierarchy.dfy ===
/**
 * A self-referential table (a row with a nullable `parent` foreign key to
 * the same table), as used by the control catalog and by business units.
 * The table is an arena: rows by primary key, plus the keys in the table's
 * default ordering, which is the order in which `children.all()` returns
 * them.  Everything here is the specification the tree walks of both
 * tables are proved against.
 */
module Hierarchy {
  import opened Common

  datatype Entry<T> = Entry(parent: Option<Id>, data: T)

  datatype Forest<T> = Forest(rows: map<Id, Entry<T>>, order: seq<Id>)

  /** The `parent_id` column of row `x` (NULL for a missing row). */
  function ParentOf<T>(f: Forest<T>, x: Id): Option<Id>
  {
    if x in f.rows then f.rows[x].parent else None
  }

  /**
   * Referential integrity of the table: every parent exists, and the
   * default ordering lists every row exactly once.
   */
  predicate Closed<T>(f: Forest<T>)
  {
    && (forall x :: x in f.rows && f.rows[x].parent.Some? ==> f.rows[x].parent.value in f.rows)
    && (forall x {:trigger x in f.order} :: x in f.rows ==> x in f.order)
    && (forall x {:trigger x in f.order} :: x in f.order ==> x in f.rows)
    && Distinct(f.order)
  }

  /**
   * The rows met by following parent links from `p`, nearest first, or
   * None when `fuel` links do not reach a row without a parent.
   */
  function AncestorChain<T>(f: Forest<T>, p: Option<Id>, fuel: nat): (r: Option<seq<Id>>)
    ensures r.Some? ==> |r.value| <= fuel
    ensures r.Some? && p.None? ==> r.value == []
    ensures r.Some? && p.Some? ==> |r.value| >= 1 && r.value[0] == p.value
    ensures r.Some? && Closed(f) && p.Some? && p.value in f.rows ==>
              forall i :: 0 <= i < |r.value| ==> r.value[i] in f.rows
    decreases fuel
  {
    match p
    case None => Some([])
    case Some(x) =>
      if fuel == 0 then None
      else
        match AncestorChain(f, ParentOf(f, x), fuel - 1)
        case None => None
        case Some(rest) => Some([x] + rest)
  }

  /** Following parent links from any row ends at a root within |rows| steps. */
  predicate Acyclic<T>(f: Forest<T>)
  {
    Closed(f) && forall x {:trigger AncestorChain(f, Some(x), |f.rows|)} :: x in f.rows ==> AncestorChain(f, Some(x), |f.rows|).Some?
  }

  /** The row itself followed by its ancestors, nearest first. */
  function Lineage<T>(f: Forest<T>, x: Id): (r: seq<Id>)
    requires Acyclic(f) && x in f.rows
    ensures 1 <= |r| <= |f.rows|
    ensures r[0] == x
    ensures forall i :: 0 <= i < |r| ==> r[i] in f.rows
  {
    AncestorChain(f, Some(x), |f.rows|).value
  }

  /** The proper ancestors of `x`, nearest first. */
  function Ancestors<T>(f: Forest<T>, x: Id): seq<Id>
    requires Acyclic(f) && x in f.rows
  {
    Lineage(f, x)[1..]
  }

  /** Number of parent links from `x` to its root. */
  function Depth<T>(f: Forest<T>, x: Id): (d: nat)
    requires Acyclic(f) && x in f.rows
    ensures d < |f.rows|
  {
    |Lineage(f, x)| - 1
  }

  /** The rows whose parent is `x`, in the table's default ordering. */
  function Children<T>(f: Forest<T>, x: Id): seq<Id>
  {
    Filter(f.order, y => ParentOf(f, y) == Some(x))
  }

  /** The children of `x` are exactly the rows whose parent is `x`, listed once each. */
  lemma ChildrenMembers<T>(f: Forest<T>, x: Id)
    requires Closed(f)
    ensures forall y :: y in Children(f, x) <==> y in f.rows && ParentOf(f, y) == Some(x)
    ensures Distinct(Children(f, x))
  {
    FilterDistinct(f.order, y => ParentOf(f, y) == Some(x));
  }

  /** More fuel does not change a chain that was already complete. */
  lemma {:induction false} ChainFuelMono<T>(f: Forest<T>, p: Option<Id>, fuel: nat, more: nat)
    requires AncestorChain(f, p, fuel).Some?
    requires fuel <= more
    ensures AncestorChain(f, p, more) == AncestorChain(f, p, fuel)
    decreases fuel
  {
    match p
    case None =>
    case Some(x) =>
      ChainFuelMono(f, ParentOf(f, x), fuel - 1, more - 1);
  }

  /** The lineage of a row is the row followed by its parent's lineage. */
  lemma LineageStep<T>(f: Forest<T>, x: Id)
    requires Acyclic(f) && x in f.rows
    ensures ParentOf(f, x).None? ==> Lineage(f, x) == [x]
    ensures ParentOf(f, x).Some? ==>
              ParentOf(f, x).value in f.rows &&
              Lineage(f, x) == [x] + Lineage(f, ParentOf(f, x).value)
  {
    var n := |f.rows|;
    match ParentOf(f, x)
    case None =>
    case Some(y) =>
      assert y in f.rows;
      assert AncestorChain(f, Some(x), n).Some?;
      var rest := AncestorChain(f, Some(y), n - 1);
      assert rest.Some?;
      ChainFuelMono(f, Some(y), n - 1, n);
  }

  /** A root has depth 0; a child is one deeper than its parent. */
  lemma DepthStep<T>(f: Forest<T>, x: Id)
    requires Acyclic(f) && x in f.rows
    ensures ParentOf(f, x).None? ==> Depth(f, x) == 0
    ensures ParentOf(f, x).Some? ==> Depth(f, x) == Depth(f, ParentOf(f, x).value) + 1
  {
    LineageStep(f, x);
  }

  /** Every suffix of a lineage is the lineage of its first element. */
  lemma {:induction false} LineageSuffix<T>(f: Forest<T>, x: Id, i: nat)
    requires Acyclic(f) && x in f.rows
    requires i < |Lineage(f, x)|
    ensures Lineage(f, Lineage(f, x)[i]) == Lineage(f, x)[i..]
    decreases i
  {
    LineageStep(f, x);
    if i > 0 {
      var y := ParentOf(f, x).value;
      LineageSuffix(f, y, i - 1);
      assert Lineage(f, x)[i..] == Lineage(f, y)[i - 1..];
    }
  }

  /** The element after position i of a lineage is the parent of the element at i. */
  lemma LineageNext<T>(f: Forest<T>, x: Id, i: nat)
    requires Acyclic(f) && x in f.rows
    requires i < |Lineage(f, x)|
    ensures ParentOf(f, Lineage(f, x)[i]) ==
              if i + 1 < |Lineage(f, x)| then Some(Lineage(f, x)[i + 1]) else None
  {
    var l := Lineage(f, x);
    LineageSuffix(f, x, i);
    LineageStep(f, l[i]);
  }

  /** A lineage never repeats a row: following parents cannot come back. */
  lemma LineageDistinct<T>(f: Forest<T>, x: Id)
    requires Acyclic(f) && x in f.rows
    ensures Distinct(Lineage(f, x))
  {
    var l := Lineage(f, x);
    forall i, j | 0 <= i < j < |l|
      ensures l[i] != l[j]
    {
      LineageSuffix(f, x, i);
      LineageSuffix(f, x, j);
    }
  }

  /** No row is its own ancestor. */
  lemma NotOwnAncestor<T>(f: Forest<T>, x: Id)
    requires Acyclic(f) && x in f.rows
    ensures x !in Ancestors(f, x)
  {
    LineageDistinct(f, x);
  }

  /**
   * The pre-order list of all rows below `x`: each child, in the table's
   * default ordering, followed by that child's own descendants.
   */
  function Descendants<T>(f: Forest<T>, x: Id): seq<Id>
    requires Acyclic(f) && x in f.rows
    decreases |f.rows| - Depth(f, x), 1
  {
    DescendantsOfAll(f, Children(f, x), x)
  }

  /** Descendants of the children `ys` of `x`, each child before its own subtree. */
  function DescendantsOfAll<T>(f: Forest<T>, ys: seq<Id>, x: Id): seq<Id>
    requires Acyclic(f) && x in f.rows
    requires forall y :: y in ys ==> ParentOf(f, y) == Some(x)
    decreases |f.rows| - Depth(f, x), 0, |ys|
  {
    if ys == [] then []
    else
      ChildInRows(f, ys[0], x);
      [ys[0]] + Descendants(f, ys[0]) + DescendantsOfAll(f, ys[1..], x)
  }

  /** The subtrees of the children of `x` from position `i` of `Children(f, x)` on. */
  function ChildrenDescendantsFrom<T>(f: Forest<T>, x: Id, i: nat): seq<Id>
    requires Acyclic(f) && x in f.rows && i <= |Children(f, x)|
  {
    ChildrenMembers(f, x);
    DescendantsOfAll(f, Children(f, x)[i..], x)
  }

  /** From position 0 these are all descendants of `x`; past the last child, none. */
  lemma ChildrenDescendantsEnds<T>(f: Forest<T>, x: Id)
    requires Acyclic(f) && x in f.rows
    ensures ChildrenDescendantsFrom(f, x, 0) == Descendants(f, x)
    ensures ChildrenDescendantsFrom(f, x, |Children(f, x)|) == []
  {
    assert Children(f, x)[0..] == Children(f, x);
    assert Children(f, x)[|Children(f, x)|..] == [];
  }

  /** Child `i` of `x`, its subtree, then the subtrees of the children after it. */
  lemma ChildrenDescendantsStep<T>(f: Forest<T>, x: Id, i: nat)
    requires Acyclic(f) && x in f.rows && i < |Children(f, x)|
    ensures Children(f, x)[i] in f.rows && Depth(f, Children(f, x)[i]) == Depth(f, x) + 1
    ensures ChildrenDescendantsFrom(f, x, i) ==
              [Children(f, x)[i]] + Descendants(f, Children(f, x)[i]) + ChildrenDescendantsFrom(f, x, i + 1)
  {
    var cs := Children(f, x);
    ChildrenMembers(f, x);
    DescendantsOfAllCons(f, cs[i..], x);
    assert cs[i..][1..] == cs[i + 1..];
    ChildInRows(f, cs[i], x);
  }

  /** One step of DescendantsOfAll: the first child, its subtree, then the remaining children. */
  lemma DescendantsOfAllCons<T>(f: Forest<T>, ys: seq<Id>, x: Id)
    requires Acyclic(f) && x in f.rows && ys != []
    requires forall y :: y in ys ==> ParentOf(f, y) == Some(x)
    ensures ys[0] in f.rows
    ensures DescendantsOfAll(f, ys, x) ==
              [ys[0]] + Descendants(f, ys[0]) + DescendantsOfAll(f, ys[1..], x)
  {
    ChildInRows(f, ys[0], x);
  }

  lemma ChildInRows<T>(f: Forest<T>, y: Id, x: Id)
    requires Acyclic(f) && x in f.rows
    requires ParentOf(f, y) == Some(x)
    ensures y in f.rows && Depth(f, y) == Depth(f, x) + 1
  {
    DepthStep(f, y);
  }

  /** Membership in DescendantsOfAll: one of the children or inside one child's subtree. */
  lemma {:induction false} DescendantsOfAllMembers<T>(f: Forest<T>, ys: seq<Id>, x: Id, y: Id)
    requires Acyclic(f) && x in f.rows
    requires forall z :: z in ys ==> ParentOf(f, z) == Some(x)
    ensures y in DescendantsOfAll(f, ys, x) <==>
              exists z :: z in ys && z in f.rows && (y == z || y in Descendants(f, z))
    decreases |ys|
  {
    if ys != [] {
      ChildInRows(f, ys[0], x);
      DescendantsOfAllMembers(f, ys[1..], x, y);
      if y in DescendantsOfAll(f, ys[1..], x) {
        var z :| z in ys[1..] && z in f.rows && (y == z || y in Descendants(f, z));
        assert z in ys;
      }
      if exists z :: z in ys && z in f.rows && (y == z || y in Descendants(f, z)) {
        var z :| z in ys && z in f.rows && (y == z || y in Descendants(f, z));
        if z != ys[0] {
          assert z in ys[1..];
        }
      }
    }
  }

  /** A row whose parent is `x` appears in `Children(f, x)`. */
  lemma ChildListed<T>(f: Forest<T>, z: Id, x: Id)
    requires Closed(f) && z in f.rows
    requires ParentOf(f, z) == Some(x)
    ensures z in Children(f, x)
  {
  }

  /** The parent of a row is its first proper ancestor. */
  lemma ParentIsAncestor<T>(f: Forest<T>, z: Id, x: Id)
    requires Acyclic(f) && x in f.rows
    requires ParentOf(f, z) == Some(x)
    ensures z in f.rows && x in Ancestors(f, z)
  {
    ChildInRows(f, z, x);
    LineageStep(f, z);
    assert Ancestors(f, z)[0] == x;
  }

  /** The parent of a proper ancestor is a proper ancestor. */
  lemma AncestorsUpward<T>(f: Forest<T>, y: Id, z: Id, x: Id)
    requires Acyclic(f) && y in f.rows && z in Ancestors(f, y)
    requires ParentOf(f, z) == Some(x)
    ensures x in Ancestors(f, y)
  {
    var l := Lineage(f, y);
    var k :| 0 <= k < |l| - 1 && l[1..][k] == z;
    assert l[k + 1] == z;
    LineageNext(f, y, k + 1);
    assert l[k + 2] == x;
    assert l[1..][k + 1] == x;
  }

  /** Every row listed by `Descendants(f, x)` has `x` as a proper ancestor. */
  lemma {:induction false} BelowIfDescendant<T>(f: Forest<T>, x: Id, y: Id)
    requires Acyclic(f) && x in f.rows
    requires y in Descendants(f, x)
    ensures y in f.rows && x in Ancestors(f, y)
    decreases |f.rows| - Depth(f, x)
  {
    DescendantsOfAllMembers(f, Children(f, x), x, y);
    var z :| z in Children(f, x) && z in f.rows && (y == z || y in Descendants(f, z));
    ParentIsAncestor(f, z, x);
    ChildInRows(f, z, x);
    if y != z {
      BelowIfDescendant(f, z, y);
      AncestorsUpward(f, y, z, x);
    }
  }

  /** Every row with `x` as a proper ancestor is listed by `Descendants(f, x)`. */
  lemma {:induction false} DescendantIfBelow<T>(f: Forest<T>, x: Id, y: Id)
    requires Acyclic(f) && x in f.rows && y in f.rows
    requires x in Ancestors(f, y)
    ensures y in Descendants(f, x)
    decreases |f.rows| - Depth(f, x)
  {
    var l := Lineage(f, y);
    var k :| 0 <= k < |l| - 1 && l[1..][k] == x;
    var z := l[k];
    LineageNext(f, y, k);
    ChildListed(f, z, x);
    ChildInRows(f, z, x);
    DescendantsOfAllMembers(f, Children(f, x), x, y);
    if k > 0 {
      assert l[1..][k - 1] == z;
      DescendantIfBelow(f, z, y);
    }
  }

  /**
   * `Descendants(f, x)` holds exactly the rows that have `x` as a proper
   * ancestor.
   */
  lemma DescendantsAreBelow<T>(f: Forest<T>, x: Id, y: Id)
    requires Acyclic(f) && x in f.rows && y in f.rows
    ensures y in Descendants(f, x) <==> x in Ancestors(f, y)
  {
    if y in Descendants(f, x) {
      BelowIfDescendant(f, x, y);
    }
    if x in Ancestors(f, y) {
      DescendantIfBelow(f, x, y);
    }
  }

  /** A row is never among its own descendants. */
  lemma NotOwnDescendant<T>(f: Forest<T>, x: Id)
    requires Acyclic(f) && x in f.rows
    ensures x !in Descendants(f, x)
  {
    DescendantsAreBelow(f, x, x);
    NotOwnAncestor(f, x);
  }

  /** The row reached after `k` parent links from `p`. */
  function Walk<T>(f: Forest<T>, p: Option<Id>, k: nat): Option<Id>
    decreases k
  {
    if k == 0 then p
    else match p
      case None => None
      case Some(y) => Walk(f, ParentOf(f, y), k - 1)
  }

  /** One more step of a walk is one more parent link. */
  lemma {:induction false} WalkSucc<T>(f: Forest<T>, p: Option<Id>, k: nat)
    ensures Walk(f, p, k + 1) ==
              match Walk(f, p, k) case None => None case Some(y) => ParentOf(f, y)
    decreases k
  {
    if k > 0 && p.Some? {
      WalkSucc(f, ParentOf(f, p.value), k - 1);
    }
  }

  /** Once a walk has left the table (NULL parent), it stays out. */
  lemma {:induction false} WalkStaysNone<T>(f: Forest<T>, p: Option<Id>, k: nat, m: nat)
    requires k <= m && Walk(f, p, k).None?
    ensures Walk(f, p, m).None?
    decreases m - k
  {
    if k < m {
      WalkSucc(f, p, k);
      WalkStaysNone(f, p, k + 1, m);
    }
  }

  /** Walking a + b links is walking a links, then b more. */
  lemma {:induction false} WalkAdd<T>(f: Forest<T>, p: Option<Id>, a: nat, b: nat)
    ensures Walk(f, p, a + b) == Walk(f, Walk(f, p, a), b)
    decreases a
  {
    if a > 0 {
      match p
      case None =>
        WalkStaysNone(f, None, 0, b);
      case Some(y) =>
        WalkAdd(f, ParentOf(f, y), a - 1, b);
    }
  }

  /**
   * A row that `n >= 1` parent links lead back to sits on a cycle: walking
   * up from it never reaches a row without a parent, however many links
   * are followed.  A `while parent:` loop started there never stops.
   */
  lemma {:induction false} CycleWalkNeverEnds<T>(f: Forest<T>, x: Id, n: nat, k: nat)
    requires n >= 1 && Walk(f, Some(x), n) == Some(x)
    ensures Walk(f, Some(x), k).Some?
    decreases k
  {
    if k <= n {
      if Walk(f, Some(x), k).None? {
        WalkStaysNone(f, Some(x), k, n);
      }
    } else {
      WalkAdd(f, Some(x), n, k - n);
      CycleWalkNeverEnds(f, x, n, k - n);
    }
  }

  /**
   * Referential integrity does not rule out cycles: two rows naming each
   * other as parent form a closed table that is not acyclic, and the walk
   * up from either of them comes back to it.
   */
  lemma TwoRowCycle<T>(d: T)
    ensures var f := Forest(map[1 := Entry(Some(2), d), 2 := Entry(Some(1), d)], [1, 2]);
            Closed(f) && !Acyclic(f) && Walk(f, Some(1), 2) == Some(1)
  {
    var f := Forest(map[1 := Entry(Some(2), d), 2 := Entry(Some(1), d)], [1, 2]);
    assert f.rows.Keys == {1, 2};
    assert |f.rows| == 2;
    assert AncestorChain(f, Some(2), 1).None?;
    assert AncestorChain(f, Some(1), |f.rows|).None?;
  }

  /**
   * Walking up from the candidate parent `p` of row `self` reaches `self`,
   * or reaches some row a second time: giving `self` the parent `p` would
   * close a loop.
   */
  ghost predicate Revisits<T>(f: Forest<T>, self: Id, p: Option<Id>)
  {
    exists k: nat ::
      Walk(f, p, k).Some? &&
      (Walk(f, p, k).value == self || exists j: nat :: j < k && Walk(f, p, j) == Walk(f, p, k))
  }

  /** The set of rows a walk has visited in its first k steps. */
  ghost function WalkSet<T>(f: Forest<T>, p: Option<Id>, k: nat): set<Id>
  {
    set j: nat | j < k && Walk(f, p, j).Some? :: Walk(f, p, j).value
  }

  /** The lineage from the root down to `x`: the order a hierarchy path prints. */
  function RootPath<T>(f: Forest<T>, x: Id): (r: seq<Id>)
    requires Acyclic(f) && x in f.rows
    ensures |r| == Depth(f, x) + 1
    ensures r[|r| - 1] == x
    ensures forall i :: 0 <= i < |r| ==> r[i] in f.rows
  {
    var l := Lineage(f, x);
    seq(|l|, i requires 0 <= i < |l| => l[|l| - 1 - i])
  }

  /** A root's path is itself; a child's path is its parent's path followed by the child. */
  lemma RootPathStep<T>(f: Forest<T>, x: Id)
    requires Acyclic(f) && x in f.rows
    ensures ParentOf(f, x).None? ==> RootPath(f, x) == [x]
    ensures ParentOf(f, x).Some? ==>
              ParentOf(f, x).value in f.rows &&
              RootPath(f, x) == RootPath(f, ParentOf(f, x).value) + [x]
  {
    LineageStep(f, x);
  }

  /** A hierarchy path starts at a row without a parent. */
  lemma RootPathStartsAtRoot<T>(f: Forest<T>, x: Id)
    requires Acyclic(f) && x in f.rows
    ensures ParentOf(f, RootPath(f, x)[0]).None?
  {
    var l := Lineage(f, x);
    LineageNext(f, x, |l| - 1);
  }

  /** A walk from an existing row follows its lineage and then stays outside the table. */
  lemma {:induction false} WalkFollowsLineage<T>(f: Forest<T>, x: Id, j: nat)
    requires Acyclic(f) && x in f.rows
    ensures Walk(f, Some(x), j) ==
              if j < |Lineage(f, x)| then Some(Lineage(f, x)[j]) else None
    decreases j
  {
    LineageStep(f, x);
    var l := Lineage(f, x);
    if j > 0 {
      assert Walk(f, Some(x), j) == Walk(f, ParentOf(f, x), j - 1);
      match ParentOf(f, x)
      case None =>
        WalkStaysNone(f, None, 0, j - 1);
        assert |l| == 1;
        assert Walk(f, Some(x), j) == None;
      case Some(y) =>
        WalkFollowsLineage(f, y, j - 1);
        assert Walk(f, Some(x), j) == Walk(f, Some(y), j - 1);
        assert |l| == |Lineage(f, y)| + 1;
        if j < |l| {
          assert l[j] == Lineage(f, y)[j - 1];
        }
    } else {
      assert Walk(f, Some(x), j) == Some(l[j]);
    }
  }

  /**
   * In an acyclic table, the walk up from the candidate parent `p` comes
   * back exactly when `self` is `p` or one of `p`'s ancestors.
   */
  lemma RevisitsIffInLineage<T>(f: Forest<T>, self: Id, p: Id)
    requires Acyclic(f) && p in f.rows
    ensures Revisits(f, self, Some(p)) <==> self in Lineage(f, p)
  {
    var l := Lineage(f, p);
    if self in l {
      var k :| 0 <= k < |l| && l[k] == self;
      WalkFollowsLineage(f, p, k);
    }
    if Revisits(f, self, Some(p)) {
      var k: nat :| Walk(f, Some(p), k).Some? &&
        (Walk(f, Some(p), k).value == self || exists j: nat :: j < k && Walk(f, Some(p), j) == Walk(f, Some(p), k));
      WalkFollowsLineage(f, p, k);
      if Walk(f, Some(p), k).value != self {
        var j: nat :| j < k && Walk(f, Some(p), j) == Walk(f, Some(p), k);
        WalkFollowsLineage(f, p, j);
        LineageDistinct(f, p);
        assert false;
      }
    }
  }

  /**
   * In an acyclic table, a cycle check on row `self` with candidate parent
   * `p` fails exactly when `p` is `self` or lies below `self`.
   */
  lemma RevisitsIffBelowSelf<T>(f: Forest<T>, self: Id, p: Id)
    requires Acyclic(f) && p in f.rows
    ensures Revisits(f, self, Some(p)) <==> self in f.rows && (p == self || p in Descendants(f, self))
  {
    RevisitsIffInLineage(f, self, p);
    var l := Lineage(f, p);
    if self in f.rows {
      DescendantsAreBelow(f, self, p);
      if self in l && self != p {
        var k :| 0 <= k < |l| && l[k] == self;
        assert l[1..][k - 1] == self;
      }
      if self in Ancestors(f, p) {
        var k :| 0 <= k < |l| - 1 && l[1..][k] == self;
        assert l[k + 1] == self;
      }
    }
  }

  /** The first k steps of a walk met neither `self` nor any row twice. */
  ghost predicate NoRevisitBefore<T>(c: Forest<T>, self: Id, p: Option<Id>, k: nat)
  {
    forall j: nat :: j < k ==>
      Walk(c, p, j).Some? && Walk(c, p, j).value != self &&
      forall i: nat :: i < j ==> Walk(c, p, i) != Walk(c, p, j)
  }

  /** A walk step onto a row not seen before keeps the walk free of repeats. */
  lemma NoRevisitStep<T>(c: Forest<T>, self: Id, p: Option<Id>, k: nat)
    requires NoRevisitBefore(c, self, p, k)
    requires Walk(c, p, k).Some? && Walk(c, p, k).value !in {self} + WalkSet(c, p, k)
    ensures NoRevisitBefore(c, self, p, k + 1)
    ensures WalkSet(c, p, k + 1) == WalkSet(c, p, k) + {Walk(c, p, k).value}
  {
  }

  /** A walk step onto a row already seen is a revisit. */
  lemma RevisitFound<T>(c: Forest<T>, self: Id, p: Option<Id>, k: nat)
    requires Walk(c, p, k).Some? && Walk(c, p, k).value in {self} + WalkSet(c, p, k)
    ensures Revisits(c, self, p)
  {
    if Walk(c, p, k).value != self {
      var j: nat :| j < k && Walk(c, p, j).Some? && Walk(c, p, j).value == Walk(c, p, k).value;
      assert Walk(c, p, j) == Walk(c, p, k);
    }
  }

  /** A walk that leaves the table without repeating never revisits. */
  lemma NoRevisitAtEnd<T>(c: Forest<T>, self: Id, p: Option<Id>, k: nat)
    requires NoRevisitBefore(c, self, p, k) && Walk(c, p, k).None?
    ensures !Revisits(c, self, p)
  {
    forall m: nat | Walk(c, p, m).Some?
      ensures Walk(c, p, m).value != self
      ensures forall j: nat :: j < m ==> Walk(c, p, j) != Walk(c, p, m)
    {
      if m >= k {
        WalkStaysNone(c, p, k, m);
      }
    }
  }
}

=== FILE: iam_models.dfy ===
/**
 * Identity and access: the user's login lockout counter, role assignments
 * with their scope rule, the role-permission links and the permission
 * catalogue seeded at setup.
 */
module IamModels {
  import opened Common

  /**
   * The lockout state of an `app_user` row.  Times are seconds on one
   * clock; `now` is always passed in.
   */
  class AppUser {
    var tenant: Id
    var failedLoginAttempts: int
    var lockedUntil: Option<int>
    var lastLoginAt: Option<int>

    /** A new user: no failures, not locked, never logged in. */
    constructor(tenant: Id)
      ensures this.tenant == tenant
      ensures failedLoginAttempts == 0 && lockedUntil == None && lastLoginAt == None
    {
      this.tenant := tenant;
      failedLoginAttempts := 0;
      lockedUntil := None;
      lastLoginAt := None;
    }

    /** `is_account_locked()`: a lock time is set and still in the future. */
    predicate IsAccountLocked(now: int)
      reads this
    {
      lockedUntil.Some? && lockedUntil.value > now
    }

    /** `record_login()`: stamp the login and clear the failure count and any lock. */
    method RecordLogin(now: int)
      modifies this
      ensures lastLoginAt == Some(now) && failedLoginAttempts == 0 && lockedUntil == None
      ensures tenant == old(tenant)
      ensures forall t :: !IsAccountLocked(t)
    {
      lastLoginAt := Some(now);
      failedLoginAttempts := 0;
      lockedUntil := None;
    }

    /**
     * `record_failed_login(max_attempts=5, lockout_minutes=30)`: count one
     * more failure; once the count reaches `maxAttempts` the account is
     * locked until `lockoutMinutes` from now.
     */
    method RecordFailedLogin(now: int, maxAttempts: int := 5, lockoutMinutes: int := 30)
      modifies this
      ensures failedLoginAttempts == old(failedLoginAttempts) + 1
      ensures failedLoginAttempts >= maxAttempts ==> lockedUntil == Some(now + 60 * lockoutMinutes)
      ensures failedLoginAttempts < maxAttempts ==> lockedUntil == old(lockedUntil)
      ensures lastLoginAt == old(lastLoginAt) && tenant == old(tenant)
      ensures failedLoginAttempts >= maxAttempts && lockoutMinutes > 0 ==> IsAccountLocked(now)
    {
      failedLoginAttempts := failedLoginAttempts + 1;
      if failedLoginAttempts >= maxAttempts {
        lockedUntil := Some(now + 60 * lockoutMinutes);
      }
    }
  }

  /**
   * A lock holds only while its time is in the future: an account without
   * a lock time is never locked, and a lock that has run out stays run out.
   */
  lemma LockExpires(u: AppUser, now: int, later: int)
    requires now <= later
    ensures u.lockedUntil.None? ==> !u.IsAccountLocked(now)
    ensures u.lockedUntil.Some? ==> (u.IsAccountLocked(now) <==> now < u.lockedUntil.value)
    ensures u.IsAccountLocked(later) ==> u.IsAccountLocked(now)
  {
  }

  datatype ScopeType = ScopeGlobal | ScopeOrganization | ScopeBusinessUnit
  {
    /** The value stored in the `scope_type` column. */
    function Name(): string
    {
      match this
      case ScopeGlobal => "global"
      case ScopeOrganization => "organization"
      case ScopeBusinessUnit => "business_unit"
    }
  }

  datatype Role = Role(tenant: Id, name: string, isSystemRole: bool)

  /** A row of user_role: `user` holds `role`, globally or for one organisation or business unit. */
  datatype UserRole = UserRole(tenant: Id, user: Id, role: Id, scopeType: ScopeType, scopeId: Option<Id>)

  /** A row of role_permission; the permission is named by its (unique) code. */
  datatype RolePermission = RolePermission(tenant: Id, role: Id, permission: string)

  /**
   * `UserRole.clean()`: a scoped assignment needs a scope id and a global
   * one must not have one.
   */
  function UserRoleClean(ur: UserRole): (r: Outcome<Error>)
    ensures r.Pass? <==> (ur.scopeType == ScopeGlobal <==> ur.scopeId.None?)
    ensures ur.scopeType != ScopeGlobal && ur.scopeId.None? ==>
              r == Fail(ValidationError("scope_id is required when scope_type is '" + ur.scopeType.Name() + "'"))
    ensures ur.scopeType == ScopeGlobal && ur.scopeId.Some? ==>
              r == Fail(ValidationError("scope_id must be null when scope_type is 'global'"))
  {
    if ur.scopeType != ScopeGlobal && ur.scopeId.None? then
      Fail(ValidationError("scope_id is required when scope_type is '" + ur.scopeType.Name() + "'"))
    else if ur.scopeType == ScopeGlobal && ur.scopeId.Some? then
      Fail(ValidationError("scope_id must be null when scope_type is 'global'"))
    else
      Pass
  }

  /** Some role assignment of `user` links to a role holding permission `code`. */
  predicate Grants(userRoles: seq<UserRole>, rolePermissions: set<RolePermission>, user: Id, code: string)
  {
    exists ur, rp :: ur in userRoles && rp in rolePermissions &&
      ur.user == user && rp.role == ur.role && rp.permission == code
  }

  /**
   * `AppUser.has_permission(code)`: the join permission ← role_permission ←
   * user_role restricted to the user and the code is non-empty.  The
   * scope of the assignment plays no part.
   */
  function HasPermission(userRoles: seq<UserRole>, rolePermissions: set<RolePermission>, user: Id, code: string)
    : (r: bool)
    ensures r <==> Grants(userRoles, rolePermissions, user, code)
  {
    exists rp :: rp in rolePermissions && rp.permission == code && rp.role in RolesOf(userRoles, user)
  }

  /** The roles `user` holds, under any scope. */
  function RolesOf(userRoles: seq<UserRole>, user: Id): (roles: set<Id>)
    ensures forall r :: r in roles <==> exists ur :: ur in userRoles && ur.user == user && ur.role == r
  {
    set ur | ur in userRoles && ur.user == user :: ur.role
  }

  /** Re-scoping the user's role assignments changes no permission check. */
  lemma HasPermissionIgnoresScope(userRoles: seq<UserRole>, rolePermissions: set<RolePermission>, user: Id, code: string,
                                  i: nat, st: ScopeType, sid: Option<Id>)
    requires i < |userRoles|
    ensures HasPermission(userRoles[i := userRoles[i].(scopeType := st, scopeId := sid)], rolePermissions, user, code) ==
            HasPermission(userRoles, rolePermissions, user, code)
  {
    var rescoped := userRoles[i := userRoles[i].(scopeType := st, scopeId := sid)];
    if Grants(userRoles, rolePermissions, user, code) {
      var ur, rp :| ur in userRoles && rp in rolePermissions && ur.user == user && rp.role == ur.role && rp.permission == code;
      var j :| 0 <= j < |userRoles| && userRoles[j] == ur;
      assert rescoped[j] in rescoped && rescoped[j].user == user && rescoped[j].role == ur.role;
    }
    if Grants(rescoped, rolePermissions, user, code) {
      var ur, rp :| ur in rescoped && rp in rolePermissions && ur.user == user && rp.role == ur.role && rp.permission == code;
      var j :| 0 <= j < |rescoped| && rescoped[j] == ur;
      assert userRoles[j] in userRoles && userRoles[j].user == user && userRoles[j].role == ur.role;
    }
  }

  /** `AppUser.has_any_permission(codes)`: the same join with `code__in=codes`. */
  function HasAnyPermission(userRoles: seq<UserRole>, rolePermissions: set<RolePermission>, user: Id, codes: seq<string>)
    : (r: bool)
  {
    exists rp :: rp in rolePermissions && rp.permission in codes && rp.role in RolesOf(userRoles, user)
  }

  /** Holding any of `codes` is holding one of them; so no list of codes is held when the list is empty. */
  lemma HasAnyPermissionIffSome(userRoles: seq<UserRole>, rolePermissions: set<RolePermission>, user: Id, codes: seq<string>)
    ensures HasAnyPermission(userRoles, rolePermissions, user, codes) <==>
              exists i :: 0 <= i < |codes| && HasPermission(userRoles, rolePermissions, user, codes[i])
    ensures codes == [] ==> !HasAnyPermission(userRoles, rolePermissions, user, codes)
  {
    if HasAnyPermission(userRoles, rolePermissions, user, codes) {
      var rp :| rp in rolePermissions && rp.permission in codes && rp.role in RolesOf(userRoles, user);
      var i :| 0 <= i < |codes| && codes[i] == rp.permission;
      assert Grants(userRoles, rolePermissions, user, codes[i]);
    }
    if exists i :: 0 <= i < |codes| && HasPermission(userRoles, rolePermissions, user, codes[i]) {
      var i :| 0 <= i < |codes| && HasPermission(userRoles, rolePermissions, user, codes[i]);
      assert Grants(userRoles, rolePermissions, user, codes[i]);
      var ur, rp :| ur in userRoles && rp in rolePermissions && ur.user == user && rp.role == ur.role && rp.permission == codes[i];
      assert rp.permission in codes;
    }
  }

  /**
   * `has_permission` as written: it filters on `rolepermission__role__userrole__user`,
   * but the reverse relations are named `role_permissions` and
   * `user_roles`, so the lookup cannot be resolved and every call raises.
   */
  function HasPermissionAsWritten(userRoles: seq<UserRole>, rolePermissions: set<RolePermission>, user: Id, code: string)
    : Result<bool, string>
  {
    Err("FieldError: Cannot resolve keyword 'rolepermission' into field")
  }

  /** A user whose role grants the code: as written the check raises, the intended join finds the grant. */
  lemma HasPermissionAsWrittenRaises(tenant: Id, user: Id, role: Id, code: string)
    ensures var userRoles := [UserRole(tenant, user, role, ScopeGlobal, None)];
            var rolePermissions := {RolePermission(tenant, role, code)};
            HasPermissionAsWritten(userRoles, rolePermissions, user, code).Err? &&
            HasPermission(userRoles, rolePermissions, user, code)
  {
    var userRoles := [UserRole(tenant, user, role, ScopeGlobal, None)];
    assert userRoles[0] in userRoles;
  }

  /** `has_any_permission` as written: the same unresolvable lookup, so every call raises. */
  function HasAnyPermissionAsWritten(userRoles: seq<UserRole>, rolePermissions: set<RolePermission>, user: Id, codes: seq<string>)
    : Result<bool, string>
  {
    Err("FieldError: Cannot resolve keyword 'rolepermission' into field")
  }

  /** A user whose role grants one of the codes: as written the check raises, the intended join finds the grant. */
  lemma HasAnyPermissionAsWrittenRaises(tenant: Id, user: Id, role: Id, code: string, others: seq<string>)
    ensures var userRoles := [UserRole(tenant, user, role, ScopeGlobal, None)];
            var rolePermissions := {RolePermission(tenant, role, code)};
            HasAnyPermissionAsWritten(userRoles, rolePermissions, user, others + [code]).Err? &&
            HasAnyPermission(userRoles, rolePermissions, user, others + [code])
  {
    var userRoles := [UserRole(tenant, user, role, ScopeGlobal, None)];
    var rp := RolePermission(tenant, role, code);
    assert userRoles[0] in userRoles;
    assert rp.role in RolesOf(userRoles, user);
    assert rp.permission in others + [code];
  }

  /** A row of the permission table, keyed by its unique code. */
  datatype PermissionInfo = PermissionInfo(description: string, moduleName: string)

  /** One entry of the default permission list: code, description, module. */
  datatype PermissionSeed = PermissionSeed(code: string, description: string, moduleName: string)

  const DefaultPermissions: seq<PermissionSeed> := [
    PermissionSeed("assessment.create", "Create new assessments", "assessment"),
    PermissionSeed("assessment.view", "View assessments", "assessment"),
    PermissionSeed("assessment.edit", "Edit assessments", "assessment"),
    PermissionSeed("assessment.delete", "Delete assessments", "assessment"),
    PermissionSeed("assessment.lock", "Lock/unlock assessments", "assessment"),
    PermissionSeed("response.submit", "Submit responses", "response"),
    PermissionSeed("response.view", "View responses", "response"),
    PermissionSeed("response.edit", "Edit responses", "response"),
    PermissionSeed("response.review", "Review responses", "response"),
    PermissionSeed("response.approve", "Approve responses", "response"),
    PermissionSeed("evidence.upload", "Upload evidence", "evidence"),
    PermissionSeed("evidence.view", "View evidence", "evidence"),
    PermissionSeed("evidence.delete", "Delete evidence", "evidence"),
    PermissionSeed("evidence.validate", "Validate evidence", "evidence"),
    PermissionSeed("finding.create", "Create findings", "finding"),
    PermissionSeed("finding.view", "View findings", "finding"),
    PermissionSeed("finding.edit", "Edit findings", "finding"),
    PermissionSeed("finding.close", "Close findings", "finding"),
    PermissionSeed("remediation.create", "Create remediation actions", "finding"),
    PermissionSeed("remediation.assign", "Assign remediation actions", "finding"),
    PermissionSeed("remediation.update", "Update remediation progress", "finding"),
    PermissionSeed("report.generate", "Generate reports", "reporting"),
    PermissionSeed("report.export", "Export reports", "reporting"),
    PermissionSeed("dashboard.view", "View dashboards", "reporting"),
    PermissionSeed("user.manage", "Manage users", "admin"),
    PermissionSeed("role.manage", "Manage roles", "admin"),
    PermissionSeed("tenant.configure", "Configure tenant settings", "admin"),
    PermissionSeed("standard.import", "Import standards", "admin"),
    PermissionSeed("user.view_own", "View own profile", "user"),
    PermissionSeed("user.edit_own", "Edit own profile", "user")
  ]

  /** The permission table after get-or-create by code of each entry of `seeds`, in order. */
  function Seeded(perms: map<string, PermissionInfo>, seeds: seq<PermissionSeed>): map<string, PermissionInfo>
  {
    if seeds == [] then perms
    else
      var p := Seeded(perms, seeds[..|seeds| - 1]);
      var last := seeds[|seeds| - 1];
      if last.code in p then p else p[last.code := PermissionInfo(last.description, last.moduleName)]
  }

  /** The codes get-or-create inserted, in order. */
  function CreatedCodes(perms: map<string, PermissionInfo>, seeds: seq<PermissionSeed>): seq<string>
  {
    if seeds == [] then []
    else
      var last := seeds[|seeds| - 1];
      CreatedCodes(perms, seeds[..|seeds| - 1]) + if last.code in Seeded(perms, seeds[..|seeds| - 1]) then [] else [last.code]
  }

  /**
   * Seeding never overwrites a row that already exists, and afterwards
   * every listed code has a row and no other row was added.
   */
  lemma {:induction false} SeededRows(perms: map<string, PermissionInfo>, seeds: seq<PermissionSeed>)
    ensures forall k :: k in perms ==> k in Seeded(perms, seeds) && Seeded(perms, seeds)[k] == perms[k]
    ensures forall i :: 0 <= i < |seeds| ==> seeds[i].code in Seeded(perms, seeds)
    ensures forall k :: k in Seeded(perms, seeds) ==> k in perms || exists i :: 0 <= i < |seeds| && seeds[i].code == k
  {
    if seeds != [] {
      var init := seeds[..|seeds| - 1];
      SeededRows(perms, init);
      forall k | k in Seeded(perms, seeds)
        ensures k in perms || exists i :: 0 <= i < |seeds| && seeds[i].code == k
      {
        if k !in perms && k != seeds[|seeds| - 1].code {
          var i :| 0 <= i < |init| && init[i].code == k;
          assert seeds[i] == init[i];
        }
      }
    }
  }

  /** The returned list holds exactly the listed codes that had no row before, each once. */
  lemma {:induction false} CreatedCodesExact(perms: map<string, PermissionInfo>, seeds: seq<PermissionSeed>)
    ensures forall k :: k in CreatedCodes(perms, seeds) <==> k !in perms && exists i :: 0 <= i < |seeds| && seeds[i].code == k
    ensures Distinct(CreatedCodes(perms, seeds))
    ensures forall k :: k in CreatedCodes(perms, seeds) ==> k in Seeded(perms, seeds)
  {
    if seeds != [] {
      var init := seeds[..|seeds| - 1];
      var last := seeds[|seeds| - 1];
      CreatedCodesExact(perms, init);
      SeededRows(perms, init);
      SeededRows(perms, seeds);
      forall k | k !in perms && exists i :: 0 <= i < |seeds| && seeds[i].code == k
        ensures k in CreatedCodes(perms, seeds)
      {
        var i :| 0 <= i < |seeds| && seeds[i].code == k;
        if i < |init| {
          assert init[i] == seeds[i];
        }
      }
      forall k | k in CreatedCodes(perms, seeds)
        ensures k !in perms && exists i :: 0 <= i < |seeds| && seeds[i].code == k
      {
        if k in CreatedCodes(perms, init) {
          var i :| 0 <= i < |init| && init[i].code == k;
          assert seeds[i] == init[i];
        }
      }
    }
  }

  /** Seeding twice: the second run creates nothing and leaves the table as the first run left it. */
  lemma SecondSeedCreatesNothing(perms: map<string, PermissionInfo>, seeds: seq<PermissionSeed>)
    ensures CreatedCodes(Seeded(perms, seeds), seeds) == []
    ensures Seeded(Seeded(perms, seeds), seeds) == Seeded(perms, seeds)
  {
    var once := Seeded(perms, seeds);
    SeededRows(perms, seeds);
    CreatedCodesExact(once, seeds);
    SeededRows(once, seeds);
    if CreatedCodes(once, seeds) != [] {
      assert CreatedCodes(once, seeds)[0] in CreatedCodes(once, seeds);
    }
    assert Seeded(once, seeds).Keys == once.Keys;
  }

  /** The permission and role_permission tables. */
  class RbacDb {
    var permissions: map<string, PermissionInfo>
    var rolePermissions: set<RolePermission>

    /** Every role-permission link names an existing permission. */
    ghost predicate Valid()
      reads this
    {
      forall rp :: rp in rolePermissions ==> rp.permission in permissions
    }

    constructor()
      ensures Valid() && permissions == map[] && rolePermissions == {}
    {
      permissions := map[];
      rolePermissions := {};
    }

    /** `Role.assign_permission(permission)`: get-or-create the (tenant, role, permission) link. */
    method AssignPermission(role: Role, roleId: Id, code: string)
      requires Valid() && code in permissions
      modifies this
      ensures Valid()
      ensures rolePermissions == old(rolePermissions) + {RolePermission(role.tenant, roleId, code)}
      ensures permissions == old(permissions)
    {
      rolePermissions := rolePermissions + {RolePermission(role.tenant, roleId, code)};
    }

    /** `Role.remove_permission(permission)`: delete that one (tenant, role, permission) link, if present. */
    method RemovePermission(role: Role, roleId: Id, code: string)
      requires Valid()
      modifies this
      ensures Valid()
      ensures rolePermissions == old(rolePermissions) - {RolePermission(role.tenant, roleId, code)}
      ensures permissions == old(permissions)
    {
      rolePermissions := rolePermissions - {RolePermission(role.tenant, roleId, code)};
    }

    /**
     * `seed_default_permissions()`: get-or-create each default permission
     * by code and return the codes of the ones created.
     */
    method SeedDefaultPermissions() returns (created: seq<string>)
      requires Valid()
      modifies this
      ensures Valid()
      ensures permissions == Seeded(old(permissions), DefaultPermissions)
      ensures created == CreatedCodes(old(permissions), DefaultPermissions)
      ensures rolePermissions == old(rolePermissions)
    {
      created := [];
      for i := 0 to |DefaultPermissions|
        invariant permissions == Seeded(old(permissions), DefaultPermissions[..i])
        invariant created == CreatedCodes(old(permissions), DefaultPermissions[..i])
        invariant old(permissions).Keys <= permissions.Keys
        invariant rolePermissions == old(rolePermissions)
      {
        var seed := DefaultPermissions[i];
        assert DefaultPermissions[..i + 1][..i] == DefaultPermissions[..i];
        if seed.code !in permissions {
          permissions := permissions[seed.code := PermissionInfo(seed.description, seed.moduleName)];
          created := created + [seed.code];
        }
      }
      assert DefaultPermissions[..|DefaultPermissions|] == DefaultPermissions;
    }
  }
}

=== FILE: iam_permissions.dfy ===
/**
 * The request-level access checks: permission classes, object-level checks
 * and the scope filter applied to list queries.
 */
module IamPermissions {
  import opened Common
  import opened IamModels

  /** `request.user`: absent, the anonymous user, or an authenticated app user. */
  datatype RequestUser = NoUser | Anonymous | Authenticated(id: Id, tenant: Id)

  /** The RBAC rows the checks read. */
  datatype Rbac = Rbac(userRoles: seq<UserRole>, rolePermissions: set<RolePermission>, roles: map<Id, Role>)

  predicate HasGlobalRole(userRoles: seq<UserRole>, user: Id)
  {
    exists ur :: ur in userRoles && ur.user == user && ur.scopeType == ScopeGlobal
  }

  /** `check_permission(user, code)`: an authenticated user holding the permission. */
  function CheckPermission(u: RequestUser, db: Rbac, code: string): (r: bool)
    ensures !u.Authenticated? ==> !r
    ensures u.Authenticated? ==> (r <==> Grants(db.userRoles, db.rolePermissions, u.id, code))
  {
    u.Authenticated? && HasPermission(db.userRoles, db.rolePermissions, u.id, code)
  }

  /**
   * `HasPermission.has_permission`: the view's `required_permission`
   * (empty when the view sets none) is held, or nothing is required.
   */
  function HasPermissionCheck(u: RequestUser, db: Rbac, required: string): (r: bool)
    ensures !u.Authenticated? ==> !r
    ensures u.Authenticated? && required == "" ==> r
    ensures u.Authenticated? && required != "" ==> (r <==> Grants(db.userRoles, db.rolePermissions, u.id, required))
  {
    if !u.Authenticated? then false
    else if required == "" then true
    else HasPermission(db.userRoles, db.rolePermissions, u.id, required)
  }

  /** `HasAnyPermission.has_permission`: one of `required_permissions` is held, or the list is empty. */
  function HasAnyPermissionCheck(u: RequestUser, db: Rbac, required: seq<string>): (r: bool)
    ensures !u.Authenticated? ==> !r
    ensures u.Authenticated? && required == [] ==> r
    ensures u.Authenticated? && required != [] ==>
              (r <==> exists i :: 0 <= i < |required| && Grants(db.userRoles, db.rolePermissions, u.id, required[i]))
  {
    if !u.Authenticated? then false
    else if required == [] then true
    else
      HasAnyPermissionIffSome(db.userRoles, db.rolePermissions, u.id, required);
      HasAnyPermission(db.userRoles, db.rolePermissions, u.id, required)
  }

  /** The user holds a role named `name`, under any scope. */
  predicate HasRoleNamed(db: Rbac, user: Id, name: string)
  {
    exists ur :: ur in db.userRoles && ur.user == user && ur.role in db.roles && db.roles[ur.role].name == name
  }

  /** The ownership columns of an object; either may be absent. */
  datatype Owned = Owned(ownerUserId: Option<Id>, createdById: Option<Id>)

  /** The owner `IsOwnerOrAdmin` compares with: owner_user_id, or created_by_id when that is empty. */
  function OwnerOf(obj: Owned): Option<Id>
  {
    if obj.ownerUserId.Some? then obj.ownerUserId else obj.createdById
  }

  /** `IsOwnerOrAdmin.has_object_permission`: an Admin sees everything, anyone else only what they own. */
  function IsOwnerOrAdmin(u: RequestUser, db: Rbac, obj: Owned): (r: bool)
    ensures !u.Authenticated? ==> !r
    ensures u.Authenticated? && HasRoleNamed(db, u.id, "Admin") ==> r
    ensures u.Authenticated? && !HasRoleNamed(db, u.id, "Admin") ==>
              (r <==> obj.ownerUserId == Some(u.id) || (obj.ownerUserId.None? && obj.createdById == Some(u.id)))
  {
    if !u.Authenticated? then false
    else if HasRoleNamed(db, u.id, "Admin") then true
    else OwnerOf(obj) == Some(u.id)
  }

  /** `IsTenantMember.has_object_permission`: the object's tenant (if any) is the user's. */
  function IsTenantMember(u: RequestUser, objTenant: Option<Id>): (r: bool)
    ensures r <==> u.Authenticated? && objTenant == Some(u.tenant)
    ensures objTenant.None? ==> !r
  {
    if !u.Authenticated? then false else objTenant == Some(u.tenant)
  }

  /**
   * `has_scope_access(user, scope_type, scope_id)`: a global role opens
   * every scope; otherwise the user needs a role on exactly that scope.
   */
  function HasScopeAccess(u: RequestUser, userRoles: seq<UserRole>, scopeType: ScopeType, scopeId: Option<Id>): (r: bool)
    ensures !u.Authenticated? ==> !r
    ensures u.Authenticated? && HasGlobalRole(userRoles, u.id) ==> r
    ensures u.Authenticated? && !HasGlobalRole(userRoles, u.id) ==>
              (r <==> exists ur :: ur in userRoles && ur.user == u.id && ur.scopeType == scopeType && ur.scopeId == scopeId)
  {
    if !u.Authenticated? then false
    else if HasGlobalRole(userRoles, u.id) then true
    else exists ur :: ur in userRoles && ur.user == u.id && ur.scopeType == scopeType && ur.scopeId == scopeId
  }

  /**
   * What scope access means: every scope for a global role holder, and
   * otherwise only the scopes the user is assigned to, by type and id.
   */
  lemma ScopeAccessCases(u: RequestUser, userRoles: seq<UserRole>, scopeType: ScopeType, scopeId: Option<Id>)
    requires u.Authenticated?
    ensures HasGlobalRole(userRoles, u.id) ==> HasScopeAccess(u, userRoles, scopeType, scopeId)
    ensures !HasGlobalRole(userRoles, u.id) ==>
              (HasScopeAccess(u, userRoles, scopeType, scopeId) <==>
               exists i :: 0 <= i < |userRoles| && userRoles[i].user == u.id &&
                           userRoles[i].scopeType == scopeType && userRoles[i].scopeId == scopeId)
  {
    if !HasGlobalRole(userRoles, u.id) && HasScopeAccess(u, userRoles, scopeType, scopeId) {
      var ur :| ur in userRoles && ur.user == u.id && ur.scopeType == scopeType && ur.scopeId == scopeId;
      var i :| 0 <= i < |userRoles| && userRoles[i] == ur;
    }
  }

  /** A business-unit assignment gives no access to an organisation, not even the unit's own. */
  lemma ScopeAccessNotTransitive(u: RequestUser, tenant: Id, role: Id, unit: Id, org: Id)
    requires u.Authenticated?
    ensures var userRoles := [UserRole(tenant, u.id, role, ScopeBusinessUnit, Some(unit))];
            HasScopeAccess(u, userRoles, ScopeBusinessUnit, Some(unit)) &&
            !HasScopeAccess(u, userRoles, ScopeOrganization, Some(org))
  {
    var userRoles := [UserRole(tenant, u.id, role, ScopeBusinessUnit, Some(unit))];
    assert userRoles[0] in userRoles;
  }

  /** The `scope_id` values of the user's roles of one scope type (a missing id shows up as `None`). */
  function ScopeIds(userRoles: seq<UserRole>, user: Id, scopeType: ScopeType): (ids: set<Option<Id>>)
    ensures forall id :: id in ids <==> exists ur :: ur in userRoles && ur.user == user && ur.scopeType == scopeType && ur.scopeId == id
  {
    set ur | ur in userRoles && ur.user == user && ur.scopeType == scopeType :: ur.scopeId
  }

  /** Whether the filter built for non-global users keeps a row whose scope column holds `v`. */
  predicate InUserScope(v: Option<Id>, orgIds: set<Option<Id>>, buIds: set<Option<Id>>, useUnits: bool)
  {
    v.Some? && (v in orgIds || (useUnits && v in buIds))
  }

  /** The rows whose scope column value passes `InUserScope`, in order. */
  function KeepScoped<T(!new)>(rows: seq<T>, scopeOf: T -> Option<Id>, orgIds: set<Option<Id>>, buIds: set<Option<Id>>, useUnits: bool)
    : (r: seq<T>)
    ensures |r| <= |rows|
    ensures forall x :: x in r <==> x in rows && InUserScope(scopeOf(x), orgIds, buIds, useUnits)
  {
    if rows == [] then []
    else
      var init := KeepScoped(rows[..|rows| - 1], scopeOf, orgIds, buIds, useUnits);
      var last := rows[|rows| - 1];
      assert rows == rows[..|rows| - 1] + [last];
      if InUserScope(scopeOf(last), orgIds, buIds, useUnits) then init + [last] else init
  }

  /** The kept rows are the rows in scope, in their original order. */
  lemma {:induction false} KeepScopedSubsequence<T(!new)>(rows: seq<T>, scopeOf: T -> Option<Id>, orgIds: set<Option<Id>>,
                                                 buIds: set<Option<Id>>, useUnits: bool)
    ensures IsSubsequence(KeepScoped(rows, scopeOf, orgIds, buIds, useUnits), rows)
    decreases |rows|
  {
    if rows != [] {
      var init, last := rows[..|rows| - 1], rows[|rows| - 1];
      KeepScopedSubsequence(init, scopeOf, orgIds, buIds, useUnits);
      var r := KeepScoped(rows, scopeOf, orgIds, buIds, useUnits);
      var r0 := KeepScoped(init, scopeOf, orgIds, buIds, useUnits);
      if InUserScope(scopeOf(last), orgIds, buIds, useUnits) {
        assert r[..|r| - 1] == r0;
      } else if r != [] {
        assert r[|r| - 1] in r;
        assert r[|r| - 1] != last;
      }
    }
  }

  /** Rows that are all in scope are kept as they are. */
  lemma {:induction false} KeepScopedAll<T(!new)>(rows: seq<T>, scopeOf: T -> Option<Id>, orgIds: set<Option<Id>>,
                                         buIds: set<Option<Id>>, useUnits: bool)
    requires forall i :: 0 <= i < |rows| ==> InUserScope(scopeOf(rows[i]), orgIds, buIds, useUnits)
    ensures KeepScoped(rows, scopeOf, orgIds, buIds, useUnits) == rows
    decreases |rows|
  {
    if rows != [] {
      var init := rows[..|rows| - 1];
      assert forall i :: 0 <= i < |init| ==> init[i] == rows[i];
      KeepScopedAll(init, scopeOf, orgIds, buIds, useUnits);
      assert init + [rows[|rows| - 1]] == rows;
    }
  }

  /**
   * A row whose scope column holds `v` belongs to one of the user's
   * organisations, or to one of their business units when the column is a
   * business-unit column.
   */
  predicate Visible(v: Option<Id>, userRoles: seq<UserRole>, user: Id, scopeField: string)
  {
    v.Some? &&
    (v in ScopeIds(userRoles, user, ScopeOrganization) ||
     (IsSubstring("business_unit", scopeField) && v in ScopeIds(userRoles, user, ScopeBusinessUnit)))
  }

  /** The user has an organisation assignment, or a business-unit one and the column is a business-unit column. */
  predicate AnyScopeApplies(userRoles: seq<UserRole>, user: Id, scopeField: string)
  {
    ScopeIds(userRoles, user, ScopeOrganization) != {} ||
    (ScopeIds(userRoles, user, ScopeBusinessUnit) != {} && IsSubstring("business_unit", scopeField))
  }

  /**
   * `filter_by_user_scope(queryset, user, scope_field)`: `scopeOf` reads
   * the column `scopeField` of a row.  Nobody sees anything unauthenticated;
   * a global role holder sees every row; anyone else sees the rows of their
   * organisations, plus those of their business units when the column is a
   * business-unit column, and nothing when no such assignment applies.  A
   * NULL column value matches no id.
   */
  function FilterByUserScope<T(!new)>(rows: seq<T>, u: RequestUser, userRoles: seq<UserRole>, scopeField: string,
                                scopeOf: T -> Option<Id>): (r: seq<T>)
    ensures !u.Authenticated? ==> r == []
    ensures u.Authenticated? && HasGlobalRole(userRoles, u.id) ==> r == rows
    ensures |r| <= |rows| && IsSubsequence(r, rows)
    ensures u.Authenticated? && !HasGlobalRole(userRoles, u.id) ==>
              forall x :: x in r <==> (x in rows && Visible(scopeOf(x), userRoles, u.id, scopeField))
    ensures u.Authenticated? && !HasGlobalRole(userRoles, u.id) && !AnyScopeApplies(userRoles, u.id, scopeField) ==> r == []
  {
    if !u.Authenticated? then []
    else if HasGlobalRole(userRoles, u.id) then SubsequenceRefl(rows); rows
    else
      var orgIds := ScopeIds(userRoles, u.id, ScopeOrganization);
      var buIds := ScopeIds(userRoles, u.id, ScopeBusinessUnit);
      var useUnits := buIds != {} && IsSubstring("business_unit", scopeField);
      KeepScopedSubsequence(rows, scopeOf, orgIds, buIds, useUnits);
      if orgIds == {} && !useUnits then [] else KeepScoped(rows, scopeOf, orgIds, buIds, useUnits)
  }

  /** Re-filtering a filtered list changes nothing. */
  lemma FilterByUserScopeIdempotent<T(!new)>(rows: seq<T>, u: RequestUser, userRoles: seq<UserRole>, scopeField: string,
                                       scopeOf: T -> Option<Id>)
    ensures var once := FilterByUserScope(rows, u, userRoles, scopeField, scopeOf);
            FilterByUserScope(once, u, userRoles, scopeField, scopeOf) == once
  {
    if u.Authenticated? && !HasGlobalRole(userRoles, u.id) {
      var orgIds := ScopeIds(userRoles, u.id, ScopeOrganization);
      var buIds := ScopeIds(userRoles, u.id, ScopeBusinessUnit);
      var useUnits := buIds != {} && IsSubstring("business_unit", scopeField);
      if orgIds != {} || useUnits {
        var once := KeepScoped(rows, scopeOf, orgIds, buIds, useUnits);
        forall i | 0 <= i < |once|
          ensures InUserScope(scopeOf(once[i]), orgIds, buIds, useUnits)
        {
          assert once[i] in once;
        }
        KeepScopedAll(once, scopeOf, orgIds, buIds, useUnits);
      }
    }
  }
}

=== FILE: materialization.dfy ===
/**
 * Question materialisation: resolving which controls an assessment covers,
 * writing one snapshot question per (scoped control, mapping), and
 * rematerialising after deleting an assessment's previous snapshots.
 *
 * A mapping row is read with the is_active, display_order and is_mandatory
 * values and the question_bank link the materialiser expects of it, and
 * the descendants of a scoped control are collected as a set of ids.
 * The code as written, which fails on both counts, is modelled by
 * `ScopedControlsAsWritten` and `MaterializeAsWritten`.
 */
module Materialization {
  import opened Common
  import opened Hierarchy
  import opened StandardsModels
  import opened QuestionBankModels
  import opened AssessmentsModels

  /** Every scope row names an existing control node. */
  predicate ScopesValid(c: Catalog, scopes: seq<AssessmentScope>)
  {
    forall s :: s in scopes ==> s.control in c.rows
  }

  /** `assessment.scopes.exists()`. */
  predicate HasScopes(scopes: seq<AssessmentScope>, aid: Id)
  {
    exists s :: s in scopes && s.assessment == aid
  }

  /** Some scope row of the assessment asks for its node's subtree: the only case in which resolution walks the tree. */
  predicate WalksSubtree(scopes: seq<AssessmentScope>, aid: Id)
  {
    exists s :: s in scopes && s.assessment == aid && s.includeChildren
  }

  /**
   * What resolving the assessment's scope needs of the control table:
   * referential integrity, scope rows that name existing nodes, and no
   * cycle of parent links whenever some scope row walks a subtree.
   */
  predicate Resolvable(c: Catalog, scopes: seq<AssessmentScope>, aid: Id)
  {
    Closed(c) && ScopesValid(c, scopes) && (WalksSubtree(scopes, aid) ==> Acyclic(c))
  }

  /** Dropping scope rows keeps the scope resolvable. */
  lemma ResolvableSub(c: Catalog, ss: seq<AssessmentScope>, ts: seq<AssessmentScope>, aid: Id)
    requires Resolvable(c, ts, aid)
    requires forall s :: s in ss ==> s in ts
    ensures Resolvable(c, ss, aid)
  {
    if WalksSubtree(ss, aid) {
      var s :| s in ss && s.assessment == aid && s.includeChildren;
      assert s in ts;
    }
  }

  /**
   * Without a scope row that walks a subtree, resolution is defined even
   * on a table whose parent links form a cycle.
   */
  lemma CyclicCatalogResolvable(d: ControlNode, tenant: Id, aid: Id)
    ensures var c := Forest(map[1 := Entry(Some(2), d), 2 := Entry(Some(1), d)], [1, 2]);
            var scopes := [AssessmentScope(tenant, aid, 1, false)];
            !Acyclic(c) && Resolvable(c, [], aid) && Resolvable(c, scopes, aid)
  {
    TwoRowCycle(d);
    var scopes := [AssessmentScope(tenant, aid, 1, false)];
    assert !WalksSubtree(scopes, aid);
  }

  /** Some scope row of the assessment names `x`, or names an ancestor of `x` with include_children set. */
  predicate Covered(c: Catalog, scopes: seq<AssessmentScope>, aid: Id, x: Id)
    requires Resolvable(c, scopes, aid)
  {
    exists s :: s in scopes && s.assessment == aid &&
      (x == s.control || (s.includeChildren && x in Descendants(c, s.control)))
  }

  predicate IsActiveNode(c: Catalog, x: Id)
    requires x in c.rows
  {
    c.rows[x].data.status == Active
  }

  /** The active nodes of one standard version. */
  function ActiveOfVersion(c: Catalog, version: Id): set<Id>
  {
    set x | x in c.rows && c.rows[x].data.version == version && IsActiveNode(c, x)
  }

  /** The active nodes among `ids`. */
  function ActiveAmong(c: Catalog, ids: set<Id>): set<Id>
  {
    set x | x in c.rows && x in ids && IsActiveNode(c, x)
  }

  /** The nodes the assessment's scope rows name, with the subtrees of those that include children. */
  function CoveredIds(c: Catalog, scopes: seq<AssessmentScope>, aid: Id): set<Id>
    requires Resolvable(c, scopes, aid)
  {
    set x | x in c.rows && Covered(c, scopes, aid, x)
  }

  /** The ids of the controls in scope, before they are put in the table's order. */
  function ScopedSet(c: Catalog, scopes: seq<AssessmentScope>, aid: Id, version: Id): set<Id>
    requires Resolvable(c, scopes, aid)
  {
    if !HasScopes(scopes, aid) then ActiveOfVersion(c, version)
    else ActiveAmong(c, CoveredIds(c, scopes, aid))
  }

  /** The ids of `order` that belong to `keep`, in order: `filter(id__in=keep)` on an ordered table. */
  function KeepIn(order: seq<Id>, keep: set<Id>): (r: seq<Id>)
    ensures forall x :: x in r <==> x in order && x in keep
    ensures |r| <= |order|
  {
    if order == [] then []
    else KeepIn(order[..|order| - 1], keep) + if order[|order| - 1] in keep then [order[|order| - 1]] else []
  }

  /** Keeping from one more id of `order` keeps it at the end exactly when it belongs to `keep`. */
  lemma KeepInPrefix(order: seq<Id>, i: nat, keep: set<Id>)
    requires i < |order|
    ensures KeepIn(order[..i + 1], keep) == KeepIn(order[..i], keep) + if order[i] in keep then [order[i]] else []
  {
    assert order[..i + 1][..i] == order[..i];
  }

  lemma {:induction false} KeepInDistinct(order: seq<Id>, keep: set<Id>)
    requires Distinct(order)
    ensures Distinct(KeepIn(order, keep))
  {
    if order != [] {
      var init := order[..|order| - 1];
      assert Distinct(init);
      KeepInDistinct(init, keep);
      assert order[|order| - 1] !in init;
    }
  }

  /** The queryset `get_scoped_controls` returns, in the control table's order. */
  function ScopedControls(c: Catalog, scopes: seq<AssessmentScope>, aid: Id, version: Id): seq<Id>
    requires Resolvable(c, scopes, aid)
  {
    KeepIn(c.order, ScopedSet(c, scopes, aid, version))
  }

  /**
   * The two resolution rules.  Without scope rows: exactly the active
   * nodes of the assessment's version.  With scope rows: exactly the
   * active nodes that a scope row names, or that lie below a scope row
   * with include_children, whatever their version.  Each control appears
   * once.
   */
  lemma ScopedControlsRule(c: Catalog, scopes: seq<AssessmentScope>, aid: Id, version: Id, x: Id)
    requires Resolvable(c, scopes, aid)
    ensures Distinct(ScopedControls(c, scopes, aid, version))
    ensures !HasScopes(scopes, aid) ==>
              (x in ScopedControls(c, scopes, aid, version) <==>
                 x in c.rows && c.rows[x].data.version == version && c.rows[x].data.status == Active)
    ensures HasScopes(scopes, aid) ==>
              (x in ScopedControls(c, scopes, aid, version) <==>
                 x in c.rows && c.rows[x].data.status == Active &&
                 exists s :: s in scopes && s.assessment == aid &&
                   (x == s.control || (s.includeChildren && s.control in Ancestors(c, x))))
  {
    KeepInDistinct(c.order, ScopedSet(c, scopes, aid, version));
    if HasScopes(scopes, aid) && x in c.rows {
      forall s | s in scopes && s.assessment == aid && s.includeChildren
        ensures x in Descendants(c, s.control) <==> s.control in Ancestors(c, x)
      {
        DescendantsAreBelow(c, s.control, x);
      }
    }
  }

  /** A scope row that is itself a non-active node brings only its active descendants. */
  lemma InactiveScopedNodeDropped(c: Catalog, scopes: seq<AssessmentScope>, aid: Id, version: Id, x: Id)
    requires Resolvable(c, scopes, aid)
    requires x in c.rows && c.rows[x].data.status != Active
    ensures x !in ScopedControls(c, scopes, aid, version)
  {
  }

  /** `ControlNode.objects.filter(standard_version=version, status='active')`, in table order. */
  method SelectActiveOfVersion(c: Catalog, version: Id) returns (controls: seq<Id>)
    requires Closed(c)
    ensures controls == KeepIn(c.order, ActiveOfVersion(c, version))
  {
    controls := [];
    for i := 0 to |c.order|
      invariant controls == KeepIn(c.order[..i], ActiveOfVersion(c, version))
    {
      var x := c.order[i];
      assert x in c.order;
      KeepInPrefix(c.order, i, ActiveOfVersion(c, version));
      assert x in ActiveOfVersion(c, version) <==> c.rows[x].data.version == version && c.rows[x].data.status == Active;
      if c.rows[x].data.version == version && c.rows[x].data.status == Active {
        controls := controls + [x];
      }
    }
    assert c.order[..|c.order|] == c.order;
  }

  /** `ControlNode.objects.filter(id__in=ids, status='active')`, in table order. */
  method SelectActiveAmong(c: Catalog, ids: set<Id>) returns (controls: seq<Id>)
    requires Closed(c)
    ensures controls == KeepIn(c.order, ActiveAmong(c, ids))
  {
    controls := [];
    for i := 0 to |c.order|
      invariant controls == KeepIn(c.order[..i], ActiveAmong(c, ids))
    {
      var x := c.order[i];
      assert x in c.order;
      KeepInPrefix(c.order, i, ActiveAmong(c, ids));
      assert x in ActiveAmong(c, ids) <==> x in ids && c.rows[x].data.status == Active;
      if x in ids && c.rows[x].data.status == Active {
        controls := controls + [x];
      }
    }
    assert c.order[..|c.order|] == c.order;
  }

  /** The loop over the assessment's scope rows that fills the `control_ids` set. */
  method CollectScopedIds(c: Catalog, scopes: seq<AssessmentScope>, aid: Id) returns (controlIds: set<Id>)
    requires Resolvable(c, scopes, aid)
    ensures controlIds == CoveredIds(c, scopes, aid)
  {
    controlIds := {};
    for k := 0 to |scopes|
      invariant Resolvable(c, scopes[..k], aid)
      invariant controlIds == CoveredIds(c, scopes[..k], aid)
    {
      var s := scopes[k];
      assert scopes[..k + 1] == scopes[..k] + [s];
      ResolvableSub(c, scopes[..k + 1], scopes, aid);
      if s.assessment == aid {
        controlIds := controlIds + {s.control};
        if s.includeChildren {
          var ds := GetDescendants(c, s.control);
          forall d | d in ds
            ensures d in c.rows
          {
            BelowIfDescendant(c, s.control, d);
          }
          controlIds := controlIds + set d | d in ds;
        }
      }
      CoveredIdsSnoc(c, scopes[..k], s, aid);
    }
    assert scopes[..|scopes|] == scopes;
  }

  /** One more scope row adds its node and, with include_children, the node's subtree. */
  lemma CoveredIdsSnoc(c: Catalog, ss: seq<AssessmentScope>, s: AssessmentScope, aid: Id)
    requires Resolvable(c, ss, aid) && Resolvable(c, ss + [s], aid)
    ensures ScopesValid(c, ss + [s])
    ensures s.assessment != aid ==> CoveredIds(c, ss + [s], aid) == CoveredIds(c, ss, aid)
    ensures s.assessment == aid && !s.includeChildren ==>
              CoveredIds(c, ss + [s], aid) == CoveredIds(c, ss, aid) + {s.control}
    ensures s.assessment == aid && s.includeChildren ==>
              CoveredIds(c, ss + [s], aid) == CoveredIds(c, ss, aid) + {s.control} + set d | d in Descendants(c, s.control)
  {
    CoveredSnoc(c, ss, s, aid, s.control);
    var before, after := CoveredIds(c, ss, aid), CoveredIds(c, ss + [s], aid);
    if s.assessment != aid {
      forall x | x in c.rows
        ensures x in after <==> x in before
      {
        CoveredSnoc(c, ss, s, aid, x);
      }
    } else if !s.includeChildren {
      forall x | x in c.rows
        ensures x in after <==> x in before || x == s.control
      {
        CoveredSnoc(c, ss, s, aid, x);
      }
    } else {
      CoveredIdsSnocSubtree(c, ss, s, aid);
    }
  }

  /** The include_children case of CoveredIdsSnoc: the row adds its node and the node's subtree. */
  lemma CoveredIdsSnocSubtree(c: Catalog, ss: seq<AssessmentScope>, s: AssessmentScope, aid: Id)
    requires Resolvable(c, ss, aid) && Resolvable(c, ss + [s], aid)
    requires s.assessment == aid && s.includeChildren
    ensures ScopesValid(c, ss + [s])
    ensures CoveredIds(c, ss + [s], aid) == CoveredIds(c, ss, aid) + {s.control} + set d | d in Descendants(c, s.control)
  {
    CoveredSnoc(c, ss, s, aid, s.control);
    var before, after := CoveredIds(c, ss, aid), CoveredIds(c, ss + [s], aid);
    var below := set d | d in Descendants(c, s.control);
    forall x
      ensures x in after <==> x in before || x == s.control || x in below
    {
      if x in below {
        BelowIfDescendant(c, s.control, x);
      }
      if x in c.rows {
        CoveredSnoc(c, ss, s, aid, x);
      }
    }
  }

  /** A node is covered by one more scope row iff the earlier rows cover it or that row does. */
  lemma CoveredSnoc(c: Catalog, ss: seq<AssessmentScope>, s: AssessmentScope, aid: Id, x: Id)
    requires Resolvable(c, ss, aid) && Resolvable(c, ss + [s], aid)
    ensures ScopesValid(c, ss + [s])
    ensures Covered(c, ss + [s], aid, x) <==>
              Covered(c, ss, aid, x) || (s.assessment == aid && (x == s.control || (s.includeChildren && x in Descendants(c, s.control))))
  {
    if Covered(c, ss + [s], aid, x) {
      var t :| t in ss + [s] && t.assessment == aid && (x == t.control || (t.includeChildren && x in Descendants(c, t.control)));
      if t != s {
        assert t in ss;
      }
    }
    if Covered(c, ss, aid, x) {
      var t :| t in ss && t.assessment == aid && (x == t.control || (t.includeChildren && x in Descendants(c, t.control)));
      assert t in ss + [s];
    }
    assert s in ss + [s];
  }

  /**
   * `get_scoped_controls(assessment)`: without scope rows, the active
   * nodes of the version; otherwise the active nodes among the collected
   * ids.
   */
  method GetScopedControls(c: Catalog, scopes: seq<AssessmentScope>, aid: Id, version: Id) returns (controls: seq<Id>)
    requires Resolvable(c, scopes, aid)
    ensures controls == ScopedControls(c, scopes, aid, version)
  {
    if !exists s :: s in scopes && s.assessment == aid {
      controls := SelectActiveOfVersion(c, version);
    } else {
      var controlIds := CollectScopedIds(c, scopes, aid);
      controls := SelectActiveAmong(c, controlIds);
    }
  }

  /** The mappings of `control` that the materialiser reads: the active ones, in table order. */
  function ActiveMappingsOf(mappings: seq<ControlQuestionMap>, control: Id): (r: seq<ControlQuestionMap>)
    ensures forall m :: m in r <==> m in mappings && m.control == control && m.isActive
  {
    if mappings == [] then []
    else
      var m := mappings[|mappings| - 1];
      ActiveMappingsOf(mappings[..|mappings| - 1], control) + if m.control == control && m.isActive then [m] else []
  }

  /**
   * The snapshot row written for bank question `q` reached through mapping
   * `m` from scoped control `control`.
   */
  function Snapshot(tenant: Id, aid: Id, control: Id, m: ControlQuestionMap, q: Question): (row: AssessmentQuestion)
    ensures row.tenant == tenant && row.assessment == aid && row.control == control
    ensures row.sourceQuestion == Some(m.question)
    ensures row.code == q.code && row.text == q.text
    ensures row.questionType == q.questionType && row.scaleType == q.scaleType
    ensures row.guidance == q.guidance && row.pptdfCode == q.pptdfCode
    ensures Truthy(q.erlRefs) ==> row.erlRefs == q.erlRefs
    ensures !Truthy(q.erlRefs) ==> row.erlRefs == JArray([])
    ensures Truthy(q.evidenceTags) ==> row.evidenceTags == q.evidenceTags
    ensures !Truthy(q.evidenceTags) ==> row.evidenceTags == JArray([])
    ensures row.displayOrder == m.displayOrder && row.isMandatory == m.isMandatory
  {
    AssessmentQuestion(
      tenant, aid, Some(m.question), control,
      q.code, q.text, q.questionType, q.scaleType,
      q.guidance, q.pptdfCode,
      OrEmptyList(q.erlRefs), OrEmptyList(q.evidenceTags),
      m.displayOrder, m.isMandatory)
  }

  predicate QuestionsKnown(mappings: seq<ControlQuestionMap>, bank: map<Id, Question>)
  {
    forall m :: m in mappings ==> m.question in bank
  }

  /** One snapshot per mapping in `ms`, for the scoped control `control`. */
  function SnapshotsOfControl(tenant: Id, aid: Id, control: Id, ms: seq<ControlQuestionMap>, bank: map<Id, Question>)
    : (rows: seq<AssessmentQuestion>)
    requires QuestionsKnown(ms, bank)
    ensures |rows| == |ms|
  {
    seq(|ms|, i requires 0 <= i < |ms| => Snapshot(tenant, aid, control, ms[i], bank[ms[i].question]))
  }

  /** The rows materialising the scoped `controls` appends, control by control. */
  function Snapshots(tenant: Id, aid: Id, controls: seq<Id>, mappings: seq<ControlQuestionMap>, bank: map<Id, Question>)
    : seq<AssessmentQuestion>
    requires QuestionsKnown(mappings, bank)
  {
    if controls == [] then []
    else
      var last := controls[|controls| - 1];
      Snapshots(tenant, aid, controls[..|controls| - 1], mappings, bank) +
        SnapshotsOfControl(tenant, aid, last, ActiveMappingsOf(mappings, last), bank)
  }

  /** The number of (control, active mapping) pairs over `controls`. */
  function MappingTotal(controls: seq<Id>, mappings: seq<ControlQuestionMap>): nat
  {
    if controls == [] then 0
    else MappingTotal(controls[..|controls| - 1], mappings) + |ActiveMappingsOf(mappings, controls[|controls| - 1])|
  }

  /** The number of `controls` with at least one active mapping. */
  function CoveredCount(controls: seq<Id>, mappings: seq<ControlQuestionMap>): nat
  {
    if controls == [] then 0
    else
      var covered := if ActiveMappingsOf(mappings, controls[|controls| - 1]) != [] then 1 else 0;
      CoveredCount(controls[..|controls| - 1], mappings) + covered
  }

  datatype Stats = Stats(questionsCreated: nat, controlsInScope: nat, controlsWithQuestions: nat, status: string)

  /** The statistics `materialize_assessment_questions` reports for the scoped `controls`. */
  function MaterializeStats(controls: seq<Id>, mappings: seq<ControlQuestionMap>): Stats
  {
    Stats(MappingTotal(controls, mappings), |controls|, CoveredCount(controls, mappings), "success")
  }

  /** One row is written per (control, active mapping) pair: the created count is the number of rows. */
  lemma {:induction false} SnapshotsCount(tenant: Id, aid: Id, controls: seq<Id>, mappings: seq<ControlQuestionMap>,
                                          bank: map<Id, Question>)
    requires QuestionsKnown(mappings, bank)
    ensures |Snapshots(tenant, aid, controls, mappings, bank)| == MappingTotal(controls, mappings)
    ensures MaterializeStats(controls, mappings).questionsCreated == |Snapshots(tenant, aid, controls, mappings, bank)|
  {
    if controls != [] {
      SnapshotsCount(tenant, aid, controls[..|controls| - 1], mappings, bank);
    }
  }

  /** Controls with questions are among the controls in scope, and each contributes at least one question. */
  lemma {:induction false} CoveredBounds(controls: seq<Id>, mappings: seq<ControlQuestionMap>)
    ensures CoveredCount(controls, mappings) <= |controls|
    ensures CoveredCount(controls, mappings) <= MappingTotal(controls, mappings)
    ensures MappingTotal(controls, mappings) == 0 <==> CoveredCount(controls, mappings) == 0
  {
    if controls != [] {
      CoveredBounds(controls[..|controls| - 1], mappings);
    }
  }

  /**
   * Every materialised row belongs to the assessment and is the snapshot
   * of an active mapping of one of the scoped controls.
   */
  lemma {:induction false} SnapshotsProvenance(tenant: Id, aid: Id, controls: seq<Id>, mappings: seq<ControlQuestionMap>,
                                               bank: map<Id, Question>, row: AssessmentQuestion)
    requires QuestionsKnown(mappings, bank)
    requires row in Snapshots(tenant, aid, controls, mappings, bank)
    ensures row.assessment == aid && row.tenant == tenant
    ensures exists i, m :: 0 <= i < |controls| && m in mappings && m.control == controls[i] && m.isActive &&
              row == Snapshot(tenant, aid, controls[i], m, bank[m.question])
  {
    var init := controls[..|controls| - 1];
    var last := controls[|controls| - 1];
    var ms := ActiveMappingsOf(mappings, last);
    if row in Snapshots(tenant, aid, init, mappings, bank) {
      SnapshotsProvenance(tenant, aid, init, mappings, bank, row);
      var i, m :| 0 <= i < |init| && m in mappings && m.control == init[i] && m.isActive &&
                  row == Snapshot(tenant, aid, init[i], m, bank[m.question]);
      assert controls[i] == init[i];
    } else {
      var rows := SnapshotsOfControl(tenant, aid, last, ms, bank);
      assert row in rows;
      var j :| 0 <= j < |rows| && rows[j] == row;
      assert ms[j] in ms;
      assert controls[|controls| - 1] == last;
    }
  }

  /** The assessment_question table. */
  class AssessmentQuestionTable {
    var rows: seq<AssessmentQuestion>

    constructor()
      ensures rows == []
    {
      rows := [];
    }
  }

  /** The inner loop of the materialiser: one snapshot per mapping of `control`, in order. */
  method WriteSnapshots(table: AssessmentQuestionTable, tenant: Id, aid: Id, control: Id,
                        maps: seq<ControlQuestionMap>, bank: map<Id, Question>)
    requires QuestionsKnown(maps, bank)
    modifies table
    ensures table.rows == old(table.rows) + SnapshotsOfControl(tenant, aid, control, maps, bank)
  {
    for j := 0 to |maps|
      invariant table.rows == old(table.rows) + SnapshotsOfControl(tenant, aid, control, maps[..j], bank)
    {
      var m := maps[j];
      assert m in maps;
      table.rows := table.rows + [Snapshot(tenant, aid, control, m, bank[m.question])];
      assert SnapshotsOfControl(tenant, aid, control, maps[..j + 1], bank) ==
             SnapshotsOfControl(tenant, aid, control, maps[..j], bank) + [Snapshot(tenant, aid, control, m, bank[m.question])];
    }
    assert maps[..|maps|] == maps;
  }

  /** Extending the scoped controls by one control extends the rows and both counts by that control's share. */
  lemma PrefixStep(tenant: Id, aid: Id, controls: seq<Id>, i: nat, mappings: seq<ControlQuestionMap>, bank: map<Id, Question>)
    requires i < |controls| && QuestionsKnown(mappings, bank)
    ensures var maps := ActiveMappingsOf(mappings, controls[i]);
            && Snapshots(tenant, aid, controls[..i + 1], mappings, bank) ==
                 Snapshots(tenant, aid, controls[..i], mappings, bank) + SnapshotsOfControl(tenant, aid, controls[i], maps, bank)
            && MappingTotal(controls[..i + 1], mappings) == MappingTotal(controls[..i], mappings) + |maps|
            && CoveredCount(controls[..i + 1], mappings) == CoveredCount(controls[..i], mappings) + (if maps != [] then 1 else 0)
  {
    assert controls[..i + 1][..i] == controls[..i];
  }

  /** The loop over the scoped controls, counting the rows written and the controls that have mappings. */
  method WriteAllSnapshots(table: AssessmentQuestionTable, tenant: Id, aid: Id, controls: seq<Id>,
                           mappings: seq<ControlQuestionMap>, bank: map<Id, Question>)
    returns (created: nat, covered: nat)
    requires QuestionsKnown(mappings, bank)
    modifies table
    ensures table.rows == old(table.rows) + Snapshots(tenant, aid, controls, mappings, bank)
    ensures created == MappingTotal(controls, mappings) && covered == CoveredCount(controls, mappings)
  {
    created, covered := 0, 0;
    for i := 0 to |controls|
      invariant table.rows == old(table.rows) + Snapshots(tenant, aid, controls[..i], mappings, bank)
      invariant created == MappingTotal(controls[..i], mappings)
      invariant covered == CoveredCount(controls[..i], mappings)
    {
      var control := controls[i];
      PrefixStep(tenant, aid, controls, i, mappings, bank);
      var maps := ActiveMappingsOf(mappings, control);
      if |maps| > 0 {
        covered := covered + 1;
      }
      ghost var done := Snapshots(tenant, aid, controls[..i], mappings, bank);
      ghost var added := SnapshotsOfControl(tenant, aid, control, maps, bank);
      WriteSnapshots(table, tenant, aid, control, maps, bank);
      AppendAssoc(old(table.rows), done, added);
      created := created + |maps|;
    }
    assert controls[..|controls|] == controls;
  }

  /**
   * `materialize_assessment_questions(assessment)`: for every scoped
   * control, for every active mapping of it, append a snapshot; existing
   * rows are neither read nor removed.
   */
  method Materialize(table: AssessmentQuestionTable, c: Catalog, scopes: seq<AssessmentScope>, a: Assessment, aid: Id,
                     mappings: seq<ControlQuestionMap>, bank: map<Id, Question>)
    returns (stats: Stats)
    requires Resolvable(c, scopes, aid) && QuestionsKnown(mappings, bank)
    modifies table
    ensures var controls := ScopedControls(c, scopes, aid, a.standardVersion);
            table.rows == old(table.rows) + Snapshots(a.tenant, aid, controls, mappings, bank) &&
            stats == MaterializeStats(controls, mappings)
  {
    var controls := GetScopedControls(c, scopes, aid, a.standardVersion);
    var created, covered := WriteAllSnapshots(table, a.tenant, aid, controls, mappings, bank);
    stats := Stats(created, |controls|, covered, "success");
  }

  /** The rows of assessment `aid`, in table order. */
  function RowsOf(rows: seq<AssessmentQuestion>, aid: Id): seq<AssessmentQuestion>
  {
    if rows == [] then []
    else
      var last := rows[|rows| - 1];
      RowsOf(rows[..|rows| - 1], aid) + if last.assessment == aid then [last] else []
  }

  /** The rows of every other assessment, in table order. */
  function OtherRows(rows: seq<AssessmentQuestion>, aid: Id): (r: seq<AssessmentQuestion>)
    ensures forall x :: x in r <==> x in rows && x.assessment != aid
  {
    if rows == [] then []
    else
      var last := rows[|rows| - 1];
      OtherRows(rows[..|rows| - 1], aid) + if last.assessment != aid then [last] else []
  }

  /** Selecting an assessment's rows distributes over appending rows. */
  lemma {:induction false} RowsOfAppend(xs: seq<AssessmentQuestion>, ys: seq<AssessmentQuestion>, aid: Id)
    ensures RowsOf(xs + ys, aid) == RowsOf(xs, aid) + RowsOf(ys, aid)
    decreases |ys|
  {
    if ys == [] {
      assert xs + ys == xs;
    } else {
      var init := ys[..|ys| - 1];
      RowsOfAppend(xs, init, aid);
      assert (xs + ys)[..|xs + ys| - 1] == xs + init;
    }
  }

  lemma {:induction false} RowsOfNone(rows: seq<AssessmentQuestion>, aid: Id)
    requires forall i :: 0 <= i < |rows| ==> rows[i].assessment != aid
    ensures RowsOf(rows, aid) == []
  {
    if rows != [] {
      RowsOfNone(rows[..|rows| - 1], aid);
    }
  }

  lemma {:induction false} RowsOfAll(rows: seq<AssessmentQuestion>, aid: Id)
    requires forall i :: 0 <= i < |rows| ==> rows[i].assessment == aid
    ensures RowsOf(rows, aid) == rows
  {
    if rows != [] {
      RowsOfAll(rows[..|rows| - 1], aid);
      assert rows[..|rows| - 1] + [rows[|rows| - 1]] == rows;
    }
  }

  /**
   * `rematerialize_assessment_questions(assessment)`: count and delete the
   * assessment's rows, then materialise afresh.  Afterwards the
   * assessment's rows are exactly the renewed snapshots, the other
   * assessments' rows are untouched, and the statistics are those of a
   * renewed materialisation.
   */
  method Rematerialize(table: AssessmentQuestionTable, c: Catalog, scopes: seq<AssessmentScope>, a: Assessment, aid: Id,
                       mappings: seq<ControlQuestionMap>, bank: map<Id, Question>)
    returns (stats: Stats, deleted: nat)
    requires Resolvable(c, scopes, aid) && QuestionsKnown(mappings, bank)
    modifies table
    ensures deleted == |RowsOf(old(table.rows), aid)|
    ensures var controls := ScopedControls(c, scopes, aid, a.standardVersion);
            var renewed := Snapshots(a.tenant, aid, controls, mappings, bank);
            && table.rows == OtherRows(old(table.rows), aid) + renewed
            && RowsOf(table.rows, aid) == renewed
            && stats == MaterializeStats(controls, mappings)
  {
    deleted := |RowsOf(table.rows, aid)|;
    table.rows := OtherRows(table.rows, aid);
    ghost var kept := table.rows;
    stats := Materialize(table, c, scopes, a, aid, mappings, bank);
    ghost var renewed := Snapshots(a.tenant, aid, ScopedControls(c, scopes, aid, a.standardVersion), mappings, bank);
    forall i | 0 <= i < |renewed|
      ensures renewed[i].assessment == aid
    {
      SnapshotsProvenance(a.tenant, aid, ScopedControls(c, scopes, aid, a.standardVersion), mappings, bank, renewed[i]);
    }
    forall i | 0 <= i < |kept|
      ensures kept[i].assessment != aid
    {
      assert kept[i] in kept;
    }
    RowsOfAppend(kept, renewed, aid);
    RowsOfNone(kept, aid);
    RowsOfAll(renewed, aid);
  }

  /**
   * `get_scoped_controls` as written: the descendants of a scope row with
   * include_children come back as a plain list, on which `.values_list`
   * raises, so resolution fails as soon as the assessment has such a row.
   */
  function ScopedControlsAsWritten(c: Catalog, scopes: seq<AssessmentScope>, aid: Id, version: Id): Result<set<Id>, string>
    requires Resolvable(c, scopes, aid)
  {
    if !HasScopes(scopes, aid) then Ok(ScopedSet(c, scopes, aid, version))
    else if exists s :: s in scopes && s.assessment == aid && s.includeChildren then
      Err("AttributeError: 'list' object has no attribute 'values_list'")
    else Ok(set x | x in c.rows && IsActiveNode(c, x) && exists s :: s in scopes && s.assessment == aid && s.control == x)
  }

  /**
   * A scope row added with the default include_children makes resolution
   * as written fail, where the intended rule puts the scoped control (when
   * active) in scope.
   */
  lemma DefaultScopeRowBreaksResolution(c: Catalog, tenant: Id, aid: Id, version: Id, x: Id)
    requires Acyclic(c) && x in c.rows && c.rows[x].data.status == Active
    ensures AddScope([], tenant, aid, x, None).Ok?
    ensures var scopes := AddScope([], tenant, aid, x, None).value;
            ScopesValid(c, scopes) && ScopedControlsAsWritten(c, scopes, aid, version).Err? &&
            x in ScopedControls(c, scopes, aid, version)
  {
    var scopes := AddScope([], tenant, aid, x, None).value;
    assert scopes[0] in scopes;
    ScopedControlsRule(c, scopes, aid, version, x);
  }

  /**
   * `materialize_assessment_questions` as written: the mapping query
   * filters on an `is_active` column that control_question_map does not
   * have, so the first scoped control raises and the transaction writes
   * nothing; with no scoped control it reports zeros.
   */
  function MaterializeAsWritten(controls: seq<Id>): Result<Stats, string>
  {
    if controls == [] then Ok(Stats(0, 0, 0, "success"))
    else Err("FieldError: Cannot resolve keyword 'is_active' into field")
  }

  /**
   * As written, materialising any assessment with a control in scope
   * fails, where the intended materialiser creates one row per active
   * mapping of the scoped controls.
   */
  lemma MaterializeAsWrittenFails(c: Catalog, scopes: seq<AssessmentScope>, aid: Id, version: Id,
                                  mappings: seq<ControlQuestionMap>)
    requires Resolvable(c, scopes, aid)
    requires ScopedControls(c, scopes, aid, version) != []
    ensures MaterializeAsWritten(ScopedControls(c, scopes, aid, version)).Err?
    ensures MaterializeStats(ScopedControls(c, scopes, aid, version), mappings).controlsInScope > 0
  {
  }
}

=== FILE: question_bank_models.dfy ===
/**
 * The reusable question library: questions, their answer options, the
 * mapping of questions to controls, and the helpers that fill in the
 * standard Likert and yes/no option sets.
 */
module QuestionBankModels {
  import opened Common

  datatype QuestionType = SingleChoice | MultipleChoice | TextAnswer | FileUpload

  datatype ScaleType = Likert15 | YesNo | TextScale | Numeric

  datatype Question = Question(
    tenant: Id,
    code: string,
    text: string,
    questionType: QuestionType,
    guidance: string,
    scaleType: ScaleType,
    metadata: Json,
    pptdfCode: string,
    erlRefs: Json,
    evidenceTags: Json,
    isActive: bool)

  datatype BankOption = BankOption(
    question: Id,
    value: string,
    text: string,
    scoreWeight: real,
    description: string,
    displayOrder: int)

  /**
   * A row of control_question_map.  Besides its own columns it carries the
   * is_active, display_order and is_mandatory values that the question
   * materialiser reads from a mapping.
   */
  datatype ControlQuestionMap = ControlQuestionMap(
    tenant: Id,
    control: Id,
    question: Id,
    rationale: string,
    criticalityOverride: Option<real>,
    isActive: bool,
    displayOrder: int,
    isMandatory: bool)

  /** The unique key (tenant, control_node, question_bank) of a mapping. */
  function MapKey(m: ControlQuestionMap): (Id, Id, Id)
  {
    (m.tenant, m.control, m.question)
  }

  /** One entry of an option table: value, display text, score weight, description. */
  datatype OptionSpec = OptionSpec(value: string, text: string, score: real, description: string)

  const LikertScale: seq<OptionSpec> := [
    OptionSpec("1", "Not Implemented", 1.0, "No implementation or evidence of this control"),
    OptionSpec("2", "Ad-Hoc", 2.0, "Informal implementation without documentation"),
    OptionSpec("3", "Defined", 3.0, "Documented and defined processes"),
    OptionSpec("4", "Managed", 4.0, "Monitored and measured processes"),
    OptionSpec("5", "Optimized", 5.0, "Continuously improving processes")
  ]

  const YesNoScale: seq<OptionSpec> := [
    OptionSpec("yes", "Yes", 5.0, "Fully implemented"),
    OptionSpec("no", "No", 1.0, "Not implemented")
  ]

  /** The option rows an option table produces for question `q`, display_order being the index. */
  function OptionRows(q: Id, specs: seq<OptionSpec>): seq<BankOption>
  {
    seq(|specs|, i requires 0 <= i < |specs| =>
      BankOption(q, specs[i].value, specs[i].text, specs[i].score, specs[i].description, i))
  }

  /**
   * The Likert set: five options valued "1".."5" whose score weight is
   * their numeric value, in strictly increasing display order 0..4.
   */
  lemma LikertOptionsShape(q: Id)
    ensures |OptionRows(q, LikertScale)| == 5
    ensures forall i :: 0 <= i < 5 ==>
              var o := OptionRows(q, LikertScale)[i];
              o.question == q && o.value == NatToString(i + 1) &&
              o.scoreWeight == (i + 1) as real && o.displayOrder == i
    ensures forall i :: 0 <= i < 5 ==>
              var o := OptionRows(q, LikertScale)[i];
              IsDigits(o.value) && o.scoreWeight == DigitsValue(o.value) as real
  {
    var rows := OptionRows(q, LikertScale);
    forall i | 0 <= i < 5
      ensures rows[i].value == NatToString(i + 1)
    {
      assert NatToString(i + 1) == [DigitChar(i + 1)];
    }
    forall i | 0 <= i < 5
      ensures IsDigits(rows[i].value) && rows[i].scoreWeight == DigitsValue(rows[i].value) as real
    {
      NatToStringValue(i + 1);
    }
  }

  /** The yes/no set: "yes" weighing 5.0 at order 0, then "no" weighing 1.0 at order 1. */
  lemma YesNoOptionsShape(q: Id)
    ensures OptionRows(q, YesNoScale) == [
              BankOption(q, "yes", "Yes", 5.0, "Fully implemented", 0),
              BankOption(q, "no", "No", 1.0, "Not implemented", 1)]
  {
  }

  /** A question code names at most one question of a tenant. */
  predicate UniqueCodes(questions: map<Id, Question>)
  {
    forall a, b {:trigger CodeKey(questions[a]), CodeKey(questions[b])} ::
      a in questions && b in questions && CodeKey(questions[a]) == CodeKey(questions[b]) ==> a == b
  }

  /** The unique key (tenant, code) of a question. */
  function CodeKey(q: Question): (Id, string)
  {
    (q.tenant, q.code)
  }

  /** Some question of `tenant` already has `code`. */
  predicate CodeTaken(questions: map<Id, Question>, tenant: Id, code: string)
  {
    exists a :: a in questions && questions[a].tenant == tenant && questions[a].code == code
  }

  /** The options of question `q`, in table order. */
  function OptionsOf(options: seq<BankOption>, q: Id): seq<BankOption>
  {
    if options == [] then []
    else
      var last := options[|options| - 1];
      OptionsOf(options[..|options| - 1], q) + if last.question == q then [last] else []
  }

  /** The question, option and mapping tables of the library. */
  class QuestionBankDb {
    var questions: map<Id, Question>
    var options: seq<BankOption>
    var mappings: seq<ControlQuestionMap>

    /** The unique constraints of both tables, and every option belonging to a stored question. */
    ghost predicate Valid()
      reads this
    {
      && UniqueCodes(questions)
      && (forall o :: o in options ==> o.question in questions)
      && UniqueBy(mappings, MapKey)
    }

    constructor()
      ensures Valid()
      ensures questions == map[] && options == [] && mappings == []
    {
      questions := map[];
      options := [];
      mappings := [];
    }

    /** Inserts one option row per table entry, in table order. */
    method CreateOptions(q: Id, specs: seq<OptionSpec>)
      requires Valid() && q in questions
      modifies this
      ensures Valid()
      ensures options == old(options) + OptionRows(q, specs)
      ensures questions == old(questions) && mappings == old(mappings)
    {
      for idx := 0 to |specs|
        invariant options == old(options) + OptionRows(q, specs[..idx])
        invariant questions == old(questions) && mappings == old(mappings)
        invariant Valid()
      {
        var spec := specs[idx];
        options := options + [BankOption(q, spec.value, spec.text, spec.score, spec.description, idx)];
      }
    }

    /** `create_default_likert_options(question)`. */
    method CreateDefaultLikertOptions(q: Id)
      requires Valid() && q in questions
      modifies this
      ensures Valid()
      ensures options == old(options) + OptionRows(q, LikertScale)
      ensures questions == old(questions) && mappings == old(mappings)
    {
      CreateOptions(q, LikertScale);
    }

    /** `create_yes_no_options(question)`. */
    method CreateYesNoOptions(q: Id)
      requires Valid() && q in questions
      modifies this
      ensures Valid()
      ensures options == old(options) + OptionRows(q, YesNoScale)
      ensures questions == old(questions) && mappings == old(mappings)
    {
      CreateOptions(q, YesNoScale);
    }
  }

  /** The options of a question are exactly the option rows pointing to it. */
  lemma {:induction false} OptionsOfMembers(options: seq<BankOption>, q: Id)
    ensures forall o :: o in OptionsOf(options, q) <==> o in options && o.question == q
  {
    if options != [] {
      var init := options[..|options| - 1];
      OptionsOfMembers(init, q);
      assert options == init + [options[|options| - 1]];
    }
  }

  /** A question with no option rows gets exactly the rows appended for it. */
  lemma {:induction false} OptionsOfAppended(options: seq<BankOption>, added: seq<BankOption>, q: Id)
    requires forall i :: 0 <= i < |options| ==> options[i].question != q
    requires forall i :: 0 <= i < |added| ==> added[i].question == q
    ensures OptionsOf(options + added, q) == added
    decreases |added|
  {
    if added == [] {
      assert options + added == options;
      OptionsOfNone(options, q);
    } else {
      var init := added[..|added| - 1];
      OptionsOfAppended(options, init, q);
      assert (options + added)[..|options + added| - 1] == options + init;
      assert init + [added[|added| - 1]] == added;
    }
  }

  lemma {:induction false} OptionsOfNone(options: seq<BankOption>, q: Id)
    requires forall i :: 0 <= i < |options| ==> options[i].question != q
    ensures OptionsOf(options, q) == []
  {
    if options != [] {
      OptionsOfNone(options[..|options| - 1], q);
    }
  }

  /** Appending rows of other questions leaves a question's options unchanged. */
  lemma {:induction false} OptionsOfOthers(options: seq<BankOption>, added: seq<BankOption>, q: Id)
    requires forall i :: 0 <= i < |added| ==> added[i].question != q
    ensures OptionsOf(options + added, q) == OptionsOf(options, q)
    decreases |added|
  {
    if added == [] {
      assert options + added == options;
    } else {
      var init := added[..|added| - 1];
      OptionsOfOthers(options, init, q);
      assert (options + added)[..|options + added| - 1] == options + init;
    }
  }

  /** One materialised question: the assessment it belongs to and the bank question it came from. */
  datatype QuestionUse = QuestionUse(assessment: Id, sourceQuestion: Option<Id>)

  /** `get_assessment_usage_count()` as written: a constant. */
  function AssessmentUsageCountAsWritten(q: Id, uses: seq<QuestionUse>): nat
  {
    0
  }

  /** The number of assessments holding a question materialised from `q`. */
  function AssessmentUsageCount(q: Id, uses: seq<QuestionUse>): (n: nat)
    ensures n == 0 <==> forall u :: u in uses ==> u.sourceQuestion != Some(q)
  {
    var used := set u | u in uses && u.sourceQuestion == Some(q) :: u.assessment;
    assert forall u :: u in uses && u.sourceQuestion == Some(q) ==> u.assessment in used;
    |used|
  }

  /** The stub reports 0 for a question that an assessment uses. */
  lemma UsageCountStubMissesUse(q: Id, a: Id)
    ensures AssessmentUsageCountAsWritten(q, [QuestionUse(a, Some(q))]) == 0
    ensures AssessmentUsageCount(q, [QuestionUse(a, Some(q))]) == 1
  {
    var uses := [QuestionUse(a, Some(q))];
    assert (set u | u in uses && u.sourceQuestion == Some(q) :: u.assessment) == {a};
  }
}

=== FILE: question_bank_serializers.dfy ===
/**
 * Creating a bank question through the API: the question row is owned by
 * the requesting user's tenant and, unless the caller opts out, the option
 * set that matches its scale type is generated beside it.
 */
module QuestionBankSerializers {
  import opened Common
  import opened QuestionBankModels

  /**
   * The validated fields of a create request.  Fields the request may omit
   * are `None` and take the column's default.
   */
  datatype QuestionInput = QuestionInput(
    code: string,
    text: string,
    questionType: Option<QuestionType>,
    guidance: Option<string>,
    scaleType: Option<ScaleType>,
    metadata: Option<Json>,
    pptdfCode: Option<string>,
    erlRefs: Option<Json>,
    evidenceTags: Option<Json>)

  function OrElse<T>(o: Option<T>, d: T): T
  {
    if o.Some? then o.value else d
  }

  /** The row `QuestionBank.objects.create(tenant=tenant, **validated_data)` inserts. */
  function NewQuestion(tenant: Id, input: QuestionInput): (q: Question)
    ensures q.tenant == tenant && q.code == input.code && q.text == input.text
    ensures q.isActive
    ensures input.scaleType.None? ==> q.scaleType == Likert15
    ensures input.scaleType.Some? ==> q.scaleType == input.scaleType.value
    ensures input.questionType.None? ==> q.questionType == SingleChoice
    ensures input.guidance.None? ==> q.guidance == ""
    ensures input.pptdfCode.None? ==> q.pptdfCode == ""
    ensures input.metadata.None? ==> q.metadata == JObject(map[])
    ensures input.erlRefs.None? ==> q.erlRefs == JArray([])
    ensures input.evidenceTags.None? ==> q.evidenceTags == JArray([])
  {
    Question(
      tenant, input.code, input.text,
      OrElse(input.questionType, SingleChoice),
      OrElse(input.guidance, ""),
      OrElse(input.scaleType, Likert15),
      OrElse(input.metadata, JObject(map[])),
      OrElse(input.pptdfCode, ""),
      OrElse(input.erlRefs, JArray([])),
      OrElse(input.evidenceTags, JArray([])),
      true)
  }

  /** `auto_create_options`, true when the request leaves it out. */
  predicate AutoCreate(flag: Option<bool>)
  {
    flag.None? || flag.value
  }

  /** The option rows `create` generates for a new question `q` of scale `scale`. */
  function DefaultOptions(q: Id, scale: ScaleType, auto: bool): seq<BankOption>
  {
    if !auto then []
    else match scale
      case Likert15 => OptionRows(q, LikertScale)
      case YesNo => OptionRows(q, YesNoScale)
      case TextScale => []
      case Numeric => []
  }

  /**
   * What the generated options are: the five Likert options, the yes/no
   * pair, or nothing for text and numeric scales and whenever the caller
   * turned generation off.
   */
  lemma DefaultOptionsCases(q: Id, scale: ScaleType, flag: Option<bool>)
    ensures flag.None? && scale == Likert15 ==> |DefaultOptions(q, scale, AutoCreate(flag))| == 5
    ensures AutoCreate(flag) && scale == Likert15 ==>
              forall i :: 0 <= i < 5 ==>
                var o := DefaultOptions(q, scale, true)[i];
                o.question == q && o.value == NatToString(i + 1) &&
                o.scoreWeight == (i + 1) as real && o.displayOrder == i
    ensures AutoCreate(flag) && scale == YesNo ==>
              DefaultOptions(q, scale, true) == [
                BankOption(q, "yes", "Yes", 5.0, "Fully implemented", 0),
                BankOption(q, "no", "No", 1.0, "Not implemented", 1)]
    ensures (scale == TextScale || scale == Numeric || flag == Some(false)) ==>
              DefaultOptions(q, scale, AutoCreate(flag)) == []
    ensures forall o :: o in DefaultOptions(q, scale, AutoCreate(flag)) ==> o.question == q
  {
    LikertOptionsShape(q);
    YesNoOptionsShape(q);
  }

  /** The option step of `create`: the Likert or yes/no set when asked for, nothing for the other scales. */
  method GenerateOptions(db: QuestionBankDb, q: Id, scale: ScaleType, auto: bool)
    requires db.Valid() && q in db.questions
    modifies db
    ensures db.Valid()
    ensures db.options == old(db.options) + DefaultOptions(q, scale, auto)
    ensures db.questions == old(db.questions) && db.mappings == old(db.mappings)
  {
    if auto {
      if scale == Likert15 {
        db.CreateDefaultLikertOptions(q);
      } else if scale == YesNo {
        db.CreateYesNoOptions(q);
      } else {
        assert DefaultOptions(q, scale, auto) == [];
        assert db.options == db.options + [];
      }
    } else {
      assert db.options == db.options + [];
    }
  }

  /**
   * `QuestionBankCreateSerializer.create`: insert the question for the
   * user's tenant under the fresh key `newId`, then the default options.
   * A code the tenant already uses violates the (tenant, code) constraint
   * and nothing is written.
   */
  method Create(db: QuestionBankDb, userTenant: Id, input: QuestionInput, autoCreateOptions: Option<bool>, newId: Id)
    returns (r: Result<Id, Error>)
    requires db.Valid() && newId !in db.questions
    modifies db
    ensures db.Valid()
    ensures r.Err? <==> CodeTaken(old(db.questions), userTenant, input.code)
    ensures r.Err? ==> r.error.Conflict?
    ensures r.Err? ==> db.questions == old(db.questions) && db.options == old(db.options)
    ensures r.Ok? ==> r.value == newId
    ensures r.Ok? ==> db.questions == old(db.questions)[newId := NewQuestion(userTenant, input)]
    ensures r.Ok? ==>
              var added := DefaultOptions(newId, NewQuestion(userTenant, input).scaleType, AutoCreate(autoCreateOptions));
              db.options == old(db.options) + added && OptionsOf(db.options, newId) == added
    ensures r.Ok? ==> forall q :: q in old(db.questions) ==> OptionsOf(db.options, q) == OptionsOf(old(db.options), q)
    ensures db.mappings == old(db.mappings)
  {
    if exists a :: a in db.questions && db.questions[a].tenant == userTenant && db.questions[a].code == input.code {
      return Err(Conflict("duplicate key value violates unique constraint"));
    }
    var auto := if autoCreateOptions.Some? then autoCreateOptions.value else true;
    var question := NewQuestion(userTenant, input);
    db.questions := db.questions[newId := question];
    ghost var before := db.options;
    GenerateOptions(db, newId, question.scaleType, auto);
    ghost var added := DefaultOptions(newId, question.scaleType, auto);
    forall i | 0 <= i < |before|
      ensures before[i].question != newId
    {
      assert before[i] in old(db.options);
    }
    OptionsOfAppended(before, added, newId);
    forall q | q in old(db.questions)
      ensures OptionsOf(db.options, q) == OptionsOf(old(db.options), q)
    {
      OptionsOfOthers(before, added, q);
    }
    r := Ok(newId);
  }
}

=== FILE: question_bank_views.dfy ===
/**
 * The two question-bank actions that write more than one row: duplicating
 * a question together with its options, and mapping every listed question
 * to every listed control.
 */
module QuestionBankViews {
  import opened Common
  import opened QuestionBankModels

  /** The copy `duplicate` makes: a new code, is_active back at its default. */
  function CopyOf(orig: Question): (q: Question)
    ensures q.code == orig.code + "_copy"
    ensures q.tenant == orig.tenant && q.text == orig.text && q.questionType == orig.questionType
    ensures q.guidance == orig.guidance && q.scaleType == orig.scaleType && q.metadata == orig.metadata
    ensures q.pptdfCode == orig.pptdfCode && q.erlRefs == orig.erlRefs && q.evidenceTags == orig.evidenceTags
    ensures q.isActive
  {
    orig.(code := orig.code + "_copy", isActive := true)
  }

  /** The options of a question re-pointed at question `q`, every other column kept. */
  function Retarget(options: seq<BankOption>, q: Id): (r: seq<BankOption>)
    ensures |r| == |options|
    ensures forall i :: 0 <= i < |r| ==> r[i].question == q
  {
    seq(|options|, i requires 0 <= i < |options| => options[i].(question := q))
  }

  /** A copied option agrees with its original on every column but the question. */
  lemma RetargetCopiesColumns(options: seq<BankOption>, q: Id, i: nat)
    requires i < |options|
    ensures var c := Retarget(options, q)[i];
            c.value == options[i].value && c.text == options[i].text &&
            c.scoreWeight == options[i].scoreWeight && c.description == options[i].description &&
            c.displayOrder == options[i].displayOrder
  {
  }

  /**
   * `QuestionBankViewSet.duplicate` on question `orig`, inserting the copy
   * under the fresh key `newId`.  A question outside the user's tenant is
   * not found; a copy whose code the tenant already uses violates the
   * (tenant, code) constraint.
   */
  method Duplicate(db: QuestionBankDb, userTenant: Id, orig: Id, newId: Id) returns (r: Result<Id, Error>)
    requires db.Valid() && newId !in db.questions
    modifies db
    ensures db.Valid()
    ensures r.Err? ==> db.questions == old(db.questions) && db.options == old(db.options)
    ensures r == Err(NotFound("No QuestionBank matches the given query.")) <==>
              orig !in old(db.questions) || old(db.questions)[orig].tenant != userTenant
    ensures r.Err? && r.error.Conflict? <==>
              orig in old(db.questions) && old(db.questions)[orig].tenant == userTenant &&
              CodeTaken(old(db.questions), userTenant, old(db.questions)[orig].code + "_copy")
    ensures r.Ok? ==> r.value == newId && db.questions == old(db.questions)[newId := CopyOf(old(db.questions)[orig])]
    ensures r.Ok? ==>
              var copied := Retarget(OptionsOf(old(db.options), orig), newId);
              db.options == old(db.options) + copied && OptionsOf(db.options, newId) == copied
    ensures r.Ok? ==> OptionsOf(db.options, orig) == OptionsOf(old(db.options), orig)
    ensures db.mappings == old(db.mappings)
  {
    if orig !in db.questions || db.questions[orig].tenant != userTenant {
      return Err(NotFound("No QuestionBank matches the given query."));
    }
    var original := db.questions[orig];
    var copy := CopyOf(original);
    if exists a :: a in db.questions && db.questions[a].tenant == copy.tenant && db.questions[a].code == copy.code {
      return Err(Conflict("duplicate key value violates unique constraint"));
    }
    db.questions := db.questions[newId := copy];
    var source := OptionsOf(db.options, orig);
    ghost var before := db.options;
    forall i | 0 <= i < |before|
      ensures before[i].question != newId
    {
      assert before[i] in old(db.options);
    }
    CopyOptions(db, source, newId);
    ghost var copied := Retarget(source, newId);
    OptionsOfAppended(before, copied, newId);
    OptionsOfOthers(before, copied, orig);
    r := Ok(newId);
  }

  /** The loop of `duplicate` over the original's options: one re-pointed copy of each, in order. */
  method CopyOptions(db: QuestionBankDb, source: seq<BankOption>, newId: Id)
    requires db.Valid() && newId in db.questions
    modifies db
    ensures db.Valid()
    ensures db.options == old(db.options) + Retarget(source, newId)
    ensures db.questions == old(db.questions) && db.mappings == old(db.mappings)
  {
    for i := 0 to |source|
      invariant db.options == old(db.options) + Retarget(source[..i], newId)
      invariant db.questions == old(db.questions) && db.mappings == old(db.mappings)
      invariant db.Valid()
    {
      var option := source[i];
      db.options := db.options + [option.(question := newId)];
      assert Retarget(source[..i + 1], newId) == Retarget(source[..i], newId) + [option.(question := newId)];
    }
    assert source[..|source|] == source;
  }

  /** The mapping row `get_or_create` inserts; the columns it does not name take their defaults. */
  function NewMapping(tenant: Id, control: Id, question: Id): (m: ControlQuestionMap)
    ensures MapKey(m) == (tenant, control, question)
    ensures m.rationale == "" && m.criticalityOverride.None?
  {
    ControlQuestionMap(tenant, control, question, "", None, true, 0, true)
  }

  /** The tenant maps `question` to `control`. */
  predicate Mapped(mappings: seq<ControlQuestionMap>, tenant: Id, control: Id, question: Id)
  {
    exists m :: m in mappings && MapKey(m) == (tenant, control, question)
  }

  /** The (tenant, control, question) keys of the requested pairs that have no mapping yet. */
  function Missing(mappings: seq<ControlQuestionMap>, tenant: Id, controls: seq<Id>, questions: seq<Id>): set<(Id, Id, Id)>
  {
    set c, q | c in controls && q in questions && !Mapped(mappings, tenant, c, q) :: (tenant, c, q)
  }

  function Keys(ms: seq<ControlQuestionMap>): (ks: seq<(Id, Id, Id)>)
    ensures |ks| == |ms| && forall i :: 0 <= i < |ms| ==> ks[i] == MapKey(ms[i])
  {
    seq(|ms|, i requires 0 <= i < |ms| => MapKey(ms[i]))
  }

  /**
   * `ControlQuestionMapViewSet.bulk_create`: for each control id, for each
   * question id, get-or-create the tenant's mapping; `created` lists the
   * rows that were inserted, in insertion order.
   */
  method BulkCreate(db: QuestionBankDb, tenant: Id, controls: seq<Id>, questions: seq<Id>)
    returns (created: seq<ControlQuestionMap>)
    requires db.Valid()
    modifies db
    ensures db.Valid()
    ensures db.mappings == old(db.mappings) + created
    ensures db.questions == old(db.questions) && db.options == old(db.options)
    ensures forall c, q :: c in controls && q in questions ==> Mapped(db.mappings, tenant, c, q)
    ensures Missing(db.mappings, tenant, controls, questions) == {}
    ensures forall m :: m in created ==>
              m == NewMapping(tenant, m.control, m.question) && m.control in controls && m.question in questions &&
              !Mapped(old(db.mappings), tenant, m.control, m.question)
    ensures |created| == |Missing(old(db.mappings), tenant, controls, questions)|
    ensures |created| <= |controls| * |questions|
  {
    created := [];
    for i := 0 to |controls|
      invariant db.mappings == old(db.mappings) + created
      invariant db.questions == old(db.questions) && db.options == old(db.options)
      invariant db.Valid()
      invariant forall c, q :: c in controls[..i] && q in questions ==> Mapped(db.mappings, tenant, c, q)
      invariant forall m :: m in created ==>
                  m == NewMapping(tenant, m.control, m.question) && m.control in controls && m.question in questions &&
                  !Mapped(old(db.mappings), tenant, m.control, m.question)
      invariant |created| <= i * |questions|
    {
      ghost var before := db.mappings;
      var added := MapQuestions(db, tenant, controls[i], questions);
      forall c, q | Mapped(before, tenant, c, q)
        ensures Mapped(db.mappings, tenant, c, q)
      {
        MappedGrows(before, added, tenant, c, q);
      }
      forall m | m in added
        ensures !Mapped(old(db.mappings), tenant, m.control, m.question)
      {
        MappedGrows(old(db.mappings), created, tenant, m.control, m.question);
      }
      created := created + added;
      assert (i + 1) * |questions| == i * |questions| + |questions|;
      assert controls[..i + 1] == controls[..i] + [controls[i]];
    }
    assert controls[..|controls|] == controls;
    CreatedCountsMissing(old(db.mappings), created, tenant, controls, questions);
  }

  /**
   * The inner loop of `bulk_create`: get-or-create the tenant's mapping of
   * control `c` to each question id in turn.
   */
  method MapQuestions(db: QuestionBankDb, tenant: Id, c: Id, questions: seq<Id>)
    returns (added: seq<ControlQuestionMap>)
    requires db.Valid()
    modifies db
    ensures db.Valid()
    ensures db.mappings == old(db.mappings) + added
    ensures db.questions == old(db.questions) && db.options == old(db.options)
    ensures forall q :: q in questions ==> Mapped(db.mappings, tenant, c, q)
    ensures forall m :: m in added ==>
              m == NewMapping(tenant, c, m.question) && m.question in questions &&
              !Mapped(old(db.mappings), tenant, c, m.question)
    ensures |added| <= |questions|
  {
    added := [];
    for j := 0 to |questions|
      invariant db.mappings == old(db.mappings) + added
      invariant db.questions == old(db.questions) && db.options == old(db.options)
      invariant db.Valid()
      invariant forall q :: q in questions[..j] ==> Mapped(db.mappings, tenant, c, q)
      invariant forall m :: m in added ==>
                  m == NewMapping(tenant, c, m.question) && m.question in questions &&
                  !Mapped(old(db.mappings), tenant, c, m.question)
      invariant |added| <= j
    {
      var q := questions[j];
      ghost var before := db.mappings;
      if !exists m :: m in db.mappings && MapKey(m) == (tenant, c, q) {
        var row := NewMapping(tenant, c, q);
        AppendKeepsUnique(db.mappings, row);
        db.mappings := db.mappings + [row];
        added := added + [row];
        forall p | Mapped(before, tenant, c, p)
          ensures Mapped(db.mappings, tenant, c, p)
        {
          MappedGrows(before, [row], tenant, c, p);
        }
        assert row in db.mappings;
      }
      assert questions[..j + 1] == questions[..j] + [q];
    }
    assert questions[..|questions|] == questions;
  }

  /** Adding rows never unmaps a pair. */
  lemma MappedGrows(ms: seq<ControlQuestionMap>, extra: seq<ControlQuestionMap>, tenant: Id, c: Id, q: Id)
    ensures Mapped(ms, tenant, c, q) ==> Mapped(ms + extra, tenant, c, q)
  {
    if Mapped(ms, tenant, c, q) {
      var m :| m in ms && MapKey(m) == (tenant, c, q);
      assert m in ms + extra;
    }
  }

  /** Appending a row whose key is not yet present keeps the keys unique. */
  lemma AppendKeepsUnique(ms: seq<ControlQuestionMap>, row: ControlQuestionMap)
    requires UniqueBy(ms, MapKey)
    requires !exists m :: m in ms && MapKey(m) == MapKey(row)
    ensures UniqueBy(ms + [row], MapKey)
  {
    var s := ms + [row];
    forall i, j | 0 <= i < j < |s|
      ensures MapKey(s[i]) != MapKey(s[j])
    {
      if j == |ms| {
        assert s[i] in ms;
      }
    }
  }

  /**
   * The rows `bulk_create` inserts are exactly the missing pairs, one row
   * each, so their number is the number of pairs that had no mapping.
   */
  lemma CreatedCountsMissing(old_: seq<ControlQuestionMap>, created: seq<ControlQuestionMap>, tenant: Id,
                             controls: seq<Id>, questions: seq<Id>)
    requires UniqueBy(old_ + created, MapKey)
    requires forall c, q :: c in controls && q in questions ==> Mapped(old_ + created, tenant, c, q)
    requires forall m :: m in created ==>
               MapKey(m) == (tenant, m.control, m.question) && m.control in controls && m.question in questions &&
               !Mapped(old_, tenant, m.control, m.question)
    ensures |created| == |Missing(old_, tenant, controls, questions)|
  {
    var ks := Keys(created);
    var missing := Missing(old_, tenant, controls, questions);
    forall i, j | 0 <= i < j < |ks|
      ensures ks[i] != ks[j]
    {
      var s := old_ + created;
      assert s[|old_| + i] == created[i] && s[|old_| + j] == created[j];
    }
    forall k | k in ks
      ensures k in missing
    {
      var i :| 0 <= i < |ks| && ks[i] == k;
      assert created[i] in created;
    }
    forall k | k in missing
      ensures k in ks
    {
      var c, q :| c in controls && q in questions && !Mapped(old_, tenant, c, q) && k == (tenant, c, q);
      var m :| m in old_ + created && MapKey(m) == (tenant, c, q);
      assert m !in old_;
      var i :| 0 <= i < |created| && created[i] == m;
      assert ks[i] == k;
    }
    DistinctCountsSet(ks, missing);
  }

  /** Nothing is missing exactly when every requested pair is already mapped, so a repeated call inserts nothing. */
  lemma NothingMissingIffAllMapped(mappings: seq<ControlQuestionMap>, tenant: Id, controls: seq<Id>, questions: seq<Id>)
    ensures Missing(mappings, tenant, controls, questions) == {} <==>
              forall c, q :: c in controls && q in questions ==> Mapped(mappings, tenant, c, q)
  {
    if Missing(mappings, tenant, controls, questions) == {} {
      forall c, q | c in controls && q in questions
        ensures Mapped(mappings, tenant, c, q)
      {
        assert (tenant, c, q) !in Missing(mappings, tenant, controls, questions);
      }
    }
  }
}

=== FILE: reporting_models.dfy ===
/**
 * Reporting: a generated report and its pending → generating →
 * completed/failed status, dashboards and their widgets' cached data.
 */
module ReportingModels {
  import opened Common

  datatype ReportStatus = ReportPending | Generating | ReportCompleted | Failed
  {
    /** The value stored in the `status` column. */
    function Name(): string
    {
      match this
      case ReportPending => "pending"
      case Generating => "generating"
      case ReportCompleted => "completed"
      case Failed => "failed"
    }
  }

  datatype ReportFormat = Pdf | Excel | Csv | Html
  {
    /** The value stored in the `format` column. */
    function Name(): string
    {
      match this
      case Pdf => "pdf"
      case Excel => "excel"
      case Csv => "csv"
      case Html => "html"
    }
  }

  /** A row of the report table: its generation status and the file it produced. */
  class Report {
    var id: Id
    var tenant: Id
    var name: string
    var format: ReportFormat
    var status: ReportStatus
    var filePath: string
    var fileSize: Option<int>
    var generatedAt: Option<int>
    var errorMessage: string

    /** A new report: PENDING, with no file and no error. */
    constructor(id: Id, tenant: Id, name: string, format: ReportFormat)
      ensures this.id == id && this.tenant == tenant && this.name == name && this.format == format
      ensures status == ReportPending
      ensures filePath == "" && fileSize.None? && generatedAt.None? && errorMessage == ""
    {
      this.id := id;
      this.tenant := tenant;
      this.name := name;
      this.format := format;
      status := ReportPending;
      filePath := "";
      fileSize := None;
      generatedAt := None;
      errorMessage := "";
    }

    /** `mark_as_generating()`: from any status; only the status changes. */
    method MarkAsGenerating()
      modifies this
      ensures status == Generating
      ensures id == old(id) && tenant == old(tenant) && name == old(name) && format == old(format)
      ensures filePath == old(filePath) && fileSize == old(fileSize) && generatedAt == old(generatedAt)
      ensures errorMessage == old(errorMessage)
    {
      status := Generating;
    }

    /** `mark_as_completed(file_path, file_size)`: from any status; record the file and when it was made. */
    method MarkAsCompleted(path: string, size: int, now: int)
      modifies this
      ensures status == ReportCompleted && filePath == path && fileSize == Some(size) && generatedAt == Some(now)
      ensures id == old(id) && tenant == old(tenant) && name == old(name) && format == old(format)
      ensures errorMessage == old(errorMessage)
    {
      status := ReportCompleted;
      filePath := path;
      fileSize := Some(size);
      generatedAt := Some(now);
    }

    /** `mark_as_failed(error_message)`: from any status; record the error, keep the file columns. */
    method MarkAsFailed(message: string)
      modifies this
      ensures status == Failed && errorMessage == message
      ensures id == old(id) && tenant == old(tenant) && name == old(name) && format == old(format)
      ensures filePath == old(filePath) && fileSize == old(fileSize) && generatedAt == old(generatedAt)
    {
      status := Failed;
      errorMessage := message;
    }
  }

  /** A row of the dashboard table, reduced to what `set_default` reads and writes. */
  datatype Dashboard = Dashboard(tenant: Id, name: string, isDefault: bool)

  /** A dashboard widget's cache. */
  class DashboardWidget {
    var tenant: Id
    var cachedData: Option<Json>
    var lastCached: Option<int>

    constructor(tenant: Id)
      ensures this.tenant == tenant && cachedData.None? && lastCached.None?
    {
      this.tenant := tenant;
      cachedData := None;
      lastCached := None;
    }
  }
}

=== FILE: reporting_views.dfy ===
/**
 * The reporting actions: choosing a tenant's default dashboard, clearing a
 * widget's cache, generating a report and offering it for download.
 */
module ReportingViews {
  import opened Common
  import opened ReportingModels

  /** At most one dashboard of `tenant` is the default. */
  ghost predicate AtMostOneDefault(dashboards: map<Id, Dashboard>, tenant: Id)
  {
    forall a, b :: IsDefaultOf(dashboards, a, tenant) && IsDefaultOf(dashboards, b, tenant) ==> a == b
  }

  /** Dashboard `k` is a default dashboard of `tenant`. */
  predicate IsDefaultOf(dashboards: map<Id, Dashboard>, k: Id, tenant: Id)
  {
    k in dashboards && dashboards[k].tenant == tenant && dashboards[k].isDefault
  }

  /** The dashboard table. */
  class DashboardTable {
    var dashboards: map<Id, Dashboard>

    constructor()
      ensures dashboards == map[]
    {
      dashboards := map[];
    }

    /**
     * `DashboardViewSet.set_default` on dashboard `d`: clear the default
     * flag of every default dashboard of its tenant, then set it on `d`.
     * A dashboard outside the user's tenant is not found.
     */
    method SetDefault(d: Id, userTenant: Id) returns (r: Result<string, Error>)
      modifies this
      ensures r.Err? <==> d !in old(dashboards) || old(dashboards)[d].tenant != userTenant
      ensures r.Err? ==> r == Err(NotFound("No Dashboard matches the given query.")) && dashboards == old(dashboards)
      ensures r.Ok? ==> r.value == "Dashboard set as default"
      ensures dashboards.Keys == old(dashboards).Keys
      ensures r.Ok? ==> forall k :: k in dashboards && dashboards[k].tenant == userTenant ==>
                          (dashboards[k].isDefault <==> k == d)
      ensures r.Ok? ==> AtMostOneDefault(dashboards, userTenant)
      ensures forall k :: k in dashboards && dashboards[k].tenant != userTenant ==> dashboards[k] == old(dashboards)[k]
      ensures forall k :: k in dashboards ==>
                dashboards[k].tenant == old(dashboards)[k].tenant && dashboards[k].name == old(dashboards)[k].name
    {
      if d !in dashboards || dashboards[d].tenant != userTenant {
        return Err(NotFound("No Dashboard matches the given query."));
      }
      var tenant := dashboards[d].tenant;
      dashboards := map k | k in dashboards ::
        if dashboards[k].tenant == tenant && dashboards[k].isDefault then dashboards[k].(isDefault := false) else dashboards[k];
      dashboards := dashboards[d := dashboards[d].(isDefault := true)];
      r := Ok("Dashboard set as default");
    }
  }

  /**
   * `DashboardWidgetViewSet.refresh`: a widget of another tenant is not
   * found; otherwise drop its cached data and cache time (the fresh
   * metrics are not modelled).
   */
  method Refresh(widget: DashboardWidget, userTenant: Id) returns (r: Outcome<Error>)
    modifies widget
    ensures r.Fail? <==> widget.tenant != userTenant
    ensures r.Fail? ==> r.error == NotFound("No DashboardWidget matches the given query.")
    ensures r.Fail? ==> widget.cachedData == old(widget.cachedData) && widget.lastCached == old(widget.lastCached)
    ensures r.Pass? ==> widget.cachedData.None? && widget.lastCached.None?
    ensures widget.tenant == old(widget.tenant)
  {
    if widget.tenant != userTenant {
      return Fail(NotFound("No DashboardWidget matches the given query."));
    }
    widget.cachedData := None;
    widget.lastCached := None;
    r := Pass;
  }

  /** `str(report.id)`. */
  function IdText(id: Id): string
  {
    NatToString(id)
  }

  /** The file path `generate` records: "/reports/<id>.<format>". */
  function ReportPath(id: Id, format: ReportFormat): (p: string)
    ensures |p| > 9 + |format.Name()| && p[..9] == "/reports/" && p[|p| - |format.Name()|..] == format.Name()
  {
    "/reports/" + IdText(id) + "." + format.Name()
  }

  /** What `download` answers: the file, or a refusal that echoes the current status. */
  datatype Download = Ready(downloadUrl: string, fileSize: Option<int>, format: string, name: string)
                    | NotReady(error: string, status: string)

  /**
   * `ReportViewSet.download`: a report of another tenant is not found;
   * only a completed report can be downloaded.
   */
  function DownloadOf(report: Report, userTenant: Id): (r: Result<Download, Error>)
    reads report
    ensures r.Err? <==> report.tenant != userTenant
    ensures r.Err? ==> r.error == NotFound("No Report matches the given query.")
    ensures r.Ok? ==> (r.value.Ready? <==> report.status == ReportCompleted)
    ensures r.Ok? && r.value.NotReady? ==> r.value == NotReady("Report not ready", report.status.Name())
    ensures r.Ok? && r.value.Ready? ==>
              r.value.downloadUrl == report.filePath && r.value.fileSize == report.fileSize &&
              r.value.format == report.format.Name() && r.value.name == report.name
  {
    if report.tenant != userTenant then Err(NotFound("No Report matches the given query."))
    else if report.status != ReportCompleted then Ok(NotReady("Report not ready", report.status.Name()))
    else Ok(Ready(report.filePath, report.fileSize, report.format.Name(), report.name))
  }

  /** What `generate` answers on success: the report id and its new status. */
  datatype Generated = Generated(reportId: string, status: string)

  /**
   * `ReportViewSet.generate`: a report of another tenant is not found and
   * left alone; otherwise mark it as generating, then as completed with
   * the placeholder file. Afterwards it can be downloaded from
   * "/reports/<id>.<format>".
   */
  method Generate(report: Report, userTenant: Id, now: int) returns (r: Result<Generated, Error>)
    modifies report
    ensures r.Err? <==> old(report.tenant) != userTenant
    ensures r.Err? ==> r.error == NotFound("No Report matches the given query.") && unchanged(report)
    ensures r.Ok? ==> r.value == Generated(IdText(report.id), "completed") && report.status == ReportCompleted
    ensures r.Ok? ==> report.filePath == ReportPath(report.id, report.format)
    ensures r.Ok? ==> report.fileSize == Some(1024000) && report.generatedAt == Some(now)
    ensures report.id == old(report.id) && report.tenant == old(report.tenant) && report.format == old(report.format)
    ensures report.name == old(report.name) && report.errorMessage == old(report.errorMessage)
    ensures r.Ok? ==>
              DownloadOf(report, userTenant) == Ok(Ready(ReportPath(report.id, report.format), Some(1024000), report.format.Name(), report.name))
  {
    if report.tenant != userTenant {
      return Err(NotFound("No Report matches the given query."));
    }
    report.MarkAsGenerating();
    var path := "/reports/" + IdText(report.id) + "." + report.format.Name();
    report.MarkAsCompleted(path, 1024000, now);
    r := Ok(Generated(IdText(report.id), report.status.Name()));
  }
}

=== FILE: responses_models.dfy ===
/**
 * Responses: the answer to one assessment question, its maturity score and
 * its draft → submitted → approved/rejected workflow, and the expiry of an
 * evidence file.
 */
module ResponsesModels {
  import opened Common
  import opened QuestionBankModels

  datatype ResponseStatus = ResponseDraft | Submitted | ResponseUnderReview | Approved | Rejected

  /**
   * The maturity score `calculate_maturity_score` leaves, given the
   * question's scale, the `selected_option` of the answer (None when the
   * payload has none) and the score held before.
   */
  function ScoreFor(scale: ScaleType, selected: Option<int>, previous: Option<real>): (score: Option<real>)
  {
    match scale
    case Likert15 => if selected.Some? && selected.value != 0 then Some(selected.value as real) else previous
    case YesNo => if selected == Some(1) then Some(5.0) else Some(1.0)
    case TextScale => previous
    case Numeric => previous
  }

  /**
   * What the score means: a Likert answer is its own score, a missing or
   * zero Likert answer keeps the old score, a yes/no answer scores 5 for
   * yes (1) and 1 for anything else, and the other scales are not scored.
   */
  lemma ScoreForCases(scale: ScaleType, selected: Option<int>, previous: Option<real>)
    ensures scale == Likert15 && selected.Some? && selected.value != 0 ==> ScoreFor(scale, selected, previous) == Some(selected.value as real)
    ensures scale == Likert15 && (selected.None? || selected == Some(0)) ==> ScoreFor(scale, selected, previous) == previous
    ensures scale == YesNo ==> (ScoreFor(scale, selected, previous) == Some(5.0) <==> selected == Some(1))
    ensures scale == YesNo ==> (ScoreFor(scale, selected, previous) == Some(1.0) <==> selected != Some(1))
    ensures scale == TextScale || scale == Numeric ==> ScoreFor(scale, selected, previous) == previous
  {
  }

  /** Scoring the same answer again leaves the score as the first scoring set it. */
  lemma ScoreForIdempotent(scale: ScaleType, selected: Option<int>, previous: Option<real>)
    ensures ScoreFor(scale, selected, ScoreFor(scale, selected, previous)) == ScoreFor(scale, selected, previous)
  {
  }

  /** With a Likert answer between 1 and 5 (or none) and a score in range before, the score stays in [1, 5]. */
  lemma ScoreInRange(scale: ScaleType, selected: Option<int>, previous: Option<real>)
    requires selected.Some? ==> 0 <= selected.value <= 5
    requires previous.Some? ==> 1.0 <= previous.value <= 5.0
    ensures var s := ScoreFor(scale, selected, previous);
            s.Some? ==> 1.0 <= s.value <= 5.0
    ensures scale == YesNo ==> ScoreFor(scale, selected, previous).Some?
  {
  }

  /** A row of the response table: the answer to one assessment question. */
  class Response {
    var tenant: Id
    var assessment: Id
    var question: Id
    /** The scale type of the answered assessment question. */
    var scaleType: ScaleType
    /** `answer_payload['selected_option']`, None when the payload has none. */
    var selectedOption: Option<int>
    var maturityScore: Option<real>
    var status: ResponseStatus
    var submittedAt: Option<int>
    var approvedAt: Option<int>
    var approvedBy: Option<Id>
    var reviewerComments: string

    /** A new response: a draft with no score and no timestamps. */
    constructor(tenant: Id, assessment: Id, question: Id, scaleType: ScaleType, selectedOption: Option<int>)
      ensures this.tenant == tenant && this.assessment == assessment && this.question == question
      ensures this.scaleType == scaleType && this.selectedOption == selectedOption
      ensures status == ResponseDraft && maturityScore.None?
      ensures submittedAt.None? && approvedAt.None? && approvedBy.None? && reviewerComments == ""
    {
      this.tenant := tenant;
      this.assessment := assessment;
      this.question := question;
      this.scaleType := scaleType;
      this.selectedOption := selectedOption;
      maturityScore := None;
      status := ResponseDraft;
      submittedAt := None;
      approvedAt := None;
      approvedBy := None;
      reviewerComments := "";
    }

    /** `calculate_maturity_score()`: recompute the score from the answer; nothing else changes. */
    method CalculateMaturityScore() returns (score: Option<real>)
      modifies this
      ensures maturityScore == ScoreFor(scaleType, selectedOption, old(maturityScore))
      ensures score == maturityScore
      ensures status == old(status) && submittedAt == old(submittedAt) && approvedAt == old(approvedAt)
      ensures approvedBy == old(approvedBy) && reviewerComments == old(reviewerComments)
      ensures scaleType == old(scaleType) && selectedOption == old(selectedOption)
      ensures tenant == old(tenant) && assessment == old(assessment) && question == old(question)
    {
      if scaleType == Likert15 {
        var selected := selectedOption;
        if selected.Some? && selected.value != 0 {
          maturityScore := Some(selected.value as real);
        }
      } else if scaleType == YesNo {
        var selected := selectedOption;
        maturityScore := if selected == Some(1) then Some(5.0) else Some(1.0);
      }
      score := maturityScore;
    }

    /**
     * `submit()`: only a draft can be submitted; it becomes SUBMITTED, is
     * stamped and is scored.  Any other status is refused and nothing
     * changes.
     */
    method Submit(now: int) returns (r: Outcome<Error>)
      modifies this
      ensures old(status) != ResponseDraft ==>
                r == Fail(ValidationError("Can only submit draft responses")) && unchanged(this)
      ensures old(status) == ResponseDraft ==>
                r == Pass && status == Submitted && submittedAt == Some(now) &&
                maturityScore == ScoreFor(scaleType, selectedOption, old(maturityScore))
      ensures approvedAt == old(approvedAt) && approvedBy == old(approvedBy) && reviewerComments == old(reviewerComments)
      ensures scaleType == old(scaleType) && selectedOption == old(selectedOption)
      ensures tenant == old(tenant) && assessment == old(assessment) && question == old(question)
    {
      if status != ResponseDraft {
        return Fail(ValidationError("Can only submit draft responses"));
      }
      status := Submitted;
      submittedAt := Some(now);
      var _ := CalculateMaturityScore();
      r := Pass;
    }

    /** `approve(approver_user)`: from any status, record the approval. */
    method Approve(approver: Option<Id>, now: int)
      modifies this
      ensures status == Approved && approvedAt == Some(now) && approvedBy == approver
      ensures maturityScore == old(maturityScore) && submittedAt == old(submittedAt)
      ensures reviewerComments == old(reviewerComments) && selectedOption == old(selectedOption)
      ensures tenant == old(tenant) && assessment == old(assessment) && question == old(question)
      ensures scaleType == old(scaleType)
    {
      status := Approved;
      approvedAt := Some(now);
      approvedBy := approver;
    }

    /** `reject(reviewer_comments)`: from any status, record the rejection and its reasons. */
    method Reject(comments: string)
      modifies this
      ensures status == Rejected && reviewerComments == comments
      ensures maturityScore == old(maturityScore) && submittedAt == old(submittedAt)
      ensures approvedAt == old(approvedAt) && approvedBy == old(approvedBy) && selectedOption == old(selectedOption)
      ensures tenant == old(tenant) && assessment == old(assessment) && question == old(question)
      ensures scaleType == old(scaleType)
    {
      status := Rejected;
      reviewerComments := comments;
    }
  }

  /** The unique key (assessment, assessment_question) of a response. */
  datatype ResponseKey = ResponseKey(assessment: Id, question: Id)

  /** Inserting a response row: one response per question of an assessment. */
  function AddResponse(keys: seq<ResponseKey>, assessment: Id, question: Id): (r: Result<seq<ResponseKey>, Error>)
    ensures r.Ok? <==> ResponseKey(assessment, question) !in keys
    ensures r.Err? ==> r.error.Conflict?
    ensures r.Ok? ==> r.value == keys + [ResponseKey(assessment, question)]
    ensures r.Ok? && Distinct(keys) ==> Distinct(r.value)
  {
    if ResponseKey(assessment, question) in keys then Err(Conflict("duplicate key value violates unique constraint"))
    else Ok(keys + [ResponseKey(assessment, question)])
  }

  /** `Evidence.is_expired()`: an expiry time is set and has passed. */
  predicate EvidenceIsExpired(expiresAt: Option<int>, now: int)
  {
    expiresAt.Some? && now > expiresAt.value
  }

  /** Evidence without an expiry never expires, and once expired it stays expired. */
  lemma EvidenceExpiryMonotone(expiresAt: Option<int>, now: int, later: int)
    requires now <= later
    ensures expiresAt.None? ==> !EvidenceIsExpired(expiresAt, later)
    ensures EvidenceIsExpired(expiresAt, now) ==> EvidenceIsExpired(expiresAt, later)
  {
  }
}

=== FILE: standards_models.dfy ===
/**
 * The compliance-framework catalog: standards, their versions, and the
 * control tree (domain > sub-domain > control > sub-control) of each
 * version, with the tree queries and the `clean()` validation of a node.
 */
module StandardsModels {
  import opened Common
  import opened Hierarchy

  datatype StandardScope = GlobalScope | TenantScope

  datatype Standard = Standard(scope: StandardScope, tenant: Id, code: string, name: string)

  datatype StandardVersion =
    StandardVersion(id: Id, standard: Id, versionLabel: string, releasedOn: Option<int>, isLocked: bool)

  datatype NodeType = Domain | SubDomain | Control | SubControl
  {
    /** The value stored in the `node_type` column. */
    function Name(): string
    {
      match this
      case Domain => "domain"
      case SubDomain => "sub_domain"
      case Control => "control"
      case SubControl => "sub_control"
    }
  }

  datatype NodeStatus = Active | Deprecated | Draft

  datatype ControlNode = ControlNode(
    version: Id,
    nodeType: NodeType,
    code: string,
    title: string,
    description: string,
    status: NodeStatus,
    weight: real)

  /** The control_node table; its default ordering is by code. */
  type Catalog = Forest<ControlNode>

  /** Ordering of `order_by('-released_on')` on the local SQLite database: NULL dates sort last. */
  predicate AtLeastAsRecent(a: StandardVersion, b: StandardVersion)
  {
    b.releasedOn.None? || (a.releasedOn.Some? && a.releasedOn.value >= b.releasedOn.value)
  }

  predicate Unlocked(v: StandardVersion, standard: Id)
  {
    v.standard == standard && !v.isLocked
  }

  /**
   * The first unlocked version of `standard` by descending release date
   * (ties keep the table order), or None when every version is locked.
   */
  function LatestVersion(versions: seq<StandardVersion>, standard: Id): (r: Option<StandardVersion>)
    ensures r.Some? ==> r.value in versions && Unlocked(r.value, standard)
    ensures r.Some? ==> forall v :: v in versions && Unlocked(v, standard) ==> AtLeastAsRecent(r.value, v)
    ensures r.None? <==> forall v :: v in versions ==> !Unlocked(v, standard)
  {
    if versions == [] then None
    else
      var rest := LatestVersion(versions[1..], standard);
      if Unlocked(versions[0], standard) && (rest.None? || AtLeastAsRecent(versions[0], rest.value))
      then Some(versions[0])
      else rest
  }

  predicate IsControlOf(c: Catalog, version: Id, y: Id)
  {
    y in c.rows && c.rows[y].data.version == version && c.rows[y].data.nodeType == Control
  }

  /** Number of nodes of type `control` in a version. */
  function ControlCount(c: Catalog, version: Id): (n: nat)
    requires Closed(c)
    ensures n == |set y | y in c.rows && IsControlOf(c, version, y)|
  {
    var isControl := y => IsControlOf(c, version, y);
    FilterDistinct(c.order, isControl);
    DistinctCountsSet(Filter(c.order, isControl), set y | y in c.rows && IsControlOf(c, version, y));
    Count(c.order, isControl)
  }

  predicate IsRootOf(c: Catalog, version: Id, y: Id)
  {
    y in c.rows && c.rows[y].data.version == version && c.rows[y].parent.None?
  }

  /** The parentless nodes of a version, ordered by code. */
  function HierarchyRoot(c: Catalog, version: Id): (r: seq<Id>)
    requires Closed(c)
    ensures forall y :: y in r <==> y in c.rows && IsRootOf(c, version, y)
    ensures Distinct(r)
    ensures IsSubsequence(r, c.order)
  {
    FilterDistinct(c.order, y => IsRootOf(c, version, y));
    FilterIsSubsequence(c.order, y => IsRootOf(c, version, y));
    Filter(c.order, y => IsRootOf(c, version, y))
  }

  /** `is_leaf()`: the node has no children. */
  function IsLeaf(c: Catalog, x: Id): bool
  {
    Children(c, x) == []
  }

  /** A leaf is a node no row names as parent, and exactly a node without descendants. */
  lemma IsLeafIff(c: Catalog, x: Id)
    requires Acyclic(c) && x in c.rows
    ensures IsLeaf(c, x) <==> forall y :: y in c.rows ==> ParentOf(c, y) != Some(x)
    ensures IsLeaf(c, x) <==> Descendants(c, x) == []
  {
    ChildrenMembers(c, x);
    if Children(c, x) != [] {
      var z := Children(c, x)[0];
      assert z in Children(c, x);
      DescendantsOfAllMembers(c, Children(c, x), x, z);
    }
  }

  /** `y` sits at the same level as `x`: same parent, or both roots of x's version. */
  predicate SameLevel(c: Catalog, x: Id, y: Id)
    requires x in c.rows
  {
    y in c.rows &&
    if c.rows[x].parent.Some? then c.rows[y].parent == c.rows[x].parent
    else c.rows[y].parent.None? && c.rows[y].data.version == c.rows[x].data.version
  }

  /** `get_sibling_count()`: the parent's child count, or the number of roots of the node's version. */
  function SiblingCount(c: Catalog, x: Id): nat
    requires Closed(c) && x in c.rows
  {
    match c.rows[x].parent
    case Some(p) => |Children(c, p)|
    case None => |HierarchyRoot(c, c.rows[x].data.version)|
  }

  /** The sibling count counts every node at the level of `x`, `x` itself included. */
  lemma SiblingCountCounts(c: Catalog, x: Id)
    requires Closed(c) && x in c.rows
    ensures SiblingCount(c, x) == |set y | y in c.rows && SameLevel(c, x, y)|
    ensures SiblingCount(c, x) >= 1
  {
    var level := set y | y in c.rows && SameLevel(c, x, y);
    assert x in level;
    match c.rows[x].parent
    case Some(p) =>
      ChildrenMembers(c, p);
      DistinctCountsSet(Children(c, p), level);
    case None =>
      DistinctCountsSet(HierarchyRoot(c, c.rows[x].data.version), level);
  }

  /** The allowed parent types of a node type; None when the type is not checked. */
  function AllowedParentTypes(t: NodeType): Option<seq<NodeType>>
  {
    match t
    case Domain => None
    case SubDomain => Some([Domain])
    case Control => Some([Domain, SubDomain])
    case SubControl => Some([Control])
  }

  const CircularMessage: string := "Circular parent reference detected"

  /** The node-type rule of `clean()` for a node of type `t` under `parent`. */
  function TypeRule(c: Catalog, t: NodeType, parent: Option<Id>): (r: Outcome<Error>)
    requires parent.Some? ==> parent.value in c.rows
    ensures r.Fail? <==>
              parent.Some? && t != Domain &&
              !ParentTypeAllowed(t, c.rows[parent.value].data.nodeType)
    ensures r.Fail? ==> r.error == ValidationError(
              t.Name() + " cannot have parent of type " + c.rows[parent.value].data.nodeType.Name())
  {
    if parent.None? then Pass
    else
      var pt := c.rows[parent.value].data.nodeType;
      match AllowedParentTypes(t)
      case None => Pass
      case Some(allowed) =>
        if pt in allowed then Pass
        else Fail(ValidationError(t.Name() + " cannot have parent of type " + pt.Name()))
  }

  /** The hierarchy the catalog follows: domain > sub-domain > control > sub-control, controls also directly under domains. */
  predicate ParentTypeAllowed(t: NodeType, pt: NodeType)
  {
    || (t == SubDomain && pt == Domain)
    || (t == Control && (pt == Domain || pt == SubDomain))
    || (t == SubControl && pt == Control)
  }

  /**
   * `ControlNode.clean()` for node `self` of type `nodeType` being given
   * the parent `parent`: walk up from the parent, failing when a node
   * comes back; then check the parent's type.
   */
  method Clean(c: Catalog, self: Id, nodeType: NodeType, parent: Option<Id>) returns (r: Outcome<Error>)
    requires Closed(c)
    requires parent.Some? ==> parent.value in c.rows
    ensures Revisits(c, self, parent) ==> r == Fail(ValidationError(CircularMessage))
    ensures !Revisits(c, self, parent) ==> r == TypeRule(c, nodeType, parent)
    ensures Acyclic(c) && parent.Some? && self in c.rows &&
            (parent.value == self || parent.value in Descendants(c, self)) ==>
              r == Fail(ValidationError(CircularMessage))
    ensures Acyclic(c) && parent.Some? &&
            !(self in c.rows && (parent.value == self || parent.value in Descendants(c, self))) ==>
              r == TypeRule(c, nodeType, parent)
  {
    ghost var acyclic := Acyclic(c);
    if acyclic && parent.Some? {
      RevisitsIffBelowSelf(c, self, parent.value);
    }
    if parent.Some? {
      var cur := parent;
      var visited := {self};
      ghost var k: nat := 0;
      while cur.Some?
        invariant cur == Walk(c, parent, k)
        invariant cur.Some? ==> cur.value in c.rows
        invariant visited == {self} + WalkSet(c, parent, k)
        invariant NoRevisitBefore(c, self, parent, k)
        decreases c.rows.Keys - visited
      {
        if cur.value in visited {
          RevisitFound(c, self, parent, k);
          return Fail(ValidationError(CircularMessage));
        }
        NoRevisitStep(c, self, parent, k);
        WalkSucc(c, parent, k);
        visited := visited + {cur.value};
        cur := ParentOf(c, cur.value);
        k := k + 1;
      }
      NoRevisitAtEnd(c, self, parent, k);
    } else {
      NoRevisitAtEnd(c, self, parent, 0);
    }
    if parent.Some? {
      var valid := AllowedParentTypes(nodeType);
      if valid.Some? {
        var pt := c.rows[parent.value].data.nodeType;
        if pt !in valid.value {
          return Fail(ValidationError(nodeType.Name() + " cannot have parent of type " + pt.Name()));
        }
      }
    }
    r := Pass;
  }

  function CodeOf(c: Catalog, x: Id): string
    requires x in c.rows
  {
    c.rows[x].data.code
  }

  function CodeTitleOf(c: Catalog, x: Id): string
    requires x in c.rows
  {
    c.rows[x].data.code + " " + c.rows[x].data.title
  }

  /** The codes on the path from the root down to `x`. */
  function PathCodes(c: Catalog, x: Id): seq<string>
    requires Acyclic(c) && x in c.rows
  {
    var rp := RootPath(c, x);
    seq(|rp|, i requires 0 <= i < |rp| => CodeOf(c, rp[i]))
  }

  /** The "code title" labels on the path from the root down to `x`. */
  function PathTitles(c: Catalog, x: Id): seq<string>
    requires Acyclic(c) && x in c.rows
  {
    var rp := RootPath(c, x);
    seq(|rp|, i requires 0 <= i < |rp| => CodeTitleOf(c, rp[i]))
  }

  /**
   * A node's path is its parent's path followed by its own code: one
   * segment per level, the root's first and the node's own last.
   */
  lemma PathCodesStep(c: Catalog, x: Id)
    requires Acyclic(c) && x in c.rows
    ensures |PathCodes(c, x)| == Depth(c, x) + 1
    ensures PathCodes(c, x)[|PathCodes(c, x)| - 1] == CodeOf(c, x)
    ensures ParentOf(c, x).None? ==> PathCodes(c, x) == [CodeOf(c, x)]
    ensures ParentOf(c, x).Some? ==>
              ParentOf(c, x).value in c.rows &&
              PathCodes(c, x) == PathCodes(c, ParentOf(c, x).value) + [CodeOf(c, x)]
  {
    RootPathStep(c, x);
  }

  /** Labels collected from `x` up to its root, read from the root down, are the node's path of codes. */
  lemma PathCodesFromLineage(c: Catalog, x: Id, path: seq<string>)
    requires Acyclic(c) && x in c.rows
    requires |path| == |Lineage(c, x)|
    requires forall j :: 0 <= j < |path| ==> path[j] == CodeOf(c, Lineage(c, x)[|path| - 1 - j])
    ensures path == PathCodes(c, x)
  {
  }

  /** The same for the "code title" labels. */
  lemma PathTitlesFromLineage(c: Catalog, x: Id, path: seq<string>)
    requires Acyclic(c) && x in c.rows
    requires |path| == |Lineage(c, x)|
    requires forall j :: 0 <= j < |path| ==> path[j] == CodeTitleOf(c, Lineage(c, x)[|path| - 1 - j])
    ensures path == PathTitles(c, x)
  {
  }

  /** `get_hierarchy_path()`: the codes from the root down to this node, joined by " > ". */
  method GetHierarchyPath(c: Catalog, x: Id) returns (s: string)
    requires Acyclic(c) && x in c.rows
    ensures s == Join(PathCodes(c, x), " > ")
  {
    ghost var l := Lineage(c, x);
    var path := [CodeOf(c, x)];
    var cur := c.rows[x].parent;
    ghost var i := 1;
    LineageNext(c, x, 0);
    while cur.Some?
      invariant 1 <= i <= |l|
      invariant cur == if i < |l| then Some(l[i]) else None
      invariant |path| == i
      invariant forall j :: 0 <= j < i ==> path[j] == CodeOf(c, l[i - 1 - j])
      decreases |l| - i
    {
      LineageNext(c, x, i);
      path := [CodeOf(c, cur.value)] + path;
      cur := c.rows[cur.value].parent;
      i := i + 1;
    }
    PathCodesFromLineage(c, x, path);
    s := Join(path, " > ");
  }

  /** `get_full_path_title()`: "code title" from the root down to this node, joined by " > ". */
  method GetFullPathTitle(c: Catalog, x: Id) returns (s: string)
    requires Acyclic(c) && x in c.rows
    ensures s == Join(PathTitles(c, x), " > ")
  {
    ghost var l := Lineage(c, x);
    var path := [CodeTitleOf(c, x)];
    var cur := c.rows[x].parent;
    ghost var i := 1;
    LineageNext(c, x, 0);
    while cur.Some?
      invariant 1 <= i <= |l|
      invariant cur == if i < |l| then Some(l[i]) else None
      invariant |path| == i
      invariant forall j :: 0 <= j < i ==> path[j] == CodeTitleOf(c, l[i - 1 - j])
      decreases |l| - i
    {
      LineageNext(c, x, i);
      path := [CodeTitleOf(c, cur.value)] + path;
      cur := c.rows[cur.value].parent;
      i := i + 1;
    }
    PathTitlesFromLineage(c, x, path);
    s := Join(path, " > ");
  }

  /** `get_depth()`: the number of parent links up to the root. */
  method GetDepth(c: Catalog, x: Id) returns (d: nat)
    requires Acyclic(c) && x in c.rows
    ensures d == Depth(c, x)
  {
    ghost var l := Lineage(c, x);
    d := 0;
    var cur := c.rows[x].parent;
    LineageNext(c, x, 0);
    while cur.Some?
      invariant d + 1 <= |l|
      invariant cur == if d + 1 < |l| then Some(l[d + 1]) else None
      decreases |l| - d
    {
      LineageNext(c, x, d + 1);
      d := d + 1;
      cur := c.rows[cur.value].parent;
    }
  }

  /** `get_descendants()`: each child in code order, followed by its own descendants. */
  method GetDescendants(c: Catalog, x: Id) returns (ds: seq<Id>)
    requires Acyclic(c) && x in c.rows
    ensures ds == Descendants(c, x)
    decreases |c.rows| - Depth(c, x)
  {
    var children := Children(c, x);
    ChildrenDescendantsEnds(c, x);
    ds := [];
    for i := 0 to |children|
      invariant ds + ChildrenDescendantsFrom(c, x, i) == Descendants(c, x)
    {
      var child := children[i];
      ChildrenDescendantsStep(c, x, i);
      var sub := GetDescendants(c, child);
      AppendAssoc4(ds, [child], sub, ChildrenDescendantsFrom(c, x, i + 1));
      ds := ds + [child] + sub;
    }
  }
}

=== FILE: standards_views.dfy ===
/**
 * The catalog endpoints: the latest version of a standard, the statistics
 * of a version, tagging control nodes, and the control search.  Every
 * lookup goes through the user's visible standards.
 */
module StandardsViews {
  import opened Common
  import opened Hierarchy
  import opened StandardsModels

  /** The standard, standard_version and control_node tables. */
  datatype StandardsDb = StandardsDb(standards: map<Id, Standard>, versions: seq<StandardVersion>, catalog: Catalog)

  /**
   * The standards a user may see: global standards are shared by every
   * tenant, tenant standards are seen by their own tenant only.
   */
  predicate StandardVisible(db: StandardsDb, s: Id, tenant: Id)
  {
    s in db.standards && (db.standards[s].scope == GlobalScope || db.standards[s].tenant == tenant)
  }

  /**
   * The filter as the querysets write it: global standards of the user's
   * tenant or tenant standards of the user's tenant.
   */
  predicate StandardVisibleAsWritten(db: StandardsDb, s: Id, tenant: Id)
  {
    s in db.standards &&
    ((db.standards[s].scope == GlobalScope && db.standards[s].tenant == tenant) ||
     (db.standards[s].scope == TenantScope && db.standards[s].tenant == tenant))
  }

  /** As written, both branches come down to the standard's tenant being the user's. */
  lemma StandardVisibleAsWrittenOwnTenant(db: StandardsDb, s: Id, tenant: Id)
    ensures StandardVisibleAsWritten(db, s, tenant) <==> s in db.standards && db.standards[s].tenant == tenant
  {
  }

  /**
   * As written, a global standard owned by another tenant is hidden,
   * although global standards are meant to be shared.
   */
  lemma SharedStandardHiddenAsWritten(db: StandardsDb, s: Id, tenant: Id)
    requires s in db.standards && db.standards[s].scope == GlobalScope && db.standards[s].tenant != tenant
    ensures !StandardVisibleAsWritten(db, s, tenant) && StandardVisible(db, s, tenant)
  {
  }

  /**
   * Every standard the written filter shows stays visible; a global
   * standard is visible to every tenant, and a tenant standard exactly to
   * its own tenant.
   */
  lemma StandardVisibleRule(db: StandardsDb, s: Id, tenant: Id, other: Id)
    ensures StandardVisibleAsWritten(db, s, tenant) ==> StandardVisible(db, s, tenant)
    ensures s in db.standards && db.standards[s].scope == GlobalScope ==>
              StandardVisible(db, s, tenant) && StandardVisible(db, s, other)
    ensures s in db.standards && db.standards[s].scope == TenantScope ==>
              (StandardVisible(db, s, tenant) <==> db.standards[s].tenant == tenant)
  {
  }

  /** The first version row with key `id`. */
  function FindVersion(vs: seq<StandardVersion>, id: Id): (r: Option<StandardVersion>)
    ensures r.Some? ==> r.value in vs && r.value.id == id
    ensures r.None? ==> forall v :: v in vs ==> v.id != id
  {
    if vs == [] then None else if vs[0].id == id then Some(vs[0]) else FindVersion(vs[1..], id)
  }

  predicate VersionVisible(db: StandardsDb, vid: Id, tenant: Id)
  {
    var v := FindVersion(db.versions, vid);
    v.Some? && StandardVisible(db, v.value.standard, tenant)
  }

  predicate NodeVisible(db: StandardsDb, x: Id, tenant: Id)
  {
    x in db.catalog.rows && VersionVisible(db, db.catalog.rows[x].data.version, tenant)
  }

  /**
   * `StandardViewSet.latest`: the standard's latest unlocked version; not
   * found when the standard is not visible, or when it has no unlocked
   * version.
   */
  function Latest(db: StandardsDb, tenant: Id, standard: Id): (r: Result<StandardVersion, Error>)
    ensures !StandardVisible(db, standard, tenant) ==> r == Err(NotFound("No Standard matches the given query."))
    ensures StandardVisible(db, standard, tenant) ==>
              (r == Err(NotFound("No versions found for this standard")) <==>
               forall v :: v in db.versions ==> !Unlocked(v, standard))
    ensures r.Ok? ==> r.value in db.versions && Unlocked(r.value, standard) &&
                      forall v :: v in db.versions && Unlocked(v, standard) ==> AtLeastAsRecent(r.value, v)
  {
    if !StandardVisible(db, standard, tenant) then Err(NotFound("No Standard matches the given query."))
    else
      var latest := LatestVersion(db.versions, standard);
      if latest.None? then Err(NotFound("No versions found for this standard")) else Ok(latest.value)
  }

  // ----- statistics -----

  function VersionNodes(c: Catalog, v: Id): set<Id>
  {
    set y | y in c.rows && c.rows[y].data.version == v
  }

  function TypeNodes(c: Catalog, v: Id, t: NodeType): set<Id>
  {
    set y | y in c.rows && c.rows[y].data.version == v && c.rows[y].data.nodeType == t
  }

  function StatusNodes(c: Catalog, v: Id, s: NodeStatus): set<Id>
  {
    set y | y in c.rows && c.rows[y].data.version == v && c.rows[y].data.status == s
  }

  /** The nodes of version `v` whose criticality weight lies in [lo, hi) (None: unbounded). */
  function WeightNodes(c: Catalog, v: Id, lo: Option<real>, hi: Option<real>): set<Id>
  {
    set y | y in c.rows && c.rows[y].data.version == v &&
            (lo.None? || c.rows[y].data.weight >= lo.value) &&
            (hi.None? || c.rows[y].data.weight < hi.value)
  }

  datatype VersionStatistics = VersionStatistics(
    totalNodes: nat,
    byType: map<NodeType, nat>,
    byStatus: map<NodeStatus, nat>,
    critical: nat,
    high: nat,
    medium: nat,
    low: nat)

  /** A grouped count, 0 for a group with no rows (the group is then absent from the answer). */
  function Get<K>(m: map<K, nat>, k: K): nat
  {
    if k in m then m[k] else 0
  }

  /**
   * The statistics of version `v`: the node count, the counts grouped by
   * node type and by status (only the groups that occur), and the four
   * criticality buckets (critical ≥ 8, high [5, 8), medium [3, 5), low < 3).
   */
  function StatisticsOf(c: Catalog, v: Id): (s: VersionStatistics)
    ensures s.totalNodes == |VersionNodes(c, v)|
    ensures forall t :: t in s.byType <==> |TypeNodes(c, v, t)| > 0
    ensures forall t :: Get(s.byType, t) == |TypeNodes(c, v, t)|
    ensures forall st :: st in s.byStatus <==> |StatusNodes(c, v, st)| > 0
    ensures forall st :: Get(s.byStatus, st) == |StatusNodes(c, v, st)|
    ensures s.critical + s.high + s.medium + s.low == s.totalNodes
    ensures Get(s.byType, Domain) + Get(s.byType, SubDomain) + Get(s.byType, Control) + Get(s.byType, SubControl) == s.totalNodes
    ensures Get(s.byStatus, Active) + Get(s.byStatus, Deprecated) + Get(s.byStatus, Draft) == s.totalNodes
  {
    var byType := map t: NodeType | |TypeNodes(c, v, t)| > 0 :: |TypeNodes(c, v, t)|;
    var byStatus := map st: NodeStatus | |StatusNodes(c, v, st)| > 0 :: |StatusNodes(c, v, st)|;
    CriticalityPartition(c, v);
    TypesPartition(c, v);
    StatusesPartition(c, v);
    VersionStatistics(
      |VersionNodes(c, v)|, byType, byStatus,
      |WeightNodes(c, v, Some(8.0), None)|,
      |WeightNodes(c, v, Some(5.0), Some(8.0))|,
      |WeightNodes(c, v, Some(3.0), Some(5.0))|,
      |WeightNodes(c, v, None, Some(3.0))|)
  }

  /** The four criticality buckets split a version's nodes: every node falls in exactly one. */
  lemma CriticalityPartition(c: Catalog, v: Id)
    ensures |WeightNodes(c, v, Some(8.0), None)| + |WeightNodes(c, v, Some(5.0), Some(8.0))| +
            |WeightNodes(c, v, Some(3.0), Some(5.0))| + |WeightNodes(c, v, None, Some(3.0))| == |VersionNodes(c, v)|
  {
    assert VersionNodes(c, v) == WeightNodes(c, v, None, None);
    WeightSplit(c, v, None, 3.0, None);
    WeightSplit(c, v, Some(3.0), 5.0, None);
    WeightSplit(c, v, Some(5.0), 8.0, None);
  }

  /** Cutting a weight range at `mid` splits its nodes in two. */
  lemma WeightSplit(c: Catalog, v: Id, lo: Option<real>, mid: real, hi: Option<real>)
    requires lo.Some? ==> lo.value <= mid
    requires hi.Some? ==> mid <= hi.value
    ensures |WeightNodes(c, v, lo, hi)| == |WeightNodes(c, v, lo, Some(mid))| + |WeightNodes(c, v, Some(mid), hi)|
  {
    var below, above := WeightNodes(c, v, lo, Some(mid)), WeightNodes(c, v, Some(mid), hi);
    assert below * above == {};
    assert WeightNodes(c, v, lo, hi) == below + above;
  }

  /** The node types split a version's nodes. */
  lemma TypesPartition(c: Catalog, v: Id)
    ensures |TypeNodes(c, v, Domain)| + |TypeNodes(c, v, SubDomain)| +
            |TypeNodes(c, v, Control)| + |TypeNodes(c, v, SubControl)| == |VersionNodes(c, v)|
  {
    var d, sd, ct, sc := TypeNodes(c, v, Domain), TypeNodes(c, v, SubDomain), TypeNodes(c, v, Control), TypeNodes(c, v, SubControl);
    assert d * sd == {};
    var a := d + sd;
    assert a * ct == {};
    var b := a + ct;
    assert b * sc == {};
    assert b + sc == VersionNodes(c, v);
  }

  /** The statuses split a version's nodes. */
  lemma StatusesPartition(c: Catalog, v: Id)
    ensures |StatusNodes(c, v, Active)| + |StatusNodes(c, v, Deprecated)| + |StatusNodes(c, v, Draft)| == |VersionNodes(c, v)|
  {
    var ac, de, dr := StatusNodes(c, v, Active), StatusNodes(c, v, Deprecated), StatusNodes(c, v, Draft);
    assert ac * de == {};
    var a := ac + de;
    assert a * dr == {};
    assert a + dr == VersionNodes(c, v);
  }

  /** `StandardVersionViewSet.statistics`: the statistics of a visible version. */
  function Statistics(db: StandardsDb, tenant: Id, vid: Id): (r: Result<VersionStatistics, Error>)
    ensures r.Err? <==> !VersionVisible(db, vid, tenant)
    ensures r.Err? ==> r.error == NotFound("No StandardVersion matches the given query.")
    ensures r.Ok? ==> r.value == StatisticsOf(db.catalog, vid) && r.value.totalNodes == |VersionNodes(db.catalog, vid)|
  {
    if !VersionVisible(db, vid, tenant) then Err(NotFound("No StandardVersion matches the given query."))
    else Ok(StatisticsOf(db.catalog, vid))
  }

  // ----- tags -----

  lemma LowerIdempotent(s: string)
    ensures Lower(Lower(s)) == Lower(s)
  {
  }

  /** A tag added as "Cloud" is the one a removal of "CLOUD" deletes: both are stored and looked up as "cloud". */
  lemma TagCaseFolded()
    ensures Lower("Cloud") == Lower("CLOUD") == "cloud"
  {
    assert Lower("Cloud") == "cloud";
    assert Lower("CLOUD") == "cloud";
  }

  /** The tag of a request: `request.data.get('tag')`, None when absent. */
  predicate TagGiven(tag: Option<string>)
  {
    tag.Some? && tag.value != ""
  }

  /** The control_node_tag table: (tenant, node, tag) triples, unique. */
  class TagTable {
    var tags: set<(Id, Id, string)>

    constructor()
      ensures tags == {}
    {
      tags := {};
    }

    /**
     * `ControlNodeViewSet.add_tag`: get-or-create the lower-cased tag for
     * the user's tenant; the message says whether it was new.
     */
    method AddTag(db: StandardsDb, tenant: Id, node: Id, tag: Option<string>) returns (r: Result<(string, string), Error>)
      modifies this
      ensures !NodeVisible(db, node, tenant) ==> r == Err(NotFound("No ControlNode matches the given query.")) && tags == old(tags)
      ensures NodeVisible(db, node, tenant) && !TagGiven(tag) ==> r == Err(BadRequest("tag is required")) && tags == old(tags)
      ensures NodeVisible(db, node, tenant) && TagGiven(tag) ==>
                var key := (tenant, node, Lower(tag.value));
                tags == old(tags) + {key} &&
                r == Ok((if key in old(tags) then "Tag already exists" else "Tag added", Lower(tag.value)))
    {
      if !NodeVisible(db, node, tenant) {
        return Err(NotFound("No ControlNode matches the given query."));
      }
      if tag.None? || tag.value == "" {
        return Err(BadRequest("tag is required"));
      }
      var key := (tenant, node, Lower(tag.value));
      var created := key !in tags;
      tags := tags + {key};
      r := Ok((if created then "Tag added" else "Tag already exists", key.2));
    }

    /**
     * `ControlNodeViewSet.remove_tag`: delete the lower-cased tag of the
     * user's tenant; not found when there was nothing to delete.
     */
    method RemoveTag(db: StandardsDb, tenant: Id, node: Id, tag: Option<string>) returns (r: Result<string, Error>)
      modifies this
      ensures !NodeVisible(db, node, tenant) ==> r == Err(NotFound("No ControlNode matches the given query.")) && tags == old(tags)
      ensures NodeVisible(db, node, tenant) && !TagGiven(tag) ==> r == Err(BadRequest("tag is required")) && tags == old(tags)
      ensures NodeVisible(db, node, tenant) && TagGiven(tag) ==>
                var key := (tenant, node, Lower(tag.value));
                tags == old(tags) - {key} &&
                r == (if key in old(tags) then Ok("Tag removed") else Err(NotFound("Tag not found")))
    {
      if !NodeVisible(db, node, tenant) {
        return Err(NotFound("No ControlNode matches the given query."));
      }
      if tag.None? || tag.value == "" {
        return Err(BadRequest("tag is required"));
      }
      var key := (tenant, node, Lower(tag.value));
      var deleted := if key in tags then 1 else 0;
      tags := tags - {key};
      if deleted > 0 {
        r := Ok("Tag removed");
      } else {
        r := Err(NotFound("Tag not found"));
      }
    }
  }

  // ----- search -----

  /** A node the search keeps: visible, matching `q` in code, title or description, and the optional filters. */
  predicate SearchMatch(db: StandardsDb, tenant: Id, q: string, nodeType: string, standardCode: string, x: Id)
  {
    NodeVisible(db, x, tenant) &&
    var n := db.catalog.rows[x].data;
    (IContains(n.code, q) || IContains(n.title, q) || IContains(n.description, q)) &&
    (nodeType == "" || n.nodeType.Name() == nodeType) &&
    (standardCode == "" || db.standards[FindVersion(db.versions, n.version).value.standard].code == standardCode)
  }

  /** The ids of `order` that `SearchMatch` keeps, in order. */
  function Matches(db: StandardsDb, tenant: Id, q: string, nodeType: string, standardCode: string, order: seq<Id>)
    : (r: seq<Id>)
    ensures |r| <= |order|
    ensures forall x :: x in r <==> x in order && SearchMatch(db, tenant, q, nodeType, standardCode, x)
    ensures forall x :: x in r ==> NodeVisible(db, x, tenant)
  {
    if order == [] then []
    else
      var init := Matches(db, tenant, q, nodeType, standardCode, order[..|order| - 1]);
      var last := order[|order| - 1];
      assert order == order[..|order| - 1] + [last];
      if SearchMatch(db, tenant, q, nodeType, standardCode, last) then init + [last] else init
  }

  /** One entry of the search results. */
  datatype SearchHit = SearchHit(
    id: Id,
    code: string,
    title: string,
    nodeType: string,
    standardCode: string,
    standardName: string,
    versionLabel: string,
    hierarchyPath: string)

  /** The entry for a visible node. */
  function HitFor(db: StandardsDb, tenant: Id, x: Id): (h: SearchHit)
    requires Acyclic(db.catalog) && NodeVisible(db, x, tenant)
    ensures h.id == x
  {
    var n := db.catalog.rows[x].data;
    var v := FindVersion(db.versions, n.version).value;
    var s := db.standards[v.standard];
    SearchHit(x, n.code, n.title, n.nodeType.Name(), s.code, s.name, v.versionLabel, Join(PathCodes(db.catalog, x), " > "))
  }

  datatype SearchReply = SearchReply(query: string, count: nat, results: seq<SearchHit>)

  /** The entries for a list of visible nodes, in order. */
  function Hits(db: StandardsDb, tenant: Id, ids: seq<Id>): (hs: seq<SearchHit>)
    requires Acyclic(db.catalog) && forall i :: 0 <= i < |ids| ==> NodeVisible(db, ids[i], tenant)
    ensures |hs| == |ids|
  {
    if ids == [] then [] else Hits(db, tenant, ids[..|ids| - 1]) + [HitFor(db, tenant, ids[|ids| - 1])]
  }

  /** Entry `i` of the hits is the entry for node `i`. */
  lemma {:induction false} HitsAt(db: StandardsDb, tenant: Id, ids: seq<Id>, i: nat)
    requires Acyclic(db.catalog) && forall k :: 0 <= k < |ids| ==> NodeVisible(db, ids[k], tenant)
    requires i < |ids|
    ensures Hits(db, tenant, ids)[i] == HitFor(db, tenant, ids[i])
  {
    if i < |ids| - 1 {
      HitsAt(db, tenant, ids[..|ids| - 1], i);
    }
  }

  /** The hits for one more node are the hits so far and its entry. */
  lemma HitsSnoc(db: StandardsDb, tenant: Id, ids: seq<Id>, i: nat)
    requires Acyclic(db.catalog) && forall k :: 0 <= k < |ids| ==> NodeVisible(db, ids[k], tenant)
    requires i < |ids|
    ensures Hits(db, tenant, ids[..i + 1]) == Hits(db, tenant, ids[..i]) + [HitFor(db, tenant, ids[i])]
  {
    assert ids[..i + 1][..i] == ids[..i];
  }

  /** The entry for one node, its hierarchy path computed by walking up from it. */
  method BuildHit(db: StandardsDb, tenant: Id, x: Id) returns (h: SearchHit)
    requires Acyclic(db.catalog) && NodeVisible(db, x, tenant)
    ensures h == HitFor(db, tenant, x)
  {
    var n := db.catalog.rows[x].data;
    var v := FindVersion(db.versions, n.version).value;
    var s := db.standards[v.standard];
    var path := GetHierarchyPath(db.catalog, x);
    h := SearchHit(x, n.code, n.title, n.nodeType.Name(), s.code, s.name, v.versionLabel, path);
  }

  /** The entries for the nodes `ids`, built one by one in order. */
  method BuildHits(db: StandardsDb, tenant: Id, ids: seq<Id>) returns (results: seq<SearchHit>)
    requires Acyclic(db.catalog) && forall i :: 0 <= i < |ids| ==> NodeVisible(db, ids[i], tenant)
    ensures results == Hits(db, tenant, ids)
  {
    results := [];
    for i := 0 to |ids|
      invariant results == Hits(db, tenant, ids[..i])
    {
      var hit := BuildHit(db, tenant, ids[i]);
      HitsSnoc(db, tenant, ids, i);
      results := results + [hit];
    }
    assert ids[..|ids|] == ids;
  }

  /** Python's `qs[:50]`. */
  function Take50(m: seq<Id>): (r: seq<Id>)
    ensures |r| <= 50 && (|m| <= 50 ==> r == m) && (|m| > 50 ==> |r| == 50)
    ensures forall i :: 0 <= i < |r| ==> r[i] == m[i]
  {
    if |m| <= 50 then m else m[..50]
  }

  /**
   * `ControlNodeViewSet.search`: an empty `q` is refused; otherwise the
   * first 50 matching nodes in code order, each with its standard, its
   * version and its hierarchy path, and their number.
   */
  method Search(db: StandardsDb, tenant: Id, q: string, nodeType: string, standardCode: string)
    returns (r: Result<SearchReply, Error>)
    requires q != "" ==> Acyclic(db.catalog)
    ensures r.Err? <==> q == ""
    ensures r.Err? ==> r.error == BadRequest("Query parameter \"q\" is required")
    ensures r.Ok? ==> r.value.query == q && r.value.count == |r.value.results| <= 50
    ensures r.Ok? ==> r.value.results == Hits(db, tenant, Take50(Matches(db, tenant, q, nodeType, standardCode, db.catalog.order)))
  {
    if q == "" {
      return Err(BadRequest("Query parameter \"q\" is required"));
    }
    var m := Matches(db, tenant, q, nodeType, standardCode, db.catalog.order);
    var qs := Take50(m);
    forall k | 0 <= k < |qs|
      ensures NodeVisible(db, qs[k], tenant)
    {
      assert m[k] in m;
    }
    var results := BuildHits(db, tenant, qs);
    r := Ok(SearchReply(q, |results|, results));
  }

  /**
   * What a search answers: at most 50 entries, each for a visible
   * node matching the query and filters, and all the matches when there
   * are no more than 50.
   */
  lemma SearchResultsMatch(db: StandardsDb, tenant: Id, q: string, nodeType: string, standardCode: string)
    requires Acyclic(db.catalog)
    ensures var m := Matches(db, tenant, q, nodeType, standardCode, db.catalog.order);
            var hs := Hits(db, tenant, Take50(m));
            |hs| <= 50 &&
            (forall i :: 0 <= i < |hs| ==> SearchMatch(db, tenant, q, nodeType, standardCode, hs[i].id)) &&
            (|m| <= 50 ==> forall x :: x in db.catalog.order && SearchMatch(db, tenant, q, nodeType, standardCode, x) ==>
                             exists i :: 0 <= i < |hs| && hs[i].id == x)
  {
    var m := Matches(db, tenant, q, nodeType, standardCode, db.catalog.order);
    var hs := Hits(db, tenant, Take50(m));
    forall i | 0 <= i < |hs|
      ensures SearchMatch(db, tenant, q, nodeType, standardCode, hs[i].id)
    {
      HitsAt(db, tenant, Take50(m), i);
      assert Take50(m)[i] == m[i] && m[i] in m;
    }
    if |m| <= 50 {
      forall x | x in db.catalog.order && SearchMatch(db, tenant, q, nodeType, standardCode, x)
        ensures exists i :: 0 <= i < |hs| && hs[i].id == x
      {
        var i :| 0 <= i < |m| && m[i] == x;
        HitsAt(db, tenant, m, i);
        assert hs[i].id == x;
      }
    }
  }
}

=== FILE: tenancy_models.dfy ===
/**
 * Tenants and the business-unit tree of a tenant: the unit's label, its
 * `clean()` cycle check, its hierarchy path and its descendants.
 */
module TenancyModels {
  import opened Common
  import opened Hierarchy

  datatype TenantStatus = TenantActive | Suspended | Trial | Archived
  {
    /** The value stored in the `status` column. */
    function Name(): string
    {
      match this
      case TenantActive => "active"
      case Suspended => "suspended"
      case Trial => "trial"
      case Archived => "archived"
    }
  }

  datatype Tenant = Tenant(name: string, status: TenantStatus)

  /**
   * `Tenant.is_active()`: the stored status is "active". Only an active
   * tenant counts; suspended, trial and archived tenants do not.
   */
  function TenantIsActive(t: Tenant): (r: bool)
    ensures r <==> t.status == TenantActive
  {
    t.status.Name() == "active"
  }

  datatype UnitStatus = UnitActive | Inactive | Merged

  datatype BusinessUnit = BusinessUnit(tenant: Id, organization: Option<Id>, name: string, status: UnitStatus)

  /** The business_unit table; its default ordering is by name. */
  type Units = Forest<BusinessUnit>

  function NameOf(u: Units, x: Id): string
    requires x in u.rows
  {
    u.rows[x].data.name
  }

  /** `BusinessUnit.__str__`: one level only, "parent > unit" or the bare name. */
  function Label(u: Units, x: Id): (s: string)
    requires Closed(u) && x in u.rows
    ensures u.rows[x].parent.None? ==> s == NameOf(u, x)
    ensures u.rows[x].parent.Some? ==>
              s == NameOf(u, u.rows[x].parent.value) + " > " + NameOf(u, x)
  {
    match u.rows[x].parent
    case None => NameOf(u, x)
    case Some(p) => NameOf(u, p) + " > " + NameOf(u, x)
  }

  /** The names on the path from the root unit down to `x`. */
  function PathNames(u: Units, x: Id): seq<string>
    requires Acyclic(u) && x in u.rows
  {
    var rp := RootPath(u, x);
    seq(|rp|, i requires 0 <= i < |rp| => NameOf(u, rp[i]))
  }

  /**
   * The label shows the last two segments of the hierarchy path: a unit
   * one level deep is labelled with its whole path.
   */
  lemma LabelIsPathTail(u: Units, x: Id)
    requires Acyclic(u) && x in u.rows
    ensures u.rows[x].parent.None? ==> Label(u, x) == Join(PathNames(u, x), " > ")
    ensures u.rows[x].parent.Some? ==>
              var path := PathNames(u, x);
              |path| >= 2 && Label(u, x) == path[|path| - 2] + " > " + path[|path| - 1]
  {
    RootPathStep(u, x);
    match u.rows[x].parent
    case None =>
    case Some(p) =>
      RootPathStep(u, p);
  }

  const CircularMessage: string := "Circular parent reference detected"

  /**
   * `BusinessUnit.clean()` for unit `self` being given `parent`: walk up
   * from the parent and fail when a unit comes back.
   */
  method Clean(u: Units, self: Id, parent: Option<Id>) returns (r: Outcome<Error>)
    requires Closed(u)
    requires parent.Some? ==> parent.value in u.rows
    ensures r.Fail? <==> Revisits(u, self, parent)
    ensures r.Fail? ==> r.error == ValidationError(CircularMessage)
    ensures Acyclic(u) && parent.Some? ==>
              (r.Fail? <==> self in u.rows && (parent.value == self || parent.value in Descendants(u, self)))
  {
    ghost var acyclic := Acyclic(u);
    if acyclic && parent.Some? {
      RevisitsIffBelowSelf(u, self, parent.value);
    }
    if parent.Some? {
      var cur := parent;
      var visited := {self};
      ghost var k: nat := 0;
      while cur.Some?
        invariant cur == Walk(u, parent, k)
        invariant cur.Some? ==> cur.value in u.rows
        invariant visited == {self} + WalkSet(u, parent, k)
        invariant NoRevisitBefore(u, self, parent, k)
        decreases u.rows.Keys - visited
      {
        if cur.value in visited {
          RevisitFound(u, self, parent, k);
          return Fail(ValidationError(CircularMessage));
        }
        NoRevisitStep(u, self, parent, k);
        WalkSucc(u, parent, k);
        visited := visited + {cur.value};
        cur := ParentOf(u, cur.value);
        k := k + 1;
      }
      NoRevisitAtEnd(u, self, parent, k);
    } else {
      NoRevisitAtEnd(u, self, parent, 0);
    }
    r := Pass;
  }

  /** Names collected from `x` up to its root, read from the root down, are the unit's path of names. */
  lemma PathNamesFromLineage(u: Units, x: Id, path: seq<string>)
    requires Acyclic(u) && x in u.rows
    requires |path| == |Lineage(u, x)|
    requires forall j :: 0 <= j < |path| ==> path[j] == NameOf(u, Lineage(u, x)[|path| - 1 - j])
    ensures path == PathNames(u, x)
  {
  }

  /** `get_hierarchy_path()`: the names from the root unit down to `x`, joined by " > ". */
  method GetHierarchyPath(u: Units, x: Id) returns (s: string)
    requires Acyclic(u) && x in u.rows
    ensures s == Join(PathNames(u, x), " > ")
  {
    ghost var l := Lineage(u, x);
    var path := [NameOf(u, x)];
    var cur := u.rows[x].parent;
    ghost var i := 1;
    LineageNext(u, x, 0);
    while cur.Some?
      invariant 1 <= i <= |l|
      invariant cur == if i < |l| then Some(l[i]) else None
      invariant |path| == i
      invariant forall j :: 0 <= j < i ==> path[j] == NameOf(u, l[i - 1 - j])
      decreases |l| - i
    {
      LineageNext(u, x, i);
      path := [NameOf(u, cur.value)] + path;
      cur := u.rows[cur.value].parent;
      i := i + 1;
    }
    PathNamesFromLineage(u, x, path);
    s := Join(path, " > ");
  }

  /** `get_descendants()`: each child unit in name order, followed by its own descendants. */
  method GetDescendants(u: Units, x: Id) returns (ds: seq<Id>)
    requires Acyclic(u) && x in u.rows
    ensures ds == Descendants(u, x)
    decreases |u.rows| - Depth(u, x)
  {
    var children := Children(u, x);
    ChildrenDescendantsEnds(u, x);
    ds := [];
    for i := 0 to |children|
      invariant ds + ChildrenDescendantsFrom(u, x, i) == Descendants(u, x)
    {
      var child := children[i];
      ChildrenDescendantsStep(u, x, i);
      var sub := GetDescendants(u, child);
      AppendAssoc4(ds, [child], sub, ChildrenDescendantsFrom(u, x, i + 1));
      ds := ds + [child] + sub;
    }
  }
}
